=== FILE: README.md ===
# pic2epub packaging engine in Dafny

A model of the decision and ordering logic of `pic2epub.py`, which turns a
folder of images into an EPUB e-book. It can also convert every subfolder of
a base folder into its own book (batch mode), or merge all of them into one
book (merged mode). No I/O is modelled. The model covers:

- **Asset scanning** (`scan_images`): a directory listing is filtered to the
  regular, non-`.epub` files whose lower-cased suffix is in the supported
  set. Progress is reported per file and the stop flag is polled before each
  file.
- **Page ordering** (`extract_number`, `get_cover_file`, `sort_image_files`):
  the cover comes first, preferring JPEG. The rest are sorted by the first
  digit run, then by name.
- **Package construction** (`get_image_media_type` and the logical part of
  `create_epub_from_images`):
  - manifest, spine, navigation points and the per-image pages, as
    datatypes;
  - the zero-padded file names;
  - the staged file list and the archive entry list, with `mimetype` first
    and stored;
  - the packing batches and the exact progress sequence;
  - where a cancellation can fall, and what the archive holds at that point.
- **Overwrite policy** (`OverwritePolicy.should_overwrite`): a memoising state
  machine. The dialog's answers are an input sequence.
- **Runs**: `run_single_conversion`, `run_merged_conversion`,
  `run_batch_conversion` and `run_merged_batch_conversion`. This includes
  folder discovery (`get_valid_subfolders`) and image collection across
  folders (`get_all_images_from_subfolders`).

The user's cancel request is a `threading.Event` that is set once and never
cleared. It is modelled by `StopFlags.StopFlag`:

- `Never` means the flag is never set.
- `After(k)` means the first `k` polls see the flag clear and every later
  poll sees it set.

Every stage takes the flag and returns it as seen after its own polls. A
whole run therefore polls in program order, and "interrupted" can be stated
as "the flag is met within the polls this stage makes".

The filesystem enters in three ways:

- a listing is `Option<seq<...>>`, where `None` means `os.listdir` raised;
- the existing output files are a set of paths threaded through a run;
- the answers to the overwrite dialog are a sequence consumed one per
  prompt.

The modules, in dependency order:

- `Strings`, `Decimal`: lower-casing, suffix, path join and base name,
  decimal digits.
- `StopFlags`
- `Scanner`
- `Ordering`
- `Package`: the documents of the book.
- `Archive`: staging, packing, progress and cancellation points.
- `Overwrite`
- `Discovery`: subfolder discovery and collection across folders.
- `Runs`: a single-folder run.
- `Batch`
- `Merged`

In four places the code behaves differently from what its messages and
names suggest, and the model follows the code:

- A batch run that is cancelled, by the flag or by "cancel" in the dialog,
  reports success with the archives produced so far. It does not report a
  cancellation (`Batch.RunBatch`).
- A remembered "cancel" answers later conflicts with "overwrite"
  (`Overwrite.AnswerRemembered`).
- An archive interrupted during packing is left on disk, not deleted
  (`Runs.WriteBookEnv`).
- The staging files are removed only after packing completes
  (pic2epub.py:423-429, with no `try`/`finally`). A cancelled or failed
  build leaves `mimetype`, `META-INF/` and `OEBPS/` in the working
  directory. The model does not carry the working directory from one build
  to the next. Its build facts describe a build that starts from a clean
  working directory (see "## Left out").

## Model

| member | source | states |
|---|---|---|
| Strings.Suffix | pic2epub.py:249 | The suffix is empty, or it is a final dot-part of the name: it starts with its only dot and is shorter than the name. |
| Strings.SuffixAtLastDot | pic2epub.py:249 | When the last dot is neither the first nor the last character, the suffix is the text from that dot. The suffix is empty exactly when there is no such dot. |
| Strings.BaseNameOfJoin | pic2epub.py:731-738 | Joining a directory and a slash-free name and taking the base name gives the name back. |
| Strings.LessTotal | pic2epub.py:188 | The string comparison used as the sort tie-break is total on distinct strings. With LessIrreflexive, LessAsymmetric and LessTransitive it is a strict total order. |
| Decimal.NatToString | pic2epub.py:155 | The decimal text of `n` is all digits, has no leading zero, and parses back to `n`. |
| Decimal.NatToStringInjective | pic2epub.py:155 | Distinct numbers have distinct decimal texts. |
| Decimal.ZeroPad | pic2epub.py:333 | The zero-padded text is all digits, at least `width` long, and parses back to the number. |
| Decimal.ZeroPadWidth | pic2epub.py:333 | Indices below 10000 pad to exactly four characters. |
| Decimal.ExtractNumber | pic2epub.py:152-155 | The key is infinite exactly when the name has no digit. |
| Decimal.ExtractNumberFirstRun | pic2epub.py:152-155 | A finite key is the value of a maximal digit run that follows a digit-free prefix, that is, of the first digit run. |
| Decimal.ExtractNumberOfRun | pic2epub.py:152-155 | A digit-free prefix, then a maximal digit run, zero-padded or not, gives the run's value as key. |
| Decimal.ExtractNumberOfPrefixed | pic2epub.py:152-155 | After a digit-free prefix, the decimal text of `n` as first digit run gives key `n`. |
| Decimal.ExtractNumberPadded | pic2epub.py:152-155 | Leading zeros do not change the key: `k` zeros before the decimal text of `n` still give key `n`. |
| StopFlags.AdvanceAdd | pic2epub.py:246-247 | Polling `a` times and then `b` times is the same as polling `a + b` times. The flag is met within `a + b` polls exactly when it is met within the first `a`, or within `b` after them. |
| Scanner.ScanLoop | pic2epub.py:244-257 | The loop is interrupted exactly when the flag is met within the remaining files. Otherwise it keeps the files with a supported suffix, in order. The reports are `(i + 1, len)` for each file examined. |
| Scanner.ScanImages | pic2epub.py:231-257 | A failed listing gives no images and no polls. Otherwise the scan is interrupted exactly when the flag is met within the candidate files. A completed scan returns the supported, non-`.epub` regular files in listing order and reports `(1, n)` to `(n, n)`. |
| Scanner.ImageNamesMembership | pic2epub.py:236-250 | A name is returned exactly when some listed entry has that name, is a regular non-`.epub` file and has a supported suffix. |
| Scanner.EpubNeverScanned | pic2epub.py:238 | A name ending in `.epub`, in any case, is never returned. |
| Ordering.CoverIndex | pic2epub.py:158-175 | There is no cover exactly when no name contains "cover". Otherwise the chosen name is a candidate of the highest priority, and every earlier candidate has strictly lower priority, so the sort is stable. |
| Ordering.GetCover | pic2epub.py:158-175 | The cover is absent exactly when no name contains "cover", in any case. Otherwise it is one of the names, contains "cover", and is the name at the chosen cover index. |
| Ordering.GetCoverChoice | pic2epub.py:158-175 | The cover has the highest priority among the candidates, so a JPEG whenever a JPEG candidate exists. No earlier candidate has that priority: it is the first of the best. |
| Ordering.JpegCoverPreferred | pic2epub.py:163-168 | When a JPEG candidate exists, no non-JPEG candidate is chosen, and the chosen cover is a JPEG. |
| Ordering.SortByKey | pic2epub.py:188 | The result is sorted by (first number, name) and is a permutation of the input. |
| Ordering.SortedPermutationUnique | pic2epub.py:188 | Two sorted permutations of the same names are equal, so the key order determines the result. |
| Ordering.SortImageFiles | pic2epub.py:178-193 | With a cover, the cover comes first and occurs once, the rest is sorted by the key, and every other name keeps its multiplicity. Without a cover, the result is a sorted permutation. |
| Ordering.SortImageFilesPermutation | pic2epub.py:178-193 | For distinct names, the result is a permutation of the input. |
| Ordering.SortImageFilesUnique | pic2epub.py:178-193 | For distinct names, the result is the only permutation that puts the cover first and sorts the rest. |
| Ordering.NumericOrder | pic2epub.py:152-155 | Names differing only in the number after a digit-free prefix are ordered by that number's value, not by its text. |
| Ordering.NumericOrderOfRuns | pic2epub.py:152-155 | The same for digit runs as written, zero-padded or not: the run with the smaller value sorts first, whatever its length. |
| Ordering.EqualRunsByName | pic2epub.py:152-188 | Runs of equal value, such as `7` and `007`, are ordered by comparing the whole names. |
| Ordering.UnnumberedLast | pic2epub.py:152-155 | A name without digits sorts after every name with digits. |
| Ordering.PageTwoTenTwenty | pic2epub.py:188 | `page2.png` sorts before `page10.png`, which sorts before `page20.png`. |
| Ordering.SingleCoverFirst | pic2epub.py:178-193 | The only cover candidate is the first page. |
| Package.ImageMediaType | pic2epub.py:259-273 | The media type follows the lower-cased suffix. `.png`, `.gif`, `.webp` and `.svg` get their own type. Every other suffix, known or not, gets `image/jpeg`. |
| Package.BuildBook | pic2epub.py:276-358 | The book has the given title, the fixed identifier and language, and one spine item, navigation point and page per image. Spine item `i` is `page{i}`. Navigation point `i` and page `i` are those of the `i`-th image. |
| Package.CreateDocuments | pic2epub.py:328-358 | The `for i, img_path` loop builds exactly the book above. |
| Package.BuildBookExtend | pic2epub.py:328-358 | Each loop iteration appends `img{i}` and `page{i}` to the manifest, `page{i}` to the spine, and one navigation point and one page. |
| Package.ManifestLayout | pic2epub.py:310-352 | The manifest is `ncx`, then `img{i}` followed by `page{i}` for each image, in order. |
| Package.ManifestIdsUnique | pic2epub.py:310-352 | Manifest ids are pairwise distinct, and each item's file is the one its id names. |
| Package.ManifestIdsDistinct | pic2epub.py:310-352 | The rendered id texts (`ncx`, `img{i}`, `page{i}`) are pairwise distinct. |
| Package.SpineRefersToPages | pic2epub.py:351-352 | Each spine idref names exactly one manifest item, and that item is an XHTML page. |
| Package.NavMapFollowsSpine | pic2epub.py:354-358 | Navigation point `i` has play order `i + 1`, label `Page {i+1}`, and targets the file of spine item `i`. |
| Package.PagesShowTheirImage | pic2epub.py:333-346 | Page `i` is titled `Page {i+1}`. Its `img src` is `../` plus the href of manifest item `img{i}`, whose media type is that of the `i`-th image. |
| Package.PaddedInjective | pic2epub.py:333 | A four-digit padded index followed by a suffix determines both the index and the suffix. |
| Package.HrefInjective | pic2epub.py:333-351 | Two files with the same href are the same file: same kind and same index. |
| Package.ManifestFilesDistinct | pic2epub.py:333-351 | No two manifest items share an href, so no copied image or written page overwrites another. |
| Archive.Run | pic2epub.py:328-418 | A build stops exactly when the flag is met within its polls. It then stops at a poll, having made the reports and writes before that poll. Otherwise it makes all of them. |
| Archive.StagedFiles | pic2epub.py:380-396 | The staged list has `2n + 4` files and starts with `mimetype`. |
| Archive.StagedFilesFollowManifest | pic2epub.py:380-396 | After `mimetype`, `container.xml` and `content.opf`, the staged files are `toc.ncx`, then the image files, then the page files, under `OEBPS/`. Each is the file of the matching manifest item. |
| Archive.StagedFilesDistinct | pic2epub.py:380-396 | The staged paths are pairwise distinct, and only the first is `mimetype`. |
| Archive.BatchSize | pic2epub.py:404 | The batch size is at least 1, and is about a tenth of the file count: `10 * size <= count < 10 * size + 10` from 10 files on. |
| Archive.BatchesFromShape | pic2epub.py:405-410 | The batches of `range(i, count, size)` are non-empty, at most `size` long, and consecutive. They exist exactly when `i < count`, and then they run from `i` to `count`. |
| Archive.BatchesCoverAll | pic2epub.py:404-413 | The packing batches, in order, cover every staged file exactly once. |
| Archive.PackingWrites | pic2epub.py:399-413 | Packing writes `mimetype` stored first, then every other staged file once, in order. `mimetype` is skipped in the loop. |
| Archive.ArchiveWrites | pic2epub.py:399-413 | Every staged file is written exactly once, in staged order, and `mimetype` is stored. |
| Archive.ArchiveLayout | pic2epub.py:380-413 | A completed build writes `2n + 4` entries, first the stored `mimetype`, then the staged files in order, with pairwise distinct names. |
| Archive.ProgressTrace | pic2epub.py:297-432 | The reports are `1, 2, ..., n + 5`, then one per batch (`n + 5 + 4e / count` for batch end `e`), then `n + 9, n + 10`. They never decrease and stay within `1 .. n + 10`. |
| Archive.BatchReportsRise | pic2epub.py:414-418 | The batch reports never decrease, stay within `n + 5 .. n + 9`, and there is at least one batch. |
| Archive.CancelPoint | pic2epub.py:328-413 | At any poll, nothing has been written to the archive exactly when the poll is one of the first `n`, during staging. Once anything has been written, `mimetype` is the first entry. |
| Archive.CancelInPacking | pic2epub.py:399-408 | A poll at a batch boundary comes after all `n` staging polls, with `mimetype` already written first. |
| Archive.CreateEpub | pic2epub.py:276-432 | The build is cancelled exactly when the flag is met within `n + batches` polls. A completed build yields the book of the images, the archive entries and the full report trace. A cancelled one reports a prefix of the trace and leaves a prefix of the entries. That prefix is empty exactly when the cancellation falls during staging, and starts with `mimetype` otherwise. |
| Archive.ReportedProgress | pic2epub.py:297-432 | Reported progress never decreases and stays within `1 .. n + 10`. A completed build ends at `n + 10`. |
| Overwrite.ShouldOverwrite | pic2epub.py:695-708 | With a remembered decision there is no prompt, the verdict is "keep" exactly for a remembered "skip", and nothing is cancelled. Without one, one answer is consumed. It is remembered exactly when "apply to all" is set, also for "cancel". The verdict is cancel exactly for "cancel" and overwrite exactly for "overwrite". A closed dialog keeps the file. |
| Overwrite.AnswerRemembered | pic2epub.py:697-703 | An answer given with "apply to all" is final: later conflicts are decided without a prompt and with the same verdict, except that a remembered "cancel" overwrites. |
| Overwrite.AnswerForgotten | pic2epub.py:702-703 | An answer without "apply to all" leaves the policy unchanged. |
| Discovery.ValidFoldersMembership | pic2epub.py:438-451 | A folder is kept exactly when it is a listed subdirectory whose scan finds an image. |
| Discovery.DiscoverLoop | pic2epub.py:442-454 | Discovery is interrupted exactly when the flag is met within its polls. The folders kept are always a prefix of the complete result, and all of it when not interrupted. |
| Discovery.GetValidSubfoldersAsWritten | pic2epub.py:435-457 | As written, a failed listing gives no folders. Otherwise the result is a prefix of the valid folders, all of them without an interruption. An interruption is swallowed and the folders found so far are returned. |
| Discovery.GetValidSubfolders | pic2epub.py:435-457 | Corrected: an interruption is reported, not swallowed. A completed discovery returns exactly the valid folders in listing order. |
| Discovery.CollectLoop | pic2epub.py:467-474 | Collection is interrupted exactly when the flag is met within its polls. Otherwise it yields each folder's images, folder after folder. |
| Discovery.AllImagesAsWritten | pic2epub.py:460-474 | As written, each folder's images are collected in scan order, without page ordering. |
| Discovery.AllImages | pic2epub.py:460-474 | Corrected: each folder's images are collected in page order. |
| Runs.OutputPathParts | pic2epub.py:731-738 | The archive is named `<folder name>.epub`. It goes into the output directory when one is given and not empty, and into the folder itself otherwise. |
| Runs.ScanPercentsRise | pic2epub.py:719-722 | Scan progress mapped onto 0-30 never decreases and stays within 0-30. |
| Runs.BuildPercentsRise | pic2epub.py:746-749 | Build progress mapped onto 30-100 never decreases, stays within 30-100, and ends at 100 when the build reaches its total. |
| Runs.WriteBookResult | pic2epub.py:751-753 | Writing the book either produces it at the target path or is interrupted, and it is interrupted exactly when the flag is met during the build. The produced book is that of the images with the given title. |
| Runs.WriteBookEnv | pic2epub.py:399-413 | Writing adds at most the target path to the existing files, and adds it whenever the book is produced. It leaves the policy and the answers alone. |
| Runs.ConvertResult | pic2epub.py:728-753 | After a non-empty scan, the run never reports no images. It produces exactly when the check says overwrite and the build is not interrupted. It skips exactly when the check says keep. Without a flag, it is interrupted exactly when the dialog says cancel. |
| Runs.RunSingle | pic2epub.py:711-753 | No images is reported exactly when an uninterrupted scan finds none. The run produces exactly when there are images, the flag is never met, and the existence check says overwrite. The book is the folder's images in page order, titled with the folder name, at the computed path, and that path then exists. It skips exactly when the check says keep. |
| Runs.SingleProgress | pic2epub.py:719-749 | Progress across scan and build never decreases, stays within 0-100, and ends at 100 when the book is produced. |
| Runs.SingleFiles | pic2epub.py:711-753 | A run adds at most its own archive to the existing files. A skip or a no-images error adds nothing. |
| Runs.SingleAnswers | pic2epub.py:740-742 | A run consumes at most one answer, and only when its target exists and a policy is present. The policy changes only through the existence check. |
| Runs.SingleFlag | pic2epub.py:711-753 | Without a flag, a run is interrupted exactly when the dialog says cancel for a folder with images. A flag once set stays set. |
| Batch.Generated | pic2epub.py:795-796 | The generated list holds exactly the paths of the produced results, no more of them than there are results. |
| Batch.BatchLoop | pic2epub.py:785-801 | The loop converts at most one folder per result. It stops only at a set flag before a folder, or after a folder that did not go on. Every result but the last went on. |
| Batch.LoopFits | pic2epub.py:785-796 | The `k`-th result belongs to the `k`-th folder. |
| Batch.RunBatch | pic2epub.py:780-810 | A batch run never reports a cancellation. It fails exactly when some converted folder had no images, and that folder exists. A success names exactly the archives produced, in folder order: at most one per folder, each the output path of some folder. |
| Batch.BatchNeverStops | pic2epub.py:785-787 | Without a flag the loop never stops at its flag check. |
| Batch.SkipAllAtFirstPrompt | pic2epub.py:780-805 | When every archive exists and the first prompt answers "skip" for all, every folder is skipped, exactly one answer is consumed, and the run succeeds with nothing generated. |
| Batch.LoopSkipsRemembered | pic2epub.py:785-796 | With "skip" remembered and every archive present, each folder is skipped silently and nothing changes. |
| Batch.ProduceAll | pic2epub.py:780-805 | Without a flag, folders that all have images and no archive yet, with distinct targets, are all converted, and the run names their archives in folder order. |
| Merged.MergedPathParts | pic2epub.py:766-777 | The merged archive sits directly in the base folder and is named `<base>_merged.epub`. The title is `<base> (Merged)`. |
| Merged.MergedResult | pic2epub.py:756-777 | No images is the only error. The run produces exactly when the check says overwrite and the build is not interrupted, and the book is the images in the order given. It skips exactly when the check says keep. |
| Merged.MergedProgress | pic2epub.py:775-776 | The build's raw progress never decreases, stays within `1 .. n + 10`, and reaches `n + 10` when the book is produced. |
| Merged.GatherOutcome | pic2epub.py:460-474 | Corrected gathering is interrupted exactly when the flag is met during discovery or collection. Otherwise it yields every discovered folder's images in page order, folder after folder. |
| Merged.MergedBatchOutcome | pic2epub.py:813-838 | Corrected: a flag met while gathering is a cancellation. Otherwise no images at all is the one failure, and with images the outcome is that of the merged conversion of the gathered images. |
| Merged.MergedBatchGenerated | pic2epub.py:830-838 | The outcome names at most the merged archive, and a cancellation names nothing. |
| Merged.CancelBeforeDiscoveryReported | pic2epub.py:442-456 | Corrected: a flag met during discovery is reported as a cancellation. |
| Merged.FolderRefsInPageOrder | pic2epub.py:728-729 | The corrected collection takes each folder's images in the page order that single-folder conversion uses. |
| Merged.OneFolderAsSingle | pic2epub.py:460-474 | With one valid folder, the corrected merged book has exactly that folder's pages, in the same order. |
| Merged.MergedOrderAsWritten | pic2epub.py:467-474 | As written, a folder listing `page10.png` before `page2.png` puts page 10 first in the merged book. The corrected collection puts page 2 first. |
| Merged.GatherAsWrittenComplete | pic2epub.py:460-474 | As written, when the flag is not met during discovery, gathering is interrupted exactly when the flag is met during discovery or collection. Otherwise it yields every discovered folder's images in listing order. |
| Merged.MergedAsWrittenCutShort | pic2epub.py:813-838 | As written, a flag met during discovery is swallowed. With no folder kept before it, the run reports the no-images failure. With some kept, collection's first poll meets the flag and the run is a cancellation. |
| Merged.MergedAsWrittenComplete | pic2epub.py:813-838 | As written, without a flag met during discovery: a flag met during collection is a cancellation. Otherwise no images at all is the one failure, and with images the outcome is that of the merged conversion of the images in listing order. |
| Merged.SetFlagCutsDiscovery | pic2epub.py:442-456 | A flag already set when discovery starts, with a subfolder to reach, is met during discovery before any folder is kept. |
| Merged.MergedCancelAsWritten | pic2epub.py:442-456 | As written, a flag met during discovery before any folder is kept ends in the no-images failure. The corrected run reports a cancellation. |
| Merged.MergedCancelExample | pic2epub.py:442-456 | One subfolder holding an image and a flag set before discovery: the run as written fails, the corrected run is cancelled. |

## Left out

- User interface: the tkinter dialogs and windows, the language tables, and
  `set_current_book` and `update_overall`. The overwrite dialog's answers
  are an input sequence; a dialog closed without a choice, or running out of
  answers, counts as "closed", which keeps the file.
- Threading and `root.after` marshalling. The stop flag is the `StopFlag`
  value described above.
- Dependency installation, and the PIL extension registry. The supported
  suffix set is a parameter.
- Filesystem effects:
  - `os.makedirs`, the image copies and the staging cleanup. The staging
    area is assumed empty when a build starts, but the program does not
    guarantee this. The cleanup at pic2epub.py:423-429 runs only after
    packing succeeds, so a cancelled build (the raise at :330 or :407) or a
    failed build leaves its staged files behind. `os.makedirs(...,
    exist_ok=True)` and the `os.walk` of the next build then pack them too.
    For example, a 100-image build is cancelled during packing. A 10-image
    build with a different image suffix then archives 110 image files and
    100 pages, while its spine lists 10 pages. `Archive.ArchiveLayout`, `Archive.CreateEpub`,
    `Archive.StagedFiles`, `Archive.ProgressTrace` and the batch count
    describe a build from a clean working directory only.
  - The archive bytes; only the logical entry list is modelled. Every
    entry is ZIP_STORED, as the model states.
  - Windows paths. `Strings.Join` and `Strings.BaseName` use `/` only,
    while `os.path.join` inserts `\` and `os.path.basename` also splits at
    `\` on Windows. `Strings.BaseNameOfJoin`, `Runs.OutputPathParts` and
    `Merged.MergedPathParts` therefore describe POSIX paths.
  - `os.path.normpath` on folder names. Paths are assumed to have no
    trailing slash.
  - I/O errors other than a failed directory listing.
- `os.walk` order is not fixed by Python. After `mimetype` and
  `META-INF/container.xml`, the model assumes `OEBPS/content.opf`, then
  `OEBPS/toc.ncx`, then the images under `OEBPS/images/` in index order,
  then the pages under `OEBPS/text/` in index order. The facts that
  `mimetype` comes first, the count and the distinctness do not depend on
  this order. In a clean working directory, they depend on nothing else.
- XML serialisation with lxml. The documents are datatypes.
- Parts of the navigation document: the `navPoint-{i+1}` id of each
  navigation point (pic2epub.py:354), the NCX head `<meta>` entries and the
  `docTitle` (pic2epub.py:316-320). They are constants or the book title
  and are not fields of the model's `NavPoint` and `Book`.
- Floating point: `int(x / t * k)` is modelled as `x * k / t` in integer
  division.
  - For the packing reports (`k = 4`) the two agree: multiplying by 4 is
    exact in binary floating point, and `x / t` rounds correctly, so it
    cannot cross a multiple of a quarter.
  - For the build mapping (`k = 70`) they can differ by one. When the exact
    product is an integer, the float product can fall just below it. With
    60 images (total 70) and report 47, `30 + int(47 / 70 * 70)` is 76 in
    the code and 77 in the model.
- Runs.BuildPercentsRise, Runs.ScanPercentsRise, Runs.SingleProgress: the
  percentages themselves can be one above the code's at such points, so only
  the bounds, the monotonicity and the final 100 are stated. These hold for
  the float values as well. Float division and multiplication by a positive
  constant are monotone, and `t / t * 70` is exactly 70.
- Unicode: `str.lower`, regular-expression `\d` and string comparison are
  modelled on ASCII only. `Path.suffix` is the text from the last dot, when
  that dot is neither the first nor the last character.
- The merged scan's progress estimate, `folder_idx * 100 + img_idx + 1` over
  `folders * 100` (lines 475-480). It has no bound to state, and its
  callback goes to the window only.
- Merged.MergedProgress: the merged run passes the build's raw progress to
  the window, not a 30-100 mapping, so only the raw trace is stated.
- Runs.WriteBookEnv: a cancelled build leaves its partial archive in the
  existing set. Nothing deletes it, in the code or in the model.

## Findings

| source | as written | input that shows it | evidently intended | confidence | as-written member | corrected member |
|---|---|---|---|---|---|---|
| pic2epub.py:467-474 | Merged mode collects each folder's images in listing order, and the list reaches the build unsorted. | One subfolder `part1` listing `page10.png` before `page2.png`: the merged book's first page is `page10.png`. | Each folder's images in the same page order as single-folder conversion (cover first, then by number). | not executed | Merged.MergedOrderAsWritten | Discovery.AllImages |
| pic2epub.py:455-456 | `except Exception: pass` in `get_valid_subfolders` also catches the `InterruptedError` raised for a set stop flag. Discovery then returns the folders found so far. | A base folder with one subfolder holding `p1.png`, and the flag set before the first poll: discovery returns no folders and the run reports "no images" instead of a cancellation. | A cancellation during discovery ends the merged run as cancelled. | not executed | Merged.MergedCancelAsWritten | Merged.CancelBeforeDiscoveryReported |

=== FILE: archive.dfy ===
/**
 The packaging stage of `create_epub_from_images` (pic2epub.py:276-432) as
 an ordered program of the steps an observer can see: polls of the stop
 flag, progress reports against `n + 10`, and archive entry writes. Running
 that program against a stop flag gives the complete build or the prefix
 performed before the first poll that found the flag set. The staged file
 list, its batch partition and the archive entries are all derived from the
 ordered image list.
 */
module Archive {
  import opened Strings
  import opened StopFlags
  import opened Package

  /** The compression method of an entry; the program writes only ZIP_STORED entries. */
  datatype Compression = Stored

  /** One member of the ZIP container: its archive name and compression method. */
  datatype Entry = Entry(name: string, compression: Compression)

  /** The archive is opened as `ZipFile(output_file, 'w')`, whose default compression is ZIP_STORED. */
  const ArchiveDefault := Stored
  const MimetypeName := "mimetype"
  const MimetypeEntry := Entry(MimetypeName, Stored)

  datatype Step = Poll | Report(current: nat) | Write(entry: Entry)

  function Reports(steps: seq<Step>): seq<nat> {
    if |steps| == 0 then []
    else (if steps[0].Report? then [steps[0].current] else []) + Reports(steps[1..])
  }

  function Writes(steps: seq<Step>): seq<Entry> {
    if |steps| == 0 then []
    else (if steps[0].Write? then [steps[0].entry] else []) + Writes(steps[1..])
  }

  function Polls(steps: seq<Step>): nat {
    if |steps| == 0 then 0
    else (if steps[0].Poll? then 1 else 0) + Polls(steps[1..])
  }

  /** The three observations of a program are those of its parts, one after the other. */
  lemma StepsAppend(a: seq<Step>, b: seq<Step>)
    ensures Reports(a + b) == Reports(a) + Reports(b)
    ensures Writes(a + b) == Writes(a) + Writes(b)
    ensures Polls(a + b) == Polls(a) + Polls(b)
  {
    ReportsAppend(a, b);
    WritesAppend(a, b);
    PollsAppend(a, b);
  }

  lemma {:induction false} ReportsAppend(a: seq<Step>, b: seq<Step>)
    ensures Reports(a + b) == Reports(a) + Reports(b)
  {
    if |a| == 0 {
      assert a + b == b;
    } else {
      assert (a + b)[0] == a[0];
      assert (a + b)[1..] == a[1..] + b;
      ReportsAppend(a[1..], b);
    }
  }

  lemma {:induction false} WritesAppend(a: seq<Step>, b: seq<Step>)
    ensures Writes(a + b) == Writes(a) + Writes(b)
  {
    if |a| == 0 {
      assert a + b == b;
    } else {
      assert (a + b)[0] == a[0];
      assert (a + b)[1..] == a[1..] + b;
      WritesAppend(a[1..], b);
    }
  }

  lemma {:induction false} PollsAppend(a: seq<Step>, b: seq<Step>)
    ensures Polls(a + b) == Polls(a) + Polls(b)
  {
    if |a| == 0 {
      assert a + b == b;
    } else {
      assert (a + b)[0] == a[0];
      assert (a + b)[1..] == a[1..] + b;
      PollsAppend(a[1..], b);
    }
  }

  /** What an execution left behind: everything, or what came before the poll that found the flag set. */
  datatype Exec =
    | Finished(reported: seq<nat>, written: seq<Entry>, stop: StopFlag)
    | Stopped(at: nat, reported: seq<nat>, written: seq<Entry>, stop: StopFlag)

  /**
   Executes `steps` in order; a poll that finds the flag set raises
   `InterruptedError`, so nothing after it happens.
   */
  function Run(steps: seq<Step>, stop: StopFlag): (r: Exec)
    ensures r.Stopped? <==> stop.SetWithin(Polls(steps))
    ensures r.stop == stop.Advance(Polls(steps))
    ensures r.Finished? ==> r.reported == Reports(steps) && r.written == Writes(steps)
    ensures r.Stopped? ==>
      && r.at < |steps| && steps[r.at] == Poll
      && Polls(steps[..r.at]) == stop.clearPolls
      && r.reported == Reports(steps[..r.at])
      && r.written == Writes(steps[..r.at])
  {
    if |steps| == 0 then Finished([], [], stop)
    else
      match steps[0]
      case Poll =>
        if stop.IsSet() then Stopped(0, [], [], stop)
        else
          (match Run(steps[1..], stop.Next())
           case Finished(rep, w, s) => Finished(rep, w, s)
           case Stopped(at, rep, w, s) =>
             RunStep(steps, at);
             Stopped(at + 1, rep, w, s))
      case Report(v) =>
        (match Run(steps[1..], stop)
         case Finished(rep, w, s) => Finished([v] + rep, w, s)
         case Stopped(at, rep, w, s) =>
           RunStep(steps, at);
           Stopped(at + 1, [v] + rep, w, s))
      case Write(e) =>
        (match Run(steps[1..], stop)
         case Finished(rep, w, s) => Finished(rep, [e] + w, s)
         case Stopped(at, rep, w, s) =>
           RunStep(steps, at);
           Stopped(at + 1, rep, [e] + w, s))
  }

  lemma RunStep(steps: seq<Step>, at: nat)
    requires at < |steps| - 1
    ensures steps[..at + 1] == steps[..1] + steps[1..][..at]
    ensures Reports(steps[..at + 1]) == Reports(steps[..1]) + Reports(steps[1..][..at])
    ensures Writes(steps[..at + 1]) == Writes(steps[..1]) + Writes(steps[1..][..at])
    ensures Polls(steps[..at + 1]) == Polls(steps[..1]) + Polls(steps[1..][..at])
  {
    StepsAppend(steps[..1], steps[1..][..at]);
    assert steps[..at + 1] == steps[..1] + steps[1..][..at];
  }

  /** What a prefix of a program did is a prefix of what the whole program does. */
  lemma PrefixOfSteps(steps: seq<Step>, k: nat)
    requires k <= |steps|
    ensures Reports(steps[..k]) <= Reports(steps)
    ensures Writes(steps[..k]) <= Writes(steps)
    ensures Polls(steps[..k]) <= Polls(steps)
    ensures k < |steps| && steps[k] == Poll ==> Polls(steps[..k]) < Polls(steps)
  {
    PrefixReports(steps, k);
    PrefixWrites(steps, k);
    PrefixPolls(steps, k);
  }

  lemma PrefixReports(steps: seq<Step>, k: nat)
    requires k <= |steps|
    ensures Reports(steps[..k]) <= Reports(steps)
  {
    var a, b := steps[..k], steps[k..];
    assert steps == a + b;
    ReportsAppend(a, b);
    var x, y := Reports(a), Reports(b);
    assert x <= x + y;
  }

  lemma PrefixWrites(steps: seq<Step>, k: nat)
    requires k <= |steps|
    ensures Writes(steps[..k]) <= Writes(steps)
  {
    var a, b := steps[..k], steps[k..];
    assert steps == a + b;
    WritesAppend(a, b);
    var x, y := Writes(a), Writes(b);
    assert x <= x + y;
  }

  lemma PrefixPolls(steps: seq<Step>, k: nat)
    requires k <= |steps|
    ensures Polls(steps[..k]) <= Polls(steps)
    ensures k < |steps| && steps[k] == Poll ==> Polls(steps[..k]) < Polls(steps)
  {
    var a, b := steps[..k], steps[k..];
    PollsAppend(a, b);
    assert a + b == steps;
    if k < |steps| && steps[k] == Poll {
      assert b[0] == Poll;
    }
  }

  /** The files the walk of `OEBPS` lists after `content.opf`: the NCX, the image copies, the pages. */
  function StagedResources(images: seq<ImageRef>): (r: seq<Resource>)
    ensures |r| == 2 * |images| + 1
  {
    var n := |images|;
    [TocNcx]
      + seq(n, i requires 0 <= i < n => ImageFile(i, images[i].name))
      + seq(n, i requires 0 <= i < n => PageFile(i))
  }

  lemma StagedResourceAt(images: seq<ImageRef>, k: nat)
    requires k < 2 * |images| + 1
    ensures k == 0 ==> StagedResources(images)[k] == TocNcx
    ensures 0 < k <= |images| ==> StagedResources(images)[k] == ImageFile(k - 1, images[k - 1].name)
    ensures |images| < k ==> StagedResources(images)[k] == PageFile(k - 1 - |images|)
  {
  }

  /** The archive names of files staged under `OEBPS/`. */
  function OebpsPaths(rs: seq<Resource>): (p: seq<string>)
    ensures |p| == |rs|
  {
    seq(|rs|, k requires 0 <= k < |rs| => "OEBPS/" + Href(rs[k]))
  }

  /** `all_files`: `mimetype`, then the staged tree as the walks of `META-INF` and `OEBPS` list it. */
  function StagedFiles(images: seq<ImageRef>): (files: seq<string>)
    ensures |files| == 2 * |images| + 4
    ensures files[0] == MimetypeName
  {
    [MimetypeName, "META-INF/container.xml", "OEBPS/content.opf"] + OebpsPaths(StagedResources(images))
  }

  lemma StagedAt(images: seq<ImageRef>, k: nat)
    requires 3 <= k < 2 * |images| + 4
    ensures StagedFiles(images)[k] == "OEBPS/" + Href(StagedResources(images)[k - 3])
  {
    StagedTail(images, k);
    OebpsPathAt(StagedResources(images), k - 3);
  }

  lemma StagedTail(images: seq<ImageRef>, k: nat)
    requires 3 <= k < 2 * |images| + 4
    ensures StagedFiles(images)[k] == OebpsPaths(StagedResources(images))[k - 3]
  {
  }

  lemma OebpsPathAt(rs: seq<Resource>, k: nat)
    requires k < |rs|
    ensures OebpsPaths(rs)[k] == "OEBPS/" + Href(rs[k])
  {
  }

  /** `max(1, len(all_files) // 10)`. */
  function BatchSize(count: nat): (size: nat)
    ensures size >= 1
    ensures count >= 10 ==> size * 10 <= count < size * 10 + 10
    ensures count < 10 ==> size == 1
  {
    if count / 10 >= 1 then count / 10 else 1
  }

  function Min(a: nat, b: nat): nat {
    if a <= b then a else b
  }

  /**
   The half-open index ranges `[i, i + size)`, clipped to `count`, for the
   starts `range(i, count, size)`.
   */
  function BatchesFrom(i: nat, count: nat, size: nat): seq<(nat, nat)>
    requires size >= 1
    decreases count - i
  {
    if i >= count then []
    else [(i, Min(i + size, count))] + BatchesFrom(i + size, count, size)
  }

  function Batches(count: nat): seq<(nat, nat)> {
    BatchesFrom(0, count, BatchSize(count))
  }

  /** Every range is non-empty, lies in `[lo, count)` and is at most `size` long. */
  predicate Within(b: seq<(nat, nat)>, lo: nat, count: nat, size: nat) {
    forall k :: 0 <= k < |b| ==> lo <= b[k].0 < b[k].1 <= count && b[k].1 - b[k].0 <= size
  }

  /** Each range starts where the previous one ends. */
  predicate Consecutive(b: seq<(nat, nat)>) {
    forall k :: 0 <= k < |b| - 1 ==> b[k].1 == b[k + 1].0
  }

  predicate ValidBatches(b: seq<(nat, nat)>, count: nat) {
    forall k :: 0 <= k < |b| ==> b[k].0 < b[k].1 <= count
  }

  /**
   The batches from `i` are non-empty, at most `size` long and consecutive;
   there are some exactly when `i < count`, and then they run from `i` to `count`.
   */
  lemma {:induction false} BatchesFromShape(i: nat, count: nat, size: nat)
    requires size >= 1
    ensures Within(BatchesFrom(i, count, size), i, count, size)
    ensures Consecutive(BatchesFrom(i, count, size))
    ensures i < count <==> |BatchesFrom(i, count, size)| > 0
    ensures |BatchesFrom(i, count, size)| > 0 ==>
      BatchesFrom(i, count, size)[0].0 == i && BatchesFrom(i, count, size)[|BatchesFrom(i, count, size)| - 1].1 == count
    decreases count - i
  {
    if i < count {
      BatchesFromShape(i + size, count, size);
      BatchesFromCons(i, count, size);
      var b, rest := BatchesFrom(i, count, size), BatchesFrom(i + size, count, size);
      assert forall k :: 0 < k < |b| ==> b[k] == rest[k - 1];
    }
  }

  lemma BatchesValid(count: nat)
    ensures ValidBatches(Batches(count), count)
  {
    BatchesFromShape(0, count, BatchSize(count));
  }

  /** The files of the batches `b`, batch after batch. */
  function BatchFiles(files: seq<string>, b: seq<(nat, nat)>): seq<string>
    requires ValidBatches(b, |files|)
  {
    if |b| == 0 then [] else files[b[0].0..b[0].1] + BatchFiles(files, b[1..])
  }

  /** The batches from `i` on list the files from `i` on, each once, in order. */
  lemma {:induction false} BatchesCoverOnce(files: seq<string>, i: nat, size: nat)
    requires size >= 1 && i <= |files|
    ensures ValidBatches(BatchesFrom(i, |files|, size), |files|)
      && BatchFiles(files, BatchesFrom(i, |files|, size)) == files[i..]
    decreases |files| - i
  {
    if i < |files| {
      BatchesFromCons(i, |files|, size);
      var rest := BatchesFrom(i + size, |files|, size);
      if i + size <= |files| {
        BatchesCoverOnce(files, i + size, size);
      } else {
        assert rest == [];
      }
      CoverStep(files, i, Min(i + size, |files|), rest);
    }
  }

  lemma BatchesFromCons(i: nat, count: nat, size: nat)
    requires size >= 1 && i < count
    ensures BatchesFrom(i, count, size) == [(i, Min(i + size, count))] + BatchesFrom(i + size, count, size)
  {
  }

  lemma CoverStep(files: seq<string>, i: nat, e: nat, rest: seq<(nat, nat)>)
    requires i < e <= |files| && ValidBatches(rest, |files|)
    requires BatchFiles(files, rest) == files[e..]
    ensures ValidBatches([(i, e)] + rest, |files|)
    ensures BatchFiles(files, [(i, e)] + rest) == files[i..]
  {
    assert ([(i, e)] + rest)[1..] == rest;
    assert files[i..e] + files[e..] == files[i..];
  }

  /** `epub.write(full_path, rel_path)` for the files of one batch other than `mimetype`. */
  function Entries(names: seq<string>): seq<Entry> {
    if |names| == 0 then []
    else (if names[0] != MimetypeName then [Entry(names[0], ArchiveDefault)] else []) + Entries(names[1..])
  }

  function WriteSteps(names: seq<string>): (s: seq<Step>)
    ensures Writes(s) == Entries(names) && Reports(s) == [] && Polls(s) == 0
  {
    if |names| == 0 then []
    else
      var w := if names[0] != MimetypeName then [Write(Entry(names[0], ArchiveDefault))] else [];
      StepsAppend(w, WriteSteps(names[1..]));
      w + WriteSteps(names[1..])
  }

  lemma {:induction false} EntriesAppend(a: seq<string>, b: seq<string>)
    ensures Entries(a + b) == Entries(a) + Entries(b)
  {
    if |a| == 0 {
      assert a + b == b;
    } else {
      assert (a + b)[1..] == a[1..] + b;
      EntriesAppend(a[1..], b);
    }
  }

  /** Every name as a stored entry, in order. */
  function StoredEntries(names: seq<string>): (e: seq<Entry>)
    ensures |e| == |names|
  {
    seq(|names|, k requires 0 <= k < |names| => Entry(names[k], Stored))
  }

  lemma StoredEntriesCons(names: seq<string>)
    requires |names| > 0
    ensures StoredEntries(names) == [Entry(names[0], Stored)] + StoredEntries(names[1..])
  {
    var e, t := StoredEntries(names), StoredEntries(names[1..]);
    assert forall k :: 0 < k < |names| ==> e[k] == t[k - 1];
  }

  /** Without a `mimetype` among them, every name is written once, stored, in order. */
  lemma {:induction false} EntriesWithoutMimetype(names: seq<string>)
    requires forall k :: 0 <= k < |names| ==> names[k] != MimetypeName
    ensures Entries(names) == StoredEntries(names)
  {
    if |names| > 0 {
      EntriesWithoutMimetype(names[1..]);
      StoredEntriesCons(names);
    }
  }

  /**
   One pass of `for i in range(0, len(all_files), batch_size)` over the batch
   `[r.0, r.1)`: poll, write the batch, report
   `base + int((i + len(batch)) / len(all_files) * 4)`.
   */
  function BatchStep(files: seq<string>, r: (nat, nat), base: nat): (s: seq<Step>)
    requires 0 < r.1 <= |files| && r.0 < r.1
    ensures Polls(s) == 1
    ensures Writes(s) == Entries(files[r.0..r.1])
    ensures Reports(s) == [base + 4 * r.1 / |files|]
  {
    var w := WriteSteps(files[r.0..r.1]);
    var v := base + 4 * r.1 / |files|;
    StepsAppend([Poll], w);
    StepsAppend([Poll] + w, [Report(v)]);
    [Poll] + w + [Report(v)]
  }

  /** The progress value after each batch: `base + 4 * end / count`, for the batch ending at `end`. */
  function BatchReports(count: nat, b: seq<(nat, nat)>, base: nat): (r: seq<nat>)
    requires count > 0
    ensures |r| == |b|
  {
    seq(|b|, k requires 0 <= k < |b| => base + 4 * b[k].1 / count)
  }

  /** The whole batch loop: one poll per batch. */
  function BatchSteps(files: seq<string>, b: seq<(nat, nat)>, base: nat): (s: seq<Step>)
    requires |files| > 0 && ValidBatches(b, |files|)
    ensures Polls(s) == |b|
  {
    if |b| == 0 then []
    else
      var head := BatchStep(files, b[0], base);
      var rest := BatchSteps(files, b[1..], base);
      PollsAppend(head, rest);
      head + rest
  }

  /** The batch loop writes the files of its batches in order, except `mimetype`. */
  lemma {:induction false} BatchStepsWrites(files: seq<string>, b: seq<(nat, nat)>, base: nat)
    requires |files| > 0 && ValidBatches(b, |files|)
    ensures Writes(BatchSteps(files, b, base)) == Entries(BatchFiles(files, b))
  {
    if |b| > 0 {
      BatchStepsWrites(files, b[1..], base);
      WritesAppend(BatchStep(files, b[0], base), BatchSteps(files, b[1..], base));
      EntriesAppend(files[b[0].0..b[0].1], BatchFiles(files, b[1..]));
    }
  }

  /** The batch loop reports once per batch, the value for that batch's end. */
  lemma {:induction false} BatchStepsReports(files: seq<string>, b: seq<(nat, nat)>, base: nat)
    requires |files| > 0 && ValidBatches(b, |files|)
    ensures Reports(BatchSteps(files, b, base)) == BatchReports(|files|, b, base)
  {
    if |b| > 0 {
      BatchStepsReports(files, b[1..], base);
      ReportsAppend(BatchStep(files, b[0], base), BatchSteps(files, b[1..], base));
      BatchReportsCons(|files|, b, base);
    }
  }

  lemma BatchReportsCons(count: nat, b: seq<(nat, nat)>, base: nat)
    requires count > 0 && |b| > 0
    ensures BatchReports(count, b, base) == [base + 4 * b[0].1 / count] + BatchReports(count, b[1..], base)
  {
    var r, t := BatchReports(count, b, base), BatchReports(count, b[1..], base);
    assert forall k :: 0 < k < |b| ==> r[k] == t[k - 1];
  }

  /** The image loop from image `i`: poll, then report `3 + i`. */
  function ImageSteps(i: nat, n: nat): (s: seq<Step>)
    requires i <= n
    ensures Polls(s) == n - i && Writes(s) == []
    ensures Reports(s) == seq(n - i, k requires 0 <= k < n - i => 3 + i + k)
    decreases n - i
  {
    if i == n then []
    else
      StepsAppend([Poll, Report(3 + i)], ImageSteps(i + 1, n));
      [Poll, Report(3 + i)] + ImageSteps(i + 1, n)
  }

  /** Progress reports with nothing in between. */
  function ReportSteps(vs: seq<nat>): (s: seq<Step>)
    ensures Reports(s) == vs && Writes(s) == [] && Polls(s) == 0
  {
    if |vs| == 0 then []
    else
      StepsAppend([Report(vs[0])], ReportSteps(vs[1..]));
      [Report(vs[0])] + ReportSteps(vs[1..])
  }

  /** Everything before `ZipFile` is opened: container, package skeleton, the image loop, the saves. */
  function StagingSteps(n: nat): seq<Step> {
    ReportSteps([1, 2]) + ImageSteps(0, n) + ReportSteps([n + 3, n + 4, n + 5])
  }

  /** Staging polls once per image and writes nothing to the archive. */
  lemma StagingPolls(n: nat)
    ensures Polls(StagingSteps(n)) == n && Writes(StagingSteps(n)) == []
  {
    var a, b, c := ReportSteps([1, 2]), ImageSteps(0, n), ReportSteps([n + 3, n + 4, n + 5]);
    PollsAppend(a, b);
    PollsAppend(a + b, c);
    WritesAppend(a, b);
    WritesAppend(a + b, c);
  }

  /** Staging reports `1, 2, …, n + 5`. */
  lemma StagingReports(n: nat)
    ensures Reports(StagingSteps(n)) == seq(n + 5, k requires 0 <= k < n + 5 => k + 1)
  {
    var a, b, c := ReportSteps([1, 2]), ImageSteps(0, n), ReportSteps([n + 3, n + 4, n + 5]);
    ReportsAppend(a, b);
    ReportsAppend(a + b, c);
    var r := [1, 2] + Reports(b) + [n + 3, n + 4, n + 5];
    forall k | 0 <= k < n + 5 ensures r[k] == k + 1 {
      if 2 <= k < n + 2 {
        assert r[k] == Reports(b)[k - 2];
      }
    }
  }

  /** The archive phase: `mimetype` stored first, the batches, then the last two reports. */
  function PackingSteps(n: nat, files: seq<string>): seq<Step>
    requires |files| > 0
  {
    BatchesValid(|files|);
    WriteMimetype() + BatchSteps(files, Batches(|files|), n + 5) + ReportSteps([n + 9, n + 10])
  }

  /** Packing polls once per batch. */
  lemma PackingPolls(n: nat, files: seq<string>)
    requires |files| > 0
    ensures Polls(PackingSteps(n, files)) == |Batches(|files|)|
  {
    BatchesValid(|files|);
    var a, b, c := WriteMimetype(), BatchSteps(files, Batches(|files|), n + 5), ReportSteps([n + 9, n + 10]);
    PollsAppend(a, b);
    PollsAppend(a + b, c);
  }

  /** Packing writes `mimetype`, then every staged file except `mimetype`, in order. */
  lemma PackingWrites(n: nat, files: seq<string>)
    requires |files| > 0
    ensures Writes(PackingSteps(n, files)) == [MimetypeEntry] + Entries(files)
  {
    BatchesValid(|files|);
    var a, b, c := WriteMimetype(), BatchSteps(files, Batches(|files|), n + 5), ReportSteps([n + 9, n + 10]);
    WritesAppend(a, b);
    WritesAppend(a + b, c);
    BatchStepsWrites(files, Batches(|files|), n + 5);
    BatchesCoverAll(files);
  }

  /** The batches, taken in order, list every staged file exactly once. */
  lemma BatchesCoverAll(files: seq<string>)
    requires |files| > 0
    ensures ValidBatches(Batches(|files|), |files|) && BatchFiles(files, Batches(|files|)) == files
  {
    BatchesCoverOnce(files, 0, BatchSize(|files|));
    assert files[0..] == files;
  }

  /** Packing reports once per batch, then `n + 9` and `n + 10`. */
  lemma PackingReports(n: nat, files: seq<string>)
    requires |files| > 0
    ensures Reports(PackingSteps(n, files)) == BatchReports(|files|, Batches(|files|), n + 5) + [n + 9, n + 10]
  {
    BatchesValid(|files|);
    var a, b, c := WriteMimetype(), BatchSteps(files, Batches(|files|), n + 5), ReportSteps([n + 9, n + 10]);
    ReportsAppend(a, b);
    ReportsAppend(a + b, c);
    BatchStepsReports(files, Batches(|files|), n + 5);
  }

  /** `epub.write('mimetype', compress_type=ZIP_STORED)`. */
  function WriteMimetype(): (s: seq<Step>)
    ensures Writes(s) == [MimetypeEntry] && Reports(s) == [] && Polls(s) == 0
  {
    var s := [Write(MimetypeEntry)];
    assert s[1..] == [];
    s
  }

  /** Every observable step of `create_epub_from_images` over `images`, in program order. */
  function BuildSteps(images: seq<ImageRef>): seq<Step> {
    ArchiveSteps(|images|, StagedFiles(images))
  }

  /** The program for `n` images whose staged tree lists `files`. */
  function ArchiveSteps(n: nat, files: seq<string>): seq<Step>
    requires |files| > 0
  {
    StagingSteps(n) + PackingSteps(n, files)
  }

  function ProgressTotal(n: nat): nat {
    n + 10
  }

  predicate NonDecreasing(s: seq<nat>) {
    forall i, j :: 0 <= i < j < |s| ==> s[i] <= s[j]
  }

  predicate Between(s: seq<nat>, lo: nat, hi: nat) {
    forall i :: 0 <= i < |s| ==> lo <= s[i] <= hi
  }

  lemma ConcatNonDecreasing(a: seq<nat>, b: seq<nat>, lo: nat, mid: nat, hi: nat)
    requires lo <= mid <= hi
    requires NonDecreasing(a) && Between(a, lo, mid)
    requires NonDecreasing(b) && Between(b, mid, hi)
    ensures NonDecreasing(a + b) && Between(a + b, lo, hi)
  {
    forall i, j | 0 <= i < j < |a + b| ensures (a + b)[i] <= (a + b)[j] {
      if j < |a| {
        assert (a + b)[i] == a[i] && (a + b)[j] == a[j];
      } else if i >= |a| {
        assert (a + b)[i] == b[i - |a|] && (a + b)[j] == b[j - |a|];
      } else {
        assert (a + b)[i] == a[i] && (a + b)[j] == b[j - |a|];
      }
    }
    forall i | 0 <= i < |a + b| ensures lo <= (a + b)[i] <= hi {
      if i < |a| {
        assert (a + b)[i] == a[i];
      } else {
        assert (a + b)[i] == b[i - |a|];
      }
    }
  }

  /** The packaging reports, one per batch, climb from `n + 5` to `n + 9`. */
  lemma BatchReportsRise(n: nat, count: nat)
    requires count > 0
    ensures NonDecreasing(BatchReports(count, Batches(count), n + 5))
    ensures Between(BatchReports(count, Batches(count), n + 5), n + 5, n + 9)
    ensures |Batches(count)| > 0
  {
    BatchesFromShape(0, count, BatchSize(count));
    BatchValues(count, Batches(count), n + 5);
  }

  /** Over consecutive batches ending at `count`, `base + 4 * end / count` climbs to `base + 4`. */
  lemma BatchValues(count: nat, b: seq<(nat, nat)>, base: nat)
    requires count > 0 && |b| > 0
    requires forall k :: 0 <= k < |b| ==> b[k].0 < b[k].1 <= count
    requires forall k :: 0 <= k < |b| - 1 ==> b[k].1 == b[k + 1].0
    requires b[|b| - 1].1 == count
    ensures NonDecreasing(BatchReports(count, b, base)) && Between(BatchReports(count, b, base), base, base + 4)
    ensures BatchReports(count, b, base)[|b| - 1] == base + 4
  {
    BatchValuesRise(count, b, base);
    BatchValuesWithin(count, b, base);
  }

  lemma BatchValuesRise(count: nat, b: seq<(nat, nat)>, base: nat)
    requires count > 0
    requires forall k :: 0 <= k < |b| ==> b[k].0 < b[k].1 <= count
    requires forall k :: 0 <= k < |b| - 1 ==> b[k].1 == b[k + 1].0
    ensures NonDecreasing(BatchReports(count, b, base))
  {
    var r := BatchReports(count, b, base);
    forall i, j | 0 <= i < j < |r| ensures r[i] <= r[j] {
      BatchEndsIncrease(b, i, j);
      QuarterMono(b[i].1, b[j].1, count);
    }
  }

  lemma BatchValuesWithin(count: nat, b: seq<(nat, nat)>, base: nat)
    requires count > 0 && |b| > 0
    requires forall k :: 0 <= k < |b| ==> b[k].1 <= count
    requires b[|b| - 1].1 == count
    ensures Between(BatchReports(count, b, base), base, base + 4)
    ensures BatchReports(count, b, base)[|b| - 1] == base + 4
  {
    var r := BatchReports(count, b, base);
    forall i | 0 <= i < |r| ensures base <= r[i] <= base + 4 {
      QuarterBound(b[i].1, count);
    }
    QuarterBound(count, count);
  }

  lemma QuarterBound(e: nat, count: nat)
    requires e <= count && count > 0
    ensures 4 * e / count <= 4
    ensures e == count ==> 4 * e / count == 4
  {
    QuarterMono(e, count, count);
    QuarterOfWhole(count);
  }

  /** `4 * e / count` grows with `e`. */
  lemma QuarterMono(e1: nat, e2: nat, count: nat)
    requires e1 <= e2 && count > 0
    ensures 4 * e1 / count <= 4 * e2 / count
  {
    DivMono(4 * e1, 4 * e2, count);
  }

  lemma QuarterOfWhole(count: nat)
    requires count > 0
    ensures 4 * count / count == 4
  {
    DivExact(4, count);
  }

  lemma {:induction false} BatchEndsIncrease(b: seq<(nat, nat)>, i: nat, j: nat)
    requires forall k :: 0 <= k < |b| ==> b[k].0 < b[k].1
    requires forall k :: 0 <= k < |b| - 1 ==> b[k].1 == b[k + 1].0
    requires i < j < |b|
    ensures b[i].1 < b[j].1
    decreases j - i
  {
    if j > i + 1 {
      BatchEndsIncrease(b, i + 1, j);
    }
  }

  lemma {:induction false} MulMono(d: nat, x: nat, y: nat)
    requires x <= y
    ensures d * x <= d * y
    decreases y - x
  {
    if x < y {
      assert d * y == d * (y - 1) + d;
      MulMono(d, x, y - 1);
    }
  }

  lemma MulMonoIf(d: nat, x: nat, y: nat)
    ensures x <= y ==> d * x <= d * y
  {
    if x <= y {
      MulMono(d, x, y);
    }
  }

  lemma DivMono(a: nat, b: nat, d: nat)
    requires a <= b && d > 0
    ensures a / d <= b / d
  {
    var q1, q2 := a / d, b / d;
    assert d * (q2 + 1) == d * q2 + d;
    MulMonoIf(d, q2 + 1, q1);
  }

  /** `c * d / d == c`, from both sides. */
  lemma DivExact(c: nat, d: nat)
    requires d > 0
    ensures c * d / d == c
  {
    var q := c * d / d;
    assert d * (c + 1) == d * c + d;
    assert d * (q + 1) == d * q + d;
    MulMonoIf(d, c + 1, q);
    MulMonoIf(d, q + 1, c);
  }

  /**
   The progress values of a complete build of `n` images whose archive holds
   `count` files, all against `n + 10`: `1, 2, …, n + 5`, then one value per
   packaging batch, `n + 5 + 4 * end / count` for the batch ending at `end`,
   then `n + 9` and `n + 10`.
   */
  predicate ProgressShape(r: seq<nat>, n: nat, count: nat)
    requires count > 0
  {
    && |r| == n + 7 + |Batches(count)|
    && r[..n + 5] == seq(n + 5, k requires 0 <= k < n + 5 => k + 1)
    && r[n + 5..n + 5 + |Batches(count)|] == BatchReports(count, Batches(count), n + 5)
    && r[n + 5 + |Batches(count)|..] == [n + 9, n + 10]
  }

  /** The progress values of a complete build follow that shape, never decrease and never exceed the total. */
  lemma ProgressTrace(images: seq<ImageRef>)
    ensures ProgressShape(Reports(BuildSteps(images)), |images|, 2 * |images| + 4)
    ensures NonDecreasing(Reports(BuildSteps(images)))
    ensures Between(Reports(BuildSteps(images)), 1, ProgressTotal(|images|))
  {
    var files := StagedFiles(images);
    assert |files| == 2 * |images| + 4;
    ArchiveTrace(|images|, files);
  }

  lemma ArchiveTrace(n: nat, files: seq<string>)
    requires |files| > 0
    ensures ProgressShape(Reports(ArchiveSteps(n, files)), n, |files|)
    ensures NonDecreasing(Reports(ArchiveSteps(n, files))) && Between(Reports(ArchiveSteps(n, files)), 1, n + 10)
  {
    var s := Reports(StagingSteps(n));
    var p := BatchReports(|files|, Batches(|files|), n + 5);
    ReportsAppend(StagingSteps(n), PackingSteps(n, files));
    StagingReports(n);
    PackingReports(n, files);
    assert Reports(ArchiveSteps(n, files)) == s + p + [n + 9, n + 10];
    BatchReportsRise(n, |files|);
    TraceOf(n, |files|, s, p, Reports(ArchiveSteps(n, files)));
  }

  lemma TraceOf(n: nat, count: nat, s: seq<nat>, p: seq<nat>, r: seq<nat>)
    requires count > 0
    requires s == seq(n + 5, k requires 0 <= k < n + 5 => k + 1)
    requires p == BatchReports(count, Batches(count), n + 5)
    requires NonDecreasing(p) && Between(p, n + 5, n + 9)
    requires r == s + p + [n + 9, n + 10]
    ensures ProgressShape(r, n, count)
    ensures NonDecreasing(r) && Between(r, 1, n + 10)
  {
    assert NonDecreasing(s) && Between(s, 1, n + 5);
    assert r[..n + 5] == s;
    assert r[n + 5..n + 5 + |p|] == p;
    assert r[n + 5 + |p|..] == [n + 9, n + 10];
    ConcatNonDecreasing(s, p, 1, n + 5, n + 9);
    ConcatNonDecreasing(s + p, [n + 9, n + 10], 1, n + 9, n + 10);
  }

  /** The staged names differ pairwise, and only the first is `mimetype`. */
  lemma StagedFilesDistinct(images: seq<ImageRef>)
    ensures forall i, j :: 0 <= i < j < |StagedFiles(images)| ==> StagedFiles(images)[i] != StagedFiles(images)[j]
    ensures forall k :: 1 <= k < |StagedFiles(images)| ==> StagedFiles(images)[k] != MimetypeName
  {
    var f := StagedFiles(images);
    forall i, j | 0 <= i < j < |f| ensures f[i] != f[j] {
      StagedNamesDiffer(images, i, j);
    }
    forall k | 1 <= k < |f| ensures f[k] != MimetypeName {
      StagedNamesDiffer(images, 0, k);
    }
  }

  /** Two staged files at different positions under `OEBPS/` are of different slots. */
  lemma StagedSlotsDiffer(images: seq<ImageRef>, a: nat, c: nat)
    requires a < c < 2 * |images| + 1
    ensures !SameSlot(StagedResources(images)[a], StagedResources(images)[c])
  {
    StagedResourceAt(images, a);
    StagedResourceAt(images, c);
  }

  lemma StagedNamesDiffer(images: seq<ImageRef>, i: nat, j: nat)
    requires i < j < 2 * |images| + 4
    ensures StagedFiles(images)[i] != StagedFiles(images)[j]
  {
    if 3 <= i {
      StagedOebpsDiffer(images, i, j);
    } else if 3 <= j {
      StagedHeadVsOebps(images, i, j);
    } else {
      StagedHead(images);
    }
  }

  /** The three names staged before the walk of `OEBPS` reaches its subfolders. */
  lemma StagedHead(images: seq<ImageRef>)
    ensures StagedFiles(images)[0] == MimetypeName && |StagedFiles(images)[0]| == 8
    ensures StagedFiles(images)[1] == "META-INF/container.xml" && |StagedFiles(images)[1]| == 22
    ensures StagedFiles(images)[2] == "OEBPS/content.opf" && |StagedFiles(images)[2]| == 17
  {
  }

  lemma StagedOebpsDiffer(images: seq<ImageRef>, i: nat, j: nat)
    requires 3 <= i < j < 2 * |images| + 4
    ensures StagedFiles(images)[i] != StagedFiles(images)[j]
  {
    StagedTail(images, i);
    StagedTail(images, j);
    StagedSlotsDiffer(images, i - 3, j - 3);
    OebpsPathsDiffer(StagedResources(images), i - 3, j - 3);
  }

  lemma StagedHeadVsOebps(images: seq<ImageRef>, i: nat, j: nat)
    requires i < 3 <= j < 2 * |images| + 4
    ensures StagedFiles(images)[i] != StagedFiles(images)[j]
  {
    StagedHead(images);
    StagedTail(images, j);
    OebpsPathShape(StagedResources(images), j - 3);
    var f := StagedFiles(images);
    if i == 2 {
      assert f[i][6..8] == "co";
    } else {
      assert f[i][0] != 'O';
    }
  }

  /** Files of different slots get different archive names. */
  lemma OebpsPathsDiffer(rs: seq<Resource>, a: nat, c: nat)
    requires a < |rs| && c < |rs| && !SameSlot(rs[a], rs[c])
    ensures OebpsPaths(rs)[a] != OebpsPaths(rs)[c]
  {
    OebpsPathAt(rs, a);
    OebpsPathAt(rs, c);
    if OebpsPaths(rs)[a] == OebpsPaths(rs)[c] {
      OebpsPathInjective(rs[a], rs[c]);
    }
  }

  lemma OebpsPathInjective(x: Resource, y: Resource)
    requires "OEBPS/" + Href(x) == "OEBPS/" + Href(y)
    ensures SameSlot(x, y)
  {
    assert Href(x) == ("OEBPS/" + Href(x))[6..];
    assert Href(y) == ("OEBPS/" + Href(y))[6..];
    HrefInjective(x, y);
  }

  /** An archive name under `OEBPS/` other than the package document's. */
  lemma OebpsPathShape(rs: seq<Resource>, a: nat)
    requires a < |rs|
    ensures |OebpsPaths(rs)[a]| >= 8 && OebpsPaths(rs)[a][0] == 'O' && OebpsPaths(rs)[a][6..8] != "co"
  {
    OebpsPathAt(rs, a);
    HrefKind(rs[a]);
    assert ("OEBPS/" + Href(rs[a]))[6..8] == Href(rs[a])[..2];
  }

  /** The entries of a complete archive: every staged file once, in `all_files` order, all stored. */
  function ArchiveEntries(images: seq<ImageRef>): (e: seq<Entry>)
    ensures |e| == 2 * |images| + 4
  {
    StoredEntries(StagedFiles(images))
  }

  /**
   The archive holds `mimetype` first and stored, then every other staged file
   exactly once in batch order, never `mimetype` again; the entry names are
   pairwise distinct.
   */
  lemma ArchiveLayout(images: seq<ImageRef>)
    ensures Writes(BuildSteps(images)) == ArchiveEntries(images)
    ensures ArchiveEntries(images)[0] == MimetypeEntry
    ensures forall k :: 0 <= k < |ArchiveEntries(images)| ==>
      ArchiveEntries(images)[k] == Entry(StagedFiles(images)[k], Stored)
    ensures forall i, j :: 0 <= i < j < |ArchiveEntries(images)| ==>
      ArchiveEntries(images)[i].name != ArchiveEntries(images)[j].name
  {
    StagedFilesDistinct(images);
    ArchiveWrites(|images|, StagedFiles(images));
  }

  lemma ArchiveWrites(n: nat, files: seq<string>)
    requires |files| > 0 && files[0] == MimetypeName
    requires forall k :: 1 <= k < |files| ==> files[k] != MimetypeName
    ensures Writes(ArchiveSteps(n, files)) == StoredEntries(files)
  {
    WritesAppend(StagingSteps(n), PackingSteps(n, files));
    StagingPolls(n);
    PackingWrites(n, files);
    EntriesOfStaged(files);
  }

  /** Writing the staged files skips only the leading `mimetype`, already written. */
  lemma EntriesOfStaged(files: seq<string>)
    requires |files| > 0 && files[0] == MimetypeName
    requires forall k :: 1 <= k < |files| ==> files[k] != MimetypeName
    ensures [MimetypeEntry] + Entries(files) == StoredEntries(files)
  {
    EntriesSkipMimetype(files);
    EntriesWithoutMimetype(files[1..]);
    StoredEntriesCons(files);
  }

  lemma EntriesSkipMimetype(files: seq<string>)
    requires |files| > 0 && files[0] == MimetypeName
    ensures Entries(files) == Entries(files[1..])
  {
  }

  /** How many polls a complete build makes: one per image, one per packaging batch. */
  function BuildPolls(n: nat): nat {
    n + |Batches(2 * n + 4)|
  }

  lemma BuildStepsPolls(images: seq<ImageRef>)
    ensures Polls(BuildSteps(images)) == BuildPolls(|images|)
  {
    ArchivePolls(|images|, StagedFiles(images));
  }

  lemma ArchivePolls(n: nat, files: seq<string>)
    requires |files| > 0
    ensures Polls(ArchiveSteps(n, files)) == n + |Batches(|files|)|
  {
    PollsAppend(StagingSteps(n), PackingSteps(n, files));
    StagingPolls(n);
    PackingPolls(n, files);
  }

  /**
   Where a cancelled build stops: before `ZipFile` is opened (nothing written,
   no archive) exactly when the set flag is met in the image loop; otherwise a
   partial archive remains that starts with the stored `mimetype`.
   */
  lemma CancelPoint(n: nat, files: seq<string>, at: nat)
    requires |files| > 0
    requires at < |ArchiveSteps(n, files)| && ArchiveSteps(n, files)[at] == Poll
    ensures Writes(ArchiveSteps(n, files)[..at]) == [] <==> Polls(ArchiveSteps(n, files)[..at]) < n
    ensures Writes(ArchiveSteps(n, files)[..at]) != [] ==> Writes(ArchiveSteps(n, files)[..at])[0] == MimetypeEntry
  {
    var a := StagingSteps(n);
    if at < |a| {
      assert a[at] == ArchiveSteps(n, files)[at];
      CancelInStaging(n, files, at);
    } else {
      CancelInPacking(n, files, at - |a|);
    }
  }

  /** A poll in the image loop finds the flag set before anything is written, and fewer than `n` polls before it. */
  lemma CancelInStaging(n: nat, files: seq<string>, at: nat)
    requires |files| > 0 && at < |StagingSteps(n)| && StagingSteps(n)[at] == Poll
    ensures Writes(ArchiveSteps(n, files)[..at]) == [] && Polls(ArchiveSteps(n, files)[..at]) < n
  {
    var a := StagingSteps(n);
    StagingPolls(n);
    PrefixPolls(a, at);
    PrefixWrites(a, at);
    assert ArchiveSteps(n, files)[..at] == a[..at];
  }

  /** A poll in the batch loop comes after all `n` image polls and after `mimetype` was written. */
  lemma CancelInPacking(n: nat, files: seq<string>, j: nat)
    requires |files| > 0 && j < |PackingSteps(n, files)| && PackingSteps(n, files)[j] == Poll
    ensures Polls(ArchiveSteps(n, files)[..|StagingSteps(n)| + j]) >= n
    ensures Writes(ArchiveSteps(n, files)[..|StagingSteps(n)| + j]) != []
    ensures Writes(ArchiveSteps(n, files)[..|StagingSteps(n)| + j])[0] == MimetypeEntry
  {
    var a, p := StagingSteps(n), PackingSteps(n, files);
    PrefixAcross(a, p, j);
    PollsAppend(a, p[..j]);
    WritesAppend(a, p[..j]);
    StagingPolls(n);
    PackingStartsWithMimetype(n, files, j);
  }

  lemma PrefixAcross(a: seq<Step>, p: seq<Step>, j: nat)
    requires j <= |p|
    ensures (a + p)[..|a| + j] == a + p[..j]
  {
  }

  lemma PackingStartsWithMimetype(n: nat, files: seq<string>, j: nat)
    requires |files| > 0
    requires j < |PackingSteps(n, files)| && PackingSteps(n, files)[j] == Poll
    ensures Writes(PackingSteps(n, files)[..j]) != []
    ensures Writes(PackingSteps(n, files)[..j])[0] == MimetypeEntry
  {
    var p := PackingSteps(n, files);
    assert p[0] == Write(MimetypeEntry);
    WritesStartWith(p[..j], MimetypeEntry);
  }

  lemma WritesStartWith(x: seq<Step>, e: Entry)
    requires |x| > 0 && x[0] == Write(e)
    ensures Writes(x) != [] && Writes(x)[0] == e
  {
  }

  /**
   The outcome of `create_epub_from_images`: the documents and the complete
   archive, or, after `InterruptedError`, the progress reported so far and
   the entries of the partial archive left at the output path (none when the
   flag was met before the archive was opened).
   */
  datatype Build =
    | Built(book: Book, entries: seq<Entry>, reported: seq<nat>, stop: StopFlag)
    | BuildCancelled(reported: seq<nat>, partial: seq<Entry>, stop: StopFlag)

  function CreateEpub(images: seq<ImageRef>, title: string, stop: StopFlag): (r: Build)
    ensures r.BuildCancelled? <==> stop.SetWithin(BuildPolls(|images|))
    ensures r.stop == stop.Advance(BuildPolls(|images|))
    ensures r.Built? ==>
      && r.book == BuildBook(images, title)
      && r.entries == ArchiveEntries(images)
      && r.reported == Reports(BuildSteps(images))
    ensures r.BuildCancelled? ==>
      && r.reported <= Reports(BuildSteps(images))
      && r.partial <= ArchiveEntries(images)
      && (r.partial == [] <==> stop.clearPolls < |images|)
      && (r.partial != [] ==> r.partial[0] == MimetypeEntry)
  {
    var steps := BuildSteps(images);
    BuildStepsPolls(images);
    ArchiveLayout(images);
    match Run(steps, stop)
    case Finished(rep, w, s) => Built(BuildBook(images, title), w, rep, s)
    case Stopped(at, rep, w, s) =>
      PrefixOfSteps(steps, at);
      CancelPoint(|images|, StagedFiles(images), at);
      BuildCancelled(rep, w, s)
  }

  /**
   Every build, complete or cancelled, reports values that never decrease and
   stay within `1 … n + 10`; a complete build ends at the total.
   */
  lemma ReportedProgress(images: seq<ImageRef>, title: string, stop: StopFlag)
    ensures NonDecreasing(CreateEpub(images, title, stop).reported)
    ensures Between(CreateEpub(images, title, stop).reported, 1, ProgressTotal(|images|))
    ensures CreateEpub(images, title, stop).Built? ==>
      var r := CreateEpub(images, title, stop).reported;
      |r| > 0 && r[|r| - 1] == ProgressTotal(|images|)
  {
    ProgressTrace(images);
    PrefixKeepsBounds(CreateEpub(images, title, stop).reported, Reports(BuildSteps(images)), 1, ProgressTotal(|images|));
  }

  lemma PrefixKeepsBounds(p: seq<nat>, full: seq<nat>, lo: nat, hi: nat)
    requires p <= full && NonDecreasing(full) && Between(full, lo, hi)
    ensures NonDecreasing(p) && Between(p, lo, hi)
  {
    assert forall k :: 0 <= k < |p| ==> p[k] == full[k];
  }

  /**
   The staged tree holds exactly the container, the package document and the
   files the manifest lists, each under `OEBPS/` at its manifest href: the NCX
   first, then the image copies in manifest order, then the pages.
   */
  lemma StagedFilesFollowManifest(images: seq<ImageRef>)
    ensures StagedFiles(images) == [MimetypeName, "META-INF/container.xml", "OEBPS/content.opf"] + OebpsPaths(StagedResources(images))
    ensures StagedResources(images)[0] == Manifest(images)[0].file
    ensures forall i :: 0 <= i < |images| ==> StagedResources(images)[1 + i] == Manifest(images)[2 * i + 1].file
    ensures forall i :: 0 <= i < |images| ==> StagedResources(images)[|images| + 1 + i] == Manifest(images)[2 * i + 2].file
  {
    ManifestLayout(images);
    StagedResourceAt(images, 0);
    forall i | 0 <= i < |images|
      ensures StagedResources(images)[1 + i] == Manifest(images)[2 * i + 1].file
      ensures StagedResources(images)[|images| + 1 + i] == Manifest(images)[2 * i + 2].file
    {
      StagedResourceAt(images, 1 + i);
      StagedResourceAt(images, |images| + 1 + i);
    }
  }
}

=== FILE: batch.dfy ===
/**
 Batch conversion (`run_batch_conversion`, pic2epub.py:780-810): one policy
 for the whole run, the folders converted one after another, the stop flag
 polled before each. The loop ends early at a set flag or an interrupted
 folder, and the run still reports success with the archives produced so
 far; a folder without images ends the run with a failure and no list.

 The loop is stated over any per-folder conversion; `RunBatch` plugs in
 `RunSingle`, and what the loop needs of a conversion is proved of
 `RunSingle` once, one folder at a time.
 */
module Batch {
  import opened Strings
  import opened StopFlags
  import opened Overwrite
  import opened Discovery
  import opened Runs

  /** What `finish_callback` is told: success with the produced paths, a cancellation with them, or an error. */
  datatype Outcome = Succeeded(generated: seq<string>) | CancelledWith(generated: seq<string>) | Failed

  /** A folder result after which the loop goes on to the next folder. */
  predicate Continues(x: SingleResult) {
    x.Produced? || x.Skipped?
  }

  /** The paths of the produced archives, in order; skipped folders are omitted. */
  function Generated(results: seq<SingleResult>): (g: seq<string>)
    ensures |g| <= |results|
    ensures forall p :: p in g <==> exists k :: 0 <= k < |results| && results[k].Produced? && results[k].path == p
  {
    if |results| == 0 then []
    else
      var rest := Generated(results[1..]);
      assert forall k :: 1 <= k < |results| ==> results[k] == results[1..][k - 1];
      (if results[0].Produced? then [results[0].path] else []) + rest
  }

  /**
   The callback outcome from the results of the folders the loop reached: a
   folder without images is a failure; anything else, a set flag or an
   interrupted folder included, is a success with the produced paths.
   */
  function BatchFinish(results: seq<SingleResult>): (o: Outcome)
    ensures o.Failed? <==> NoImages in results
    ensures !o.CancelledWith?
    ensures o.Succeeded? ==> o.generated == Generated(results)
  {
    if NoImages in results then Failed else Succeeded(Generated(results))
  }

  /** The folders the loop reached, what each gave, and the surroundings after the loop. */
  datatype Loop = Loop(results: seq<SingleResult>, stopPolled: bool, env: Env)

  /** Every folder the loop reached but the last went on to the next. */
  predicate WellEnded(results: seq<SingleResult>) {
    forall k :: 0 <= k < |results| - 1 ==> Continues(results[k])
  }

  /** One folder's conversion, as the loop sees it. */
  type Conversion = (Folder, Env) -> Single

  /**
   The `for idx, folder in enumerate(folders)` loop, with `convert` standing
   for `run_single_conversion`. The loop stops at a set flag before a folder
   or after a folder that did not go on, and only there.
   */
  function BatchLoop(folders: seq<Folder>, convert: Conversion, env: Env): (l: Loop)
    ensures |l.results| <= |folders|
    ensures l.stopPolled ==> |l.results| < |folders| && l.env.stop.IsSet()
    ensures WellEnded(l.results)
    ensures |l.results| < |folders| && !l.stopPolled ==> |l.results| > 0 && !Continues(l.results[|l.results| - 1])
    ensures l.stopPolled && |l.results| > 0 ==> Continues(l.results[|l.results| - 1])
    decreases |folders|
  {
    if |folders| == 0 then Loop([], false, env)
    else if env.stop.IsSet() then Loop([], true, env)
    else
      var one := convert(folders[0], env.(stop := env.stop.Next()));
      if Continues(one.result) then
        var rest := BatchLoop(folders[1..], convert, one.env);
        assert forall k :: 1 <= k < |rest.results| + 1 ==> ([one.result] + rest.results)[k] == rest.results[k - 1];
        Loop([one.result] + rest.results, rest.stopPolled, rest.env)
      else Loop([one.result], false, one.env)
  }

  /** Result `x` is what converting `f` can give: its own archive path, and no images only when it has none. */
  predicate FitsFolder(x: SingleResult, f: Folder, supported: set<string>, outputDir: Option<string>) {
    && (x.Produced? ==> x.path == OutputPath(f.path, outputDir))
    && (x == NoImages ==> FolderImages(f.listing, supported) == [])
  }

  /** Every result of `convert` fits the folder it was given. */
  ghost predicate AlwaysFits(convert: Conversion, supported: set<string>, outputDir: Option<string>) {
    forall f, e :: FitsFolder(convert(f, e).result, f, supported, outputDir)
  }

  /** The results line up with the folders: the k-th is what converting the k-th folder can give. */
  lemma {:induction false} LoopFits(folders: seq<Folder>, convert: Conversion, env: Env,
                                    supported: set<string>, outputDir: Option<string>)
    requires AlwaysFits(convert, supported, outputDir)
    ensures var l := BatchLoop(folders, convert, env);
      forall k :: 0 <= k < |l.results| ==> FitsFolder(l.results[k], folders[k], supported, outputDir)
    decreases |folders|
  {
    if |folders| > 0 && !env.stop.IsSet() {
      var one := convert(folders[0], env.(stop := env.stop.Next()));
      if Continues(one.result) {
        LoopFits(folders[1..], convert, one.env, supported, outputDir);
        var rest := BatchLoop(folders[1..], convert, one.env);
        forall k | 1 <= k < |rest.results| + 1
          ensures FitsFolder(([one.result] + rest.results)[k], folders[k], supported, outputDir)
        {
          assert ([one.result] + rest.results)[k] == rest.results[k - 1] && folders[k] == folders[1..][k - 1];
        }
      }
    }
  }

  /** A conversion never sets a flag that no poll sees set. */
  ghost predicate KeepsNever(convert: Conversion) {
    forall f: Folder, e: Env :: e.stop.Never? ==> convert(f, e).env.stop.Never?
  }

  /** A flag no poll sees set never stops the loop, and is still never set after it. */
  lemma {:induction false} LoopNeverStops(folders: seq<Folder>, convert: Conversion, env: Env)
    requires KeepsNever(convert)
    requires env.stop.Never?
    ensures var l := BatchLoop(folders, convert, env);
      !l.stopPolled && l.env.stop.Never?
    decreases |folders|
  {
    if |folders| > 0 {
      var one := convert(folders[0], env);
      if Continues(one.result) {
        LoopNeverStops(folders[1..], convert, one.env);
      }
    }
  }

  /** `run_single_conversion` with the run's extensions and output directory. */
  function Converter(supported: set<string>, outputDir: Option<string>): Conversion {
    (f: Folder, e: Env) => RunSingle(f, supported, outputDir, e)
  }

  lemma ConverterFits(supported: set<string>, outputDir: Option<string>)
    ensures AlwaysFits(Converter(supported, outputDir), supported, outputDir)
  {
  }

  lemma ConverterKeepsNever(supported: set<string>, outputDir: Option<string>)
    ensures KeepsNever(Converter(supported, outputDir))
  {
    forall f: Folder, e: Env | e.stop.Never? ensures RunSingle(f, supported, outputDir, e).env.stop.Never? {
      SingleFlag(f, supported, outputDir, e);
    }
  }

  /** `run_batch_conversion`: the loop over `run_single_conversion`, then the callback. */
  function RunBatch(folders: seq<Folder>, supported: set<string>, outputDir: Option<string>, env: Env): (o: Outcome)
    ensures !o.CancelledWith?
    ensures o.Failed? ==> exists k :: 0 <= k < |folders| && FolderImages(folders[k].listing, supported) == []
    ensures o.Succeeded? ==> |o.generated| <= |folders|
    ensures o.Succeeded? ==> forall p :: p in o.generated ==> exists k :: 0 <= k < |folders| && p == OutputPath(folders[k].path, outputDir)
    ensures o.Failed? <==> NoImages in BatchLoop(folders, Converter(supported, outputDir), env).results
    ensures o.Succeeded? ==> o.generated == Generated(BatchLoop(folders, Converter(supported, outputDir), env).results)
  {
    var l := BatchLoop(folders, Converter(supported, outputDir), env);
    ConverterFits(supported, outputDir);
    LoopFits(folders, Converter(supported, outputDir), env, supported, outputDir);
    ResultsFitFolders(l.results, folders, supported, outputDir);
    BatchFinish(l.results)
  }

  lemma ResultsFitFolders(results: seq<SingleResult>, folders: seq<Folder>, supported: set<string>, outputDir: Option<string>)
    requires |results| <= |folders|
    requires forall k :: 0 <= k < |results| ==> FitsFolder(results[k], folders[k], supported, outputDir)
    ensures NoImages in results ==> exists k :: 0 <= k < |folders| && FolderImages(folders[k].listing, supported) == []
    ensures forall p :: p in Generated(results) ==> exists k :: 0 <= k < |folders| && p == OutputPath(folders[k].path, outputDir)
  {
    if NoImages in results {
      var k :| 0 <= k < |results| && results[k] == NoImages;
      assert FitsFolder(results[k], folders[k], supported, outputDir);
    }
    forall p | p in Generated(results)
      ensures exists k :: 0 <= k < |folders| && p == OutputPath(folders[k].path, outputDir)
    {
      var k :| 0 <= k < |results| && results[k].Produced? && results[k].path == p;
      assert FitsFolder(results[k], folders[k], supported, outputDir);
    }
  }

  /** Without a set flag the batch is never cut short by its own poll. */
  lemma BatchNeverStops(folders: seq<Folder>, supported: set<string>, outputDir: Option<string>, env: Env)
    requires env.stop.Never?
    ensures !BatchLoop(folders, Converter(supported, outputDir), env).stopPolled
  {
    ConverterKeepsNever(supported, outputDir);
    LoopNeverStops(folders, Converter(supported, outputDir), env);
  }

  /** A folder with images whose archive already exists. */
  predicate Existing(f: Folder, supported: set<string>, outputDir: Option<string>, existing: set<string>) {
    FolderImages(f.listing, supported) != [] && OutputPath(f.path, outputDir) in existing
  }

  /** Policy "skip" remembered, and no flag. */
  predicate SkipsKnown(e: Env) {
    e.policy == Some(Policy(Some(Skip))) && e.stop.Never?
  }

  /** With "skip" remembered, a folder whose archive exists is skipped and nothing changes. */
  ghost predicate SkipsSilently(convert: Conversion, supported: set<string>, outputDir: Option<string>) {
    forall f, e :: SkipsKnown(e) && Existing(f, supported, outputDir, e.existing) ==>
      convert(f, e) .result == Skipped && convert(f, e).env == e
  }

  lemma ConverterSkipsSilently(supported: set<string>, outputDir: Option<string>)
    ensures SkipsSilently(Converter(supported, outputDir), supported, outputDir)
  {
    forall f, e | SkipsKnown(e) && Existing(f, supported, outputDir, e.existing)
      ensures RunSingle(f, supported, outputDir, e).result == Skipped
      ensures RunSingle(f, supported, outputDir, e).env == e
    {
      SingleAnswers(f, supported, outputDir, e);
      SingleFiles(f, supported, outputDir, e);
      SingleFlag(f, supported, outputDir, e);
    }
  }

  /** `n` skipped folders. */
  function Skips(n: nat): (r: seq<SingleResult>)
    ensures |r| == n
  {
    if n == 0 then [] else [Skipped] + Skips(n - 1)
  }

  /** With "skip" remembered, every folder with an existing archive is skipped without a prompt. */
  lemma LoopSkipsRemembered(folders: seq<Folder>, convert: Conversion, supported: set<string>,
                            outputDir: Option<string>, env: Env)
    requires SkipsSilently(convert, supported, outputDir)
    requires forall k :: 0 <= k < |folders| ==> Existing(folders[k], supported, outputDir, env.existing)
    requires SkipsKnown(env)
    ensures BatchLoop(folders, convert, env).results == Skips(|folders|)
    ensures BatchLoop(folders, convert, env).env == env
  {
    forall k | 0 <= k < |folders|
      ensures convert(folders[k], env).result == Skipped && convert(folders[k], env).env == env
    {
      SkipsOne(convert, supported, outputDir, folders[k], env);
    }
    LoopSkipsEach(folders, convert, env);
  }

  /** `convert` skips each of `folders` and leaves the environment alone. */
  predicate SkipsEach(folders: seq<Folder>, convert: Conversion, env: Env) {
    forall k :: 0 <= k < |folders| ==> convert(folders[k], env).result == Skipped && convert(folders[k], env).env == env
  }

  lemma {:induction false} LoopSkipsEach(folders: seq<Folder>, convert: Conversion, env: Env)
    requires SkipsEach(folders, convert, env) && env.stop.Never?
    ensures BatchLoop(folders, convert, env).results == Skips(|folders|)
    ensures BatchLoop(folders, convert, env).env == env
    decreases |folders|
  {
    if |folders| > 0 {
      assert env.(stop := env.stop.Next()) == env;
      assert convert(folders[0], env).result == Skipped;
      LoopHead(folders, convert, env);
      assert SkipsEach(folders[1..], convert, env) by {
        assert forall k :: 0 <= k < |folders[1..]| ==> folders[1..][k] == folders[k + 1];
      }
      LoopSkipsEach(folders[1..], convert, env);
      SkipsCons(|folders|);
    }
  }

  lemma SkipsOne(convert: Conversion, supported: set<string>, outputDir: Option<string>, f: Folder, env: Env)
    requires SkipsSilently(convert, supported, outputDir)
    requires SkipsKnown(env) && Existing(f, supported, outputDir, env.existing)
    ensures convert(f, env).result == Skipped && convert(f, env).env == env
  {
  }

  /** A loop whose first folder goes on is that folder's result followed by the loop over the rest. */
  lemma LoopHead(folders: seq<Folder>, convert: Conversion, env: Env)
    requires |folders| > 0 && !env.stop.IsSet()
    requires Continues(convert(folders[0], env.(stop := env.stop.Next())).result)
    ensures var one := convert(folders[0], env.(stop := env.stop.Next()));
      var rest := BatchLoop(folders[1..], convert, one.env);
      BatchLoop(folders, convert, env) == Loop([one.result] + rest.results, rest.stopPolled, rest.env)
  {
  }

  lemma ExistingTail(folders: seq<Folder>, supported: set<string>, outputDir: Option<string>, existing: set<string>)
    requires |folders| > 0
    requires forall k :: 0 <= k < |folders| ==> Existing(folders[k], supported, outputDir, existing)
    ensures forall k :: 0 <= k < |folders[1..]| ==> Existing(folders[1..][k], supported, outputDir, existing)
  {
    assert forall k :: 0 <= k < |folders[1..]| ==> folders[1..][k] == folders[k + 1];
  }

  lemma SkipsCons(n: nat)
    requires n > 0
    ensures Skips(n) == [Skipped] + Skips(n - 1)
  {
  }

  /** The first dialog answers "skip" with "apply to all". */
  predicate SkipAllNext(e: Env) {
    e.policy == Some(FreshPolicy) && e.stop.Never? && |e.answers| > 0 && e.answers[0] == Chose(Skip, true)
  }

  /** At the first conflict the dialog is shown and its "skip" for all is remembered. */
  ghost predicate SkipsAtPrompt(convert: Conversion, supported: set<string>, outputDir: Option<string>) {
    forall f, e :: SkipAllNext(e) && Existing(f, supported, outputDir, e.existing) ==>
      convert(f, e).result == Skipped &&
      convert(f, e).env == e.(policy := Some(Policy(Some(Skip))), answers := e.answers[1..])
  }

  lemma ConverterSkipsAtPrompt(supported: set<string>, outputDir: Option<string>)
    ensures SkipsAtPrompt(Converter(supported, outputDir), supported, outputDir)
  {
    forall f, e | SkipAllNext(e) && Existing(f, supported, outputDir, e.existing)
      ensures RunSingle(f, supported, outputDir, e).result == Skipped
      ensures RunSingle(f, supported, outputDir, e).env == e.(policy := Some(Policy(Some(Skip))), answers := e.answers[1..])
    {
      SingleAnswers(f, supported, outputDir, e);
      SingleFiles(f, supported, outputDir, e);
      SingleFlag(f, supported, outputDir, e);
    }
  }

  lemma {:induction false} SkippedGenerateNothing(n: nat)
    ensures Generated(Skips(n)) == [] && NoImages !in Skips(n)
  {
    if n > 0 {
      assert Skips(n)[1..] == Skips(n - 1);
      SkippedGenerateNothing(n - 1);
    }
  }

  /**
   "Skip" with "apply to all" at the first conflict: when every folder has
   images and every archive exists, the run prompts once, skips every
   folder, and reports success with no archive.
   */
  lemma SkipAllAtFirstPrompt(folders: seq<Folder>, supported: set<string>, outputDir: Option<string>, env: Env)
    requires |folders| > 0
    requires forall k :: 0 <= k < |folders| ==> Existing(folders[k], supported, outputDir, env.existing)
    requires SkipAllNext(env)
    ensures var l := BatchLoop(folders, Converter(supported, outputDir), env);
      && l.results == Skips(|folders|)
      && l.env.answers == env.answers[1..]
    ensures RunBatch(folders, supported, outputDir, env) == Succeeded([])
  {
    LoopSkipAll(folders, supported, outputDir, env);
    SkippedGenerateNothing(|folders|);
  }

  lemma LoopSkipAll(folders: seq<Folder>, supported: set<string>, outputDir: Option<string>, env: Env)
    requires |folders| > 0
    requires forall k :: 0 <= k < |folders| ==> Existing(folders[k], supported, outputDir, env.existing)
    requires SkipAllNext(env)
    ensures var l := BatchLoop(folders, Converter(supported, outputDir), env);
      && l.results == Skips(|folders|)
      && l.env.answers == env.answers[1..]
  {
    var convert := Converter(supported, outputDir);
    ConverterSkipsAtPrompt(supported, outputDir);
    ConverterSkipsSilently(supported, outputDir);
    assert Existing(folders[0], supported, outputDir, env.existing);
    assert env.(stop := env.stop.Next()) == env;
    var env' := env.(policy := Some(Policy(Some(Skip))), answers := env.answers[1..]);
    assert convert(folders[0], env).result == Skipped && convert(folders[0], env).env == env';
    LoopHead(folders, convert, env);
    ExistingTail(folders, supported, outputDir, env.existing);
    LoopSkipsRemembered(folders[1..], convert, supported, outputDir, env');
    SkipsCons(|folders|);
  }

  /** The archive paths of `folders`, in order. */
  function OutputPaths(folders: seq<Folder>, outputDir: Option<string>): (r: seq<string>)
    ensures |r| == |folders|
  {
    if |folders| == 0 then [] else [OutputPath(folders[0].path, outputDir)] + OutputPaths(folders[1..], outputDir)
  }

  /** No flag, and the folder has images and no archive yet. */
  predicate Fresh(f: Folder, supported: set<string>, outputDir: Option<string>, e: Env) {
    e.stop.Never? && FolderImages(f.listing, supported) != [] && OutputPath(f.path, outputDir) !in e.existing
  }

  /** A folder with images and no archive yet is converted, and only its archive is added. */
  ghost predicate ProducesFresh(convert: Conversion, supported: set<string>, outputDir: Option<string>) {
    forall f, e :: Fresh(f, supported, outputDir, e) ==>
      convert(f, e).result.Produced? && convert(f, e).result.path == OutputPath(f.path, outputDir) &&
      convert(f, e).env == e.(existing := e.existing + {OutputPath(f.path, outputDir)})
  }

  lemma ConverterProducesFresh(supported: set<string>, outputDir: Option<string>)
    ensures ProducesFresh(Converter(supported, outputDir), supported, outputDir)
  {
    forall f, e | Fresh(f, supported, outputDir, e)
      ensures RunSingle(f, supported, outputDir, e).result.Produced?
      ensures RunSingle(f, supported, outputDir, e).result.path == OutputPath(f.path, outputDir)
      ensures RunSingle(f, supported, outputDir, e).env == e.(existing := e.existing + {OutputPath(f.path, outputDir)})
    {
      SingleAnswers(f, supported, outputDir, e);
      SingleFlag(f, supported, outputDir, e);
    }
  }

  /** Folders with images, no archives yet and pairwise distinct archive paths are all converted, in order. */
  lemma {:induction false} LoopProducesAll(folders: seq<Folder>, convert: Conversion, supported: set<string>,
                                           outputDir: Option<string>, env: Env)
    requires ProducesFresh(convert, supported, outputDir)
    requires forall k :: 0 <= k < |folders| ==> Fresh(folders[k], supported, outputDir, env)
    requires forall i, j :: 0 <= i < j < |folders| ==> OutputPath(folders[i].path, outputDir) != OutputPath(folders[j].path, outputDir)
    ensures var l := BatchLoop(folders, convert, env);
      && |l.results| == |folders|
      && NoImages !in l.results
      && Generated(l.results) == OutputPaths(folders, outputDir)
    decreases |folders|
  {
    if |folders| > 0 {
      var path := OutputPath(folders[0].path, outputDir);
      assert Fresh(folders[0], supported, outputDir, env);
      assert env.(stop := env.stop.Next()) == env;
      var env' := env.(existing := env.existing + {path});
      var tail := folders[1..];
      forall k | 0 <= k < |tail| ensures Fresh(tail[k], supported, outputDir, env') {
        assert tail[k] == folders[k + 1];
        assert Fresh(folders[k + 1], supported, outputDir, env);
      }
      LoopProducesAll(tail, convert, supported, outputDir, env');
      var x := convert(folders[0], env).result;
      var rest := BatchLoop(tail, convert, env');
      assert BatchLoop(folders, convert, env).results == [x] + rest.results;
      GeneratedCons(x, rest.results);
    }
  }

  lemma GeneratedCons(x: SingleResult, rest: seq<SingleResult>)
    requires x.Produced?
    ensures Generated([x] + rest) == [x.path] + Generated(rest)
  {
    assert ([x] + rest)[1..] == rest;
  }

  /**
   When no flag is set, every folder has images and no archive exists yet,
   and the folders' archive paths differ, every folder is converted and the
   run reports all their paths, in folder order.
   */
  lemma ProduceAll(folders: seq<Folder>, supported: set<string>, outputDir: Option<string>, env: Env)
    requires env.stop.Never?
    requires forall k :: 0 <= k < |folders| ==> FolderImages(folders[k].listing, supported) != []
    requires forall k :: 0 <= k < |folders| ==> OutputPath(folders[k].path, outputDir) !in env.existing
    requires forall i, j :: 0 <= i < j < |folders| ==> OutputPath(folders[i].path, outputDir) != OutputPath(folders[j].path, outputDir)
    ensures RunBatch(folders, supported, outputDir, env) == Succeeded(OutputPaths(folders, outputDir))
  {
    ConverterProducesFresh(supported, outputDir);
    assert forall k :: 0 <= k < |folders| ==> Fresh(folders[k], supported, outputDir, env);
    LoopProducesAll(folders, Converter(supported, outputDir), supported, outputDir, env);
  }
}

=== FILE: decimal.dfy ===
/**
 Decimal text: the `str(i)` and `f"{i:04d}"` renderings used for generated
 identifiers and file names, their inverse, and the "first run of digits"
 extraction that drives numeric page ordering.
 */
module Decimal {
  import opened Strings

  predicate IsDigit(c: char) {
    '0' <= c <= '9'
  }

  predicate AllDigits(s: string) {
    forall i :: 0 <= i < |s| ==> IsDigit(s[i])
  }

  predicate NoDigits(s: string) {
    forall i :: 0 <= i < |s| ==> !IsDigit(s[i])
  }

  function DigitChar(d: nat): (c: char)
    requires d < 10
    ensures IsDigit(c) && c as int - '0' as int == d
  {
    ('0' as int + d) as char
  }

  /** Value of a (possibly zero-padded) string of decimal digits. */
  function ParseDigits(s: string): nat
    requires AllDigits(s)
  {
    if |s| == 0 then 0
    else ParseDigits(s[..|s| - 1]) * 10 + (s[|s| - 1] as int - '0' as int)
  }

  /** `str(n)` for a natural number: shortest decimal rendering. */
  function NatToString(n: nat): (r: string)
    ensures 1 <= |r| && AllDigits(r)
    ensures ParseDigits(r) == n
    ensures |r| > 1 ==> r[0] != '0'
  {
    if n < 10 then [DigitChar(n)]
    else
      var r := NatToString(n / 10) + [DigitChar(n % 10)];
      assert r[..|r| - 1] == NatToString(n / 10);
      r
  }

  lemma NatToStringInjective(m: nat, n: nat)
    requires NatToString(m) == NatToString(n)
    ensures m == n
  {
  }

  function Zeros(k: nat): (r: string)
    ensures |r| == k && forall i :: 0 <= i < k ==> r[i] == '0'
  {
    if k == 0 then [] else Zeros(k - 1) + ['0']
  }

  lemma {:induction false} ParseLeadingZeros(k: nat, s: string)
    requires AllDigits(s)
    ensures AllDigits(Zeros(k) + s)
    ensures ParseDigits(Zeros(k) + s) == ParseDigits(s)
    decreases |s|
  {
    var t := Zeros(k) + s;
    if |s| == 0 {
      assert t == Zeros(k);
      ParseZeros(k);
    } else {
      assert t[..|t| - 1] == Zeros(k) + s[..|s| - 1];
      ParseLeadingZeros(k, s[..|s| - 1]);
    }
  }

  lemma {:induction false} ParseZeros(k: nat)
    ensures ParseDigits(Zeros(k)) == 0
  {
    if k > 0 {
      assert Zeros(k)[..k - 1] == Zeros(k - 1);
      ParseZeros(k - 1);
    }
  }

  /** `f"{n:0{width}d}"`: zero-padded to at least `width` characters. */
  function ZeroPad(n: nat, width: nat): (r: string)
    ensures AllDigits(r) && |r| >= width && |r| >= 1
    ensures ParseDigits(r) == n
  {
    var s := NatToString(n);
    var k := if |s| < width then width - |s| else 0;
    ParseLeadingZeros(k, s);
    Zeros(k) + s
  }

  lemma ZeroPadWidth(n: nat)
    requires n < 10000
    ensures |ZeroPad(n, 4)| == 4
  {
    var s := NatToString(n);
    if |s| > 4 {
      assert s == NatToString(n / 10) + [DigitChar(n % 10)];
      assert |NatToString(n / 10)| >= 4;
      NatToStringLengthBound(n / 10);
    }
  }

  lemma {:induction false} NatToStringLengthBound(n: nat)
    ensures |NatToString(n)| >= 2 ==> n >= 10
    ensures |NatToString(n)| >= 3 ==> n >= 100
    ensures |NatToString(n)| >= 4 ==> n >= 1000
  {
    if n >= 10 {
      NatToStringLengthBound(n / 10);
    }
  }

  /** The longest prefix of `s` made of digits (`\d+` matched greedily). */
  function DigitPrefix(s: string): (r: string)
    ensures |r| <= |s| && r == s[..|r|] && AllDigits(r)
    ensures |r| < |s| ==> !IsDigit(s[|r|])
  {
    if |s| == 0 || !IsDigit(s[0]) then []
    else [s[0]] + DigitPrefix(s[1..])
  }

  /**
   `re.search(r'\d+', s)`: the position and text of the first maximal run of
   decimal digits, or None when `s` has no digit.
   */
  function FirstDigitRun(s: string): (r: Option<(nat, string)>)
    ensures r.None? <==> NoDigits(s)
    ensures r.Some? ==> var (i, d) := r.value;
      && i + |d| <= |s| && |d| >= 1 && d == s[i..i + |d|] && AllDigits(d)
      && NoDigits(s[..i])
      && (i + |d| < |s| ==> !IsDigit(s[i + |d|]))
  {
    if |s| == 0 then None
    else if IsDigit(s[0]) then Some((0, DigitPrefix(s)))
    else
      match FirstDigitRun(s[1..])
      case None => None
      case Some((i, d)) =>
        assert s[1..][..i] == s[1..i + 1];
        Some((i + 1, d))
  }

  /** The numeric sort key of `extract_number`: the first digit run, or +infinity. */
  datatype PageNumber = Finite(n: nat) | Infinite

  function ExtractNumber(name: string): (r: PageNumber)
    ensures r.Infinite? <==> NoDigits(name)
  {
    match FirstDigitRun(name)
    case Some((_, d)) => Finite(ParseDigits(d))
    case None => Infinite
  }

  /** Python's `<` between the int and `float('inf')` values `extract_number` returns. */
  predicate NumberLess(a: PageNumber, b: PageNumber) {
    match (a, b)
    case (Finite(x), Finite(y)) => x < y
    case (Finite(_), Infinite) => true
    case (Infinite, _) => false
  }

  lemma {:induction false} DigitPrefixOf(d: string, rest: string)
    requires AllDigits(d)
    requires |rest| == 0 || !IsDigit(rest[0])
    ensures DigitPrefix(d + rest) == d
    decreases |d|
  {
    if |d| == 0 {
      assert d + rest == rest;
    } else {
      assert (d + rest)[1..] == d[1..] + rest;
      DigitPrefixOf(d[1..], rest);
    }
  }

  lemma {:induction false} FirstDigitRunOfPrefixed(p: string, d: string, rest: string)
    requires NoDigits(p) && AllDigits(d) && |d| >= 1
    requires |rest| == 0 || !IsDigit(rest[0])
    ensures FirstDigitRun(p + d + rest) == Some((|p|, d))
    decreases |p|
  {
    if |p| == 0 {
      assert p + d + rest == d + rest;
      DigitPrefixOf(d, rest);
    } else {
      assert (p + d + rest)[1..] == p[1..] + d + rest;
      FirstDigitRunOfPrefixed(p[1..], d, rest);
    }
  }

  /**
   The key of a name with a digit is the value of its first maximal digit
   run: the run follows a digit-free prefix and ends at the name's end or at
   a non-digit.
   */
  lemma ExtractNumberFirstRun(name: string)
    ensures ExtractNumber(name).Finite? ==> exists i, j ::
      && 0 <= i < j <= |name| && NoDigits(name[..i]) && AllDigits(name[i..j])
      && (j == |name| || !IsDigit(name[j]))
      && ExtractNumber(name).n == ParseDigits(name[i..j])
  {
    match FirstDigitRun(name)
    case Some((i, d)) =>
      assert name[i..i + |d|] == d;
    case None =>
  }

  /**
   A name made of a digit-free prefix, a maximal digit run `d` (zero-padded
   or not) and anything after it sorts with the run's value as key.
   */
  lemma ExtractNumberOfRun(p: string, d: string, rest: string)
    requires NoDigits(p) && AllDigits(d) && |d| >= 1
    requires |rest| == 0 || !IsDigit(rest[0])
    ensures ExtractNumber(p + d + rest) == Finite(ParseDigits(d))
  {
    FirstDigitRunOfPrefixed(p, d, rest);
  }

  /** A name whose first digit run is `n`'s decimal rendering sorts with key `n`. */
  lemma ExtractNumberOfPrefixed(p: string, n: nat, rest: string)
    requires NoDigits(p)
    requires |rest| == 0 || !IsDigit(rest[0])
    ensures ExtractNumber(p + NatToString(n) + rest) == Finite(n)
  {
    ExtractNumberOfRun(p, NatToString(n), rest);
  }

  /** Leading zeros do not change the key: `page007.png` sorts with key 7. */
  lemma ExtractNumberPadded(p: string, k: nat, n: nat, rest: string)
    requires NoDigits(p)
    requires |rest| == 0 || !IsDigit(rest[0])
    ensures ExtractNumber(p + Zeros(k) + NatToString(n) + rest) == Finite(n)
  {
    var z, t := Zeros(k), NatToString(n);
    ParseLeadingZeros(k, t);
    var d := z + t;
    assert p + z + t == p + d;
    ExtractNumberOfRun(p, d, rest);
  }
}

=== FILE: discovery.dfy ===
/**
 Merge-mode discovery (`get_valid_subfolders`, pic2epub.py:435-457) and
 collection (`get_all_images_from_subfolders`, pic2epub.py:460-482).
 Discovery lists the base folder, keeps its subdirectories, polls the stop
 flag before each, and keeps those whose scan finds an image. Collection
 polls before each discovered folder, scans it again and appends its images
 as paths under that folder.

 Each of the two comes in the form the program has and in a corrected
 form: discovery as written swallows the cancellation together with listing
 errors, and collection as written keeps each folder's listing order instead
 of the page order single-folder conversion uses.
 */
module Discovery {
  import opened Strings
  import opened StopFlags
  import opened Scanner
  import opened Ordering
  import opened Package

  /** An entry of the base folder: its name, the `os.path.isdir` answer, and the listing that folder yields. */
  datatype Child = Child(name: string, isDir: bool, listing: Option<seq<DirEntry>>)

  /** A folder to convert: its path and the listing it yields. */
  datatype Folder = Folder(path: string, listing: Option<seq<DirEntry>>)

  /** The images a complete scan of a folder keeps, in listing order. */
  function FolderImages(listing: Option<seq<DirEntry>>, supported: set<string>): seq<string> {
    if listing.None? then [] else ImageNames(listing.value, supported)
  }

  /** How many times scanning a folder polls the flag: once per candidate file. */
  function ScanPolls(listing: Option<seq<DirEntry>>): nat {
    if listing.None? then 0 else |Candidates(listing.value)|
  }

  lemma ScanOutcome(listing: Option<seq<DirEntry>>, supported: set<string>, stop: StopFlag)
    ensures var r := ScanImages(listing, supported, stop);
      && (r.ScanInterrupted? <==> stop.SetWithin(ScanPolls(listing)))
      && r.stop == stop.Advance(ScanPolls(listing))
      && (r.Scanned? ==> r.images == FolderImages(listing, supported))
  {
  }

  function Subdirs(children: seq<Child>): (r: seq<Child>)
    ensures forall k :: 0 <= k < |r| ==> r[k].isDir
    ensures |r| <= |children|
  {
    if |children| == 0 then []
    else (if children[0].isDir then [children[0]] else []) + Subdirs(children[1..])
  }

  /** Reference definition: the subdirectories holding at least one image, in listing order. */
  function ValidFolders(base: string, items: seq<Child>, supported: set<string>): seq<Folder> {
    if |items| == 0 then []
    else
      var c := items[0];
      (if FolderImages(c.listing, supported) != [] then [Folder(Join(base, c.name), c.listing)] else [])
        + ValidFolders(base, items[1..], supported)
  }

  /** Polls made by discovery over `items`: one per item plus its scan's. */
  function DiscoveryPolls(items: seq<Child>): nat {
    if |items| == 0 then 0 else 1 + ScanPolls(items[0].listing) + DiscoveryPolls(items[1..])
  }

  /** The folders kept so far and whether an `InterruptedError` ended the loop. */
  datatype Walk = Walk(folders: seq<Folder>, interrupted: bool, stop: StopFlag)

  /** The `for i, item in enumerate(items)` loop of discovery. */
  function DiscoverLoop(base: string, items: seq<Child>, supported: set<string>, stop: StopFlag): (w: Walk)
    ensures w.interrupted <==> stop.SetWithin(DiscoveryPolls(items))
    ensures w.stop == stop.Advance(DiscoveryPolls(items))
    ensures !w.interrupted ==> w.folders == ValidFolders(base, items, supported)
    ensures w.folders <= ValidFolders(base, items, supported)
  {
    if |items| == 0 then Walk([], false, stop)
    else if stop.IsSet() then Walk([], true, stop)
    else
      var c := items[0];
      var scan := ScanImages(c.listing, supported, stop.Next());
      ScanOutcome(c.listing, supported, stop.Next());
      AdvanceAdd(stop.Next(), ScanPolls(c.listing), DiscoveryPolls(items[1..]));
      match scan
      case ScanInterrupted(_, s) =>
        Walk([], true, s.Advance(DiscoveryPolls(items[1..])))
      case Scanned(images, _, s) =>
        var keep := if images != [] then [Folder(Join(base, c.name), c.listing)] else [];
        var rest := DiscoverLoop(base, items[1..], supported, s);
        Walk(keep + rest.folders, rest.interrupted, rest.stop)
  }

  /**
   `get_valid_subfolders` as written: `except Exception: pass` also catches
   the `InterruptedError` of a poll or a scan, so a cancellation returns the
   folders found so far as if discovery had finished. A listing failure of
   the base folder gives no folders.
   */
  function GetValidSubfoldersAsWritten(base: string, listing: Option<seq<Child>>, supported: set<string>, stop: StopFlag): (r: (seq<Folder>, StopFlag))
    ensures listing.None? ==> r == ([], stop)
    ensures listing.Some? ==>
      var items := Subdirs(listing.value);
      && r.0 <= ValidFolders(base, items, supported)
      && (!stop.SetWithin(DiscoveryPolls(items)) ==> r.0 == ValidFolders(base, items, supported))
      && r.1 == stop.Advance(DiscoveryPolls(items))
  {
    match listing
    case None => ([], stop)
    case Some(children) =>
      var w := DiscoverLoop(base, Subdirs(children), supported, stop);
      (w.folders, w.stop)
  }

  /** Discovery that lets a cancellation through: the folders, or interrupted. */
  datatype Discovered = Found(folders: seq<Folder>, stop: StopFlag) | DiscoveryInterrupted(stop: StopFlag)

  /** `get_valid_subfolders` with only the listing failure swallowed. */
  function GetValidSubfolders(base: string, listing: Option<seq<Child>>, supported: set<string>, stop: StopFlag): (r: Discovered)
    ensures listing.None? ==> r == Found([], stop)
    ensures listing.Some? ==>
      var items := Subdirs(listing.value);
      && (r.DiscoveryInterrupted? <==> stop.SetWithin(DiscoveryPolls(items)))
      && (r.Found? ==> r.folders == ValidFolders(base, items, supported))
      && r.stop == stop.Advance(DiscoveryPolls(items))
  {
    match listing
    case None => Found([], stop)
    case Some(children) =>
      var w := DiscoverLoop(base, Subdirs(children), supported, stop);
      if w.interrupted then DiscoveryInterrupted(w.stop) else Found(w.folders, w.stop)
  }

  /** Whether `f` is the folder discovery makes of child `c` when it holds an image. */
  predicate KeptAs(base: string, c: Child, supported: set<string>, f: Folder) {
    f == Folder(Join(base, c.name), c.listing) && FolderImages(c.listing, supported) != []
  }

  /** A kept folder is a listed subdirectory whose scan finds an image, and conversely. */
  lemma {:induction false} ValidFoldersMembership(base: string, items: seq<Child>, supported: set<string>, f: Folder)
    ensures f in ValidFolders(base, items, supported) <==>
      exists k :: 0 <= k < |items| && KeptAs(base, items[k], supported, f)
  {
    if |items| > 0 {
      ValidFoldersMembership(base, items[1..], supported, f);
      if exists k :: 0 <= k < |items| && KeptAs(base, items[k], supported, f) {
        var k :| 0 <= k < |items| && KeptAs(base, items[k], supported, f);
        if k > 0 {
          assert items[1..][k - 1] == items[k];
        }
      }
      if f in ValidFolders(base, items[1..], supported) {
        var k :| 0 <= k < |items| - 1 && KeptAs(base, items[1..][k], supported, f);
        assert items[k + 1] == items[1..][k];
      }
    }
  }

  /** The image paths collected from one folder: its images in scan order, or in page order. */
  function FolderRefs(f: Folder, supported: set<string>, sortEach: bool): seq<ImageRef> {
    var names := FolderImages(f.listing, supported);
    var ordered := if sortEach then SortImageFiles(names) else names;
    seq(|ordered|, k requires 0 <= k < |ordered| => ImageRef(f.path, ordered[k]))
  }

  /** Reference definition: every folder's images, folder after folder. */
  function AllRefs(folders: seq<Folder>, supported: set<string>, sortEach: bool): seq<ImageRef> {
    if |folders| == 0 then []
    else FolderRefs(folders[0], supported, sortEach) + AllRefs(folders[1..], supported, sortEach)
  }

  function CollectPolls(folders: seq<Folder>): nat {
    if |folders| == 0 then 0 else 1 + ScanPolls(folders[0].listing) + CollectPolls(folders[1..])
  }

  datatype Collected = Collected(images: seq<ImageRef>, stop: StopFlag) | CollectInterrupted(stop: StopFlag)

  /** The `for folder_idx, folder in enumerate(subfolders)` loop of collection. */
  function CollectLoop(folders: seq<Folder>, supported: set<string>, stop: StopFlag, sortEach: bool): (r: Collected)
    ensures r.CollectInterrupted? <==> stop.SetWithin(CollectPolls(folders))
    ensures r.stop == stop.Advance(CollectPolls(folders))
    ensures r.Collected? ==> r.images == AllRefs(folders, supported, sortEach)
  {
    if |folders| == 0 then Collected([], stop)
    else if stop.IsSet() then CollectInterrupted(stop)
    else
      var f := folders[0];
      ScanOutcome(f.listing, supported, stop.Next());
      AdvanceAdd(stop.Next(), ScanPolls(f.listing), CollectPolls(folders[1..]));
      match ScanImages(f.listing, supported, stop.Next())
      case ScanInterrupted(_, s) => CollectInterrupted(s.Advance(CollectPolls(folders[1..])))
      case Scanned(_, _, s) =>
        match CollectLoop(folders[1..], supported, s, sortEach)
        case Collected(images, t) => Collected(FolderRefs(f, supported, sortEach) + images, t)
        case CollectInterrupted(t) => CollectInterrupted(t)
  }

  /** `get_all_images_from_subfolders` as written: each folder's images in listing order. */
  function AllImagesAsWritten(folders: seq<Folder>, supported: set<string>, stop: StopFlag): (r: Collected)
    ensures r.CollectInterrupted? <==> stop.SetWithin(CollectPolls(folders))
    ensures r.stop == stop.Advance(CollectPolls(folders))
    ensures r.Collected? ==> r.images == AllRefs(folders, supported, false)
  {
    CollectLoop(folders, supported, stop, false)
  }

  /** Collection with each folder put in page order, as single-folder conversion orders it. */
  function AllImages(folders: seq<Folder>, supported: set<string>, stop: StopFlag): (r: Collected)
    ensures r.CollectInterrupted? <==> stop.SetWithin(CollectPolls(folders))
    ensures r.stop == stop.Advance(CollectPolls(folders))
    ensures r.Collected? ==> r.images == AllRefs(folders, supported, true)
  {
    CollectLoop(folders, supported, stop, true)
  }
}

=== FILE: merged.dfy ===
/**
 Merge mode: every subfolder's images go into one book in the base folder.
 `run_merged_conversion` (pic2epub.py:756-777) names the archive after the
 base folder with `_merged.epub`, titles it with ` (Merged)`, consults the
 overwrite policy and builds the book from the images in the order given.
 `run_merged_batch_conversion` (pic2epub.py:813-838) collects those images
 from the discovered subfolders and turns what happened into the finish
 callback's outcome.

 The run comes in the form the program has and in a corrected form: the
 corrected one lets a cancellation during discovery through and puts each
 folder's images in page order, as single-folder conversion does.
 */
module Merged {
  import opened Strings
  import opened StopFlags
  import opened Scanner
  import opened Ordering
  import opened Package
  import opened Archive
  import opened Overwrite
  import opened Discovery
  import opened Runs
  import opened Batch

  function MergedName(base: string): string {
    BaseName(base) + "_merged.epub"
  }

  /** The merged archive always goes into the base folder itself. */
  function MergedPath(base: string): string {
    Join(base, MergedName(base))
  }

  function MergedTitle(base: string): string {
    BaseName(base) + " (Merged)"
  }

  /** The merged archive sits directly in the base folder and is named after it. */
  lemma MergedPathParts(base: string)
    ensures BaseName(MergedPath(base)) == MergedName(base)
    ensures StartsWith(MergedPath(base), base + "/")
    ensures EndsWith(MergedName(base), "_merged.epub")
    ensures StartsWith(MergedTitle(base), BaseName(base)) && EndsWith(MergedTitle(base), " (Merged)")
  {
    var b := BaseName(base);
    var name := MergedName(base);
    assert name[|b|..] == "_merged.epub";
    assert MergedTitle(base)[|b|..] == " (Merged)";
    assert forall i :: 0 <= i < |name| ==> name[i] != '/' by {
      forall i | 0 <= i < |name| ensures name[i] != '/' {
        if i >= |b| {
          assert name[i] == "_merged.epub"[i - |b|];
        }
      }
    }
    BaseNameOfJoin(base, name);
    assert Join(base, name)[..|base| + 1] == base + "/";
  }

  /**
   `run_merged_conversion`: no images is an error; an existing archive goes
   through the policy; otherwise the book is built from `refs` as given.
   Progress goes to the current-book bar unmapped, as the build's values
   against its total.
   */
  function RunMerged(base: string, refs: seq<ImageRef>, env: Env): Single {
    if refs == [] then Single(NoImages, [], env)
    else
      var path := MergedPath(base);
      var check := CheckTarget(path, env);
      match check.0
      case Cancelled => Single(Interrupted, [], check.1)
      case Keep => Single(Skipped, [], check.1)
      case Overwrite =>
        var b := CreateEpub(refs, MergedTitle(base), check.1.stop);
        // `ZipFile` creates the output file before the first entry is written.
        var left := if b.Built? || b.partial != [] then {path} else {};
        var result := if b.Built? then Produced(path, b.book, b.entries) else Interrupted;
        Single(result, b.reported, check.1.(existing := check.1.existing + left, stop := b.stop))
  }

  /**
   No images is the only error; the book is produced exactly when the policy
   lets the write proceed and the flag is not met during the build, and it is
   the images in the order given, titled after the base folder; the run
   skips exactly when the policy says keep.
   */
  lemma MergedResult(base: string, refs: seq<ImageRef>, env: Env)
    ensures RunMerged(base, refs, env).result == NoImages <==> refs == []
    ensures RunMerged(base, refs, env).result.Produced? <==>
      refs != [] && CheckTarget(MergedPath(base), env).0 == Verdict.Overwrite && !env.stop.SetWithin(BuildPolls(|refs|))
    ensures RunMerged(base, refs, env).result.Skipped? <==>
      refs != [] && CheckTarget(MergedPath(base), env).0 == Keep
    ensures RunMerged(base, refs, env).result.Produced? ==>
      && RunMerged(base, refs, env).result.path == MergedPath(base)
      && RunMerged(base, refs, env).result.book == BuildBook(refs, MergedTitle(base))
      && RunMerged(base, refs, env).result.entries == ArchiveEntries(refs)
  {
  }

  /** The build's values never go back, stay within its total, and reach it when the book is produced. */
  lemma MergedProgress(base: string, refs: seq<ImageRef>, env: Env)
    ensures NonDecreasing(RunMerged(base, refs, env).progress)
    ensures Between(RunMerged(base, refs, env).progress, 1, ProgressTotal(|refs|))
    ensures RunMerged(base, refs, env).result.Produced? ==>
      |RunMerged(base, refs, env).progress| > 0
      && RunMerged(base, refs, env).progress[|RunMerged(base, refs, env).progress| - 1] == ProgressTotal(|refs|)
  {
    if refs != [] {
      var check := CheckTarget(MergedPath(base), env);
      if check.0 == Verdict.Overwrite {
        ReportedProgress(refs, MergedTitle(base), check.1.stop);
      }
    }
  }

  /** The callback outcome of a merged conversion's result: the one path, nothing, a cancellation or an error. */
  function MergedOutcome(x: SingleResult): (o: Outcome)
    ensures o.Succeeded? <==> x.Produced? || x.Skipped?
    ensures o.Succeeded? ==> o.generated == (if x.Produced? then [x.path] else [])
    ensures o.CancelledWith? <==> x.Interrupted?
    ensures o.CancelledWith? ==> o.generated == []
  {
    match x
    case Produced(p, _, _) => Succeeded([p])
    case Skipped => Succeeded([])
    case Interrupted => CancelledWith([])
    case NoImages => Failed
  }

  /**
   `get_all_images_from_subfolders` as written: discovery swallows a
   cancellation and hands on the folders kept so far; collection keeps each
   folder's listing order.
   */
  function GatherAsWritten(base: string, listing: Option<seq<Child>>, supported: set<string>, stop: StopFlag): Collected {
    var found := GetValidSubfoldersAsWritten(base, listing, supported, stop);
    AllImagesAsWritten(found.0, supported, found.1)
  }

  /** Gathering with a cancellation during discovery let through, and each folder in page order. */
  function Gather(base: string, listing: Option<seq<Child>>, supported: set<string>, stop: StopFlag): Collected {
    match GetValidSubfolders(base, listing, supported, stop)
    case DiscoveryInterrupted(s) => CollectInterrupted(s)
    case Found(folders, s) => AllImages(folders, supported, s)
  }

  /** The subfolders discovery reaches. */
  function Items(listing: Option<seq<Child>>): seq<Child> {
    if listing.None? then [] else Subdirs(listing.value)
  }

  /** The folders a complete discovery keeps. */
  function Discovered(base: string, listing: Option<seq<Child>>, supported: set<string>): seq<Folder> {
    ValidFolders(base, Items(listing), supported)
  }

  /** How many polls discovery and then collection make. */
  function GatherPolls(base: string, listing: Option<seq<Child>>, supported: set<string>): nat {
    DiscoveryPolls(Items(listing)) + CollectPolls(Discovered(base, listing, supported))
  }

  /**
   Corrected gathering is interrupted exactly when the flag is met during
   discovery or collection; otherwise it yields every discovered folder's
   images in page order, folder after folder.
   */
  lemma GatherOutcome(base: string, listing: Option<seq<Child>>, supported: set<string>, stop: StopFlag)
    ensures Gather(base, listing, supported, stop).CollectInterrupted? <==> stop.SetWithin(GatherPolls(base, listing, supported))
    ensures Gather(base, listing, supported, stop).stop == stop.Advance(GatherPolls(base, listing, supported))
    ensures Gather(base, listing, supported, stop).Collected? ==>
      Gather(base, listing, supported, stop).images == AllRefs(Discovered(base, listing, supported), supported, true)
  {
    AdvanceAdd(stop, DiscoveryPolls(Items(listing)), CollectPolls(Discovered(base, listing, supported)));
    match GetValidSubfolders(base, listing, supported, stop)
    case DiscoveryInterrupted(s) =>
      assert stop.SetWithin(DiscoveryPolls(Items(listing)));
    case Found(folders, s) =>
  }

  /** What gathering hands on to the merged conversion: its images, or a cancellation. */
  function MergedAfterGather(c: Collected, base: string, env: Env): Outcome {
    match c
    case CollectInterrupted(_) => CancelledWith([])
    case Collected(refs, t) =>
      if refs == [] then Failed else MergedOutcome(RunMerged(base, refs, env.(stop := t)).result)
  }

  /** `run_merged_batch_conversion` as written. */
  function RunMergedBatchAsWritten(base: string, listing: Option<seq<Child>>, supported: set<string>, env: Env): Outcome {
    MergedAfterGather(GatherAsWritten(base, listing, supported, env.stop), base, env)
  }

  /** `run_merged_batch_conversion` over the corrected gathering. */
  function RunMergedBatch(base: string, listing: Option<seq<Child>>, supported: set<string>, env: Env): Outcome {
    MergedAfterGather(Gather(base, listing, supported, env.stop), base, env)
  }

  /**
   The corrected run: a flag met while gathering the images is a
   cancellation; otherwise no images at all is the one failure, and with
   images the outcome is that of the merged conversion of every discovered
   folder's images in page order.
   */
  lemma MergedBatchOutcome(base: string, listing: Option<seq<Child>>, supported: set<string>, env: Env)
    ensures env.stop.SetWithin(GatherPolls(base, listing, supported)) ==>
      RunMergedBatch(base, listing, supported, env) == CancelledWith([])
    ensures (!env.stop.SetWithin(GatherPolls(base, listing, supported)) &&
             AllRefs(Discovered(base, listing, supported), supported, true) == []) ==>
      RunMergedBatch(base, listing, supported, env) == Failed
    ensures (!env.stop.SetWithin(GatherPolls(base, listing, supported)) &&
             AllRefs(Discovered(base, listing, supported), supported, true) != []) ==>
      RunMergedBatch(base, listing, supported, env) ==
        MergedOutcome(RunMerged(base, AllRefs(Discovered(base, listing, supported), supported, true),
                                env.(stop := env.stop.Advance(GatherPolls(base, listing, supported)))).result)
  {
    GatherOutcome(base, listing, supported, env.stop);
  }

  /** The outcome names at most the merged archive, and a cancellation or an error names nothing. */
  lemma MergedBatchGenerated(base: string, listing: Option<seq<Child>>, supported: set<string>, env: Env)
    ensures !RunMergedBatch(base, listing, supported, env).Failed? ==>
      RunMergedBatch(base, listing, supported, env).generated in {[], [MergedPath(base)]}
    ensures RunMergedBatch(base, listing, supported, env).CancelledWith? ==>
      RunMergedBatch(base, listing, supported, env).generated == []
  {
    match Gather(base, listing, supported, env.stop)
    case CollectInterrupted(_) =>
    case Collected(refs, t) =>
      if refs != [] {
        MergedResult(base, refs, env.(stop := t));
      }
  }

  /** Corrected: a flag already set when discovery polls is always reported as a cancellation. */
  lemma CancelBeforeDiscoveryReported(base: string, listing: Option<seq<Child>>, supported: set<string>, env: Env)
    requires env.stop.SetWithin(DiscoveryPolls(Items(listing)))
    ensures RunMergedBatch(base, listing, supported, env) == CancelledWith([])
  {
    GatherOutcome(base, listing, supported, env.stop);
  }

  /** The folder's images as the merged book takes them: the same page order single-folder conversion uses. */
  lemma FolderRefsInPageOrder(f: Folder, supported: set<string>)
    ensures FolderRefs(f, supported, true) == SortedRefs(f.path, FolderImages(f.listing, supported))
  {
  }

  /**
   With one valid folder, the corrected merged book holds exactly the pages of
   that folder's own book, in the same order.
   */
  lemma OneFolderAsSingle(f: Folder, supported: set<string>)
    ensures AllRefs([f], supported, true) == SortedRefs(f.path, FolderImages(f.listing, supported))
  {
    assert [f][1..] == [];
    FolderRefsInPageOrder(f, supported);
  }

  /** Text with no upper-case letter is its own lower-case form. */
  lemma LowerOfLower(s: string)
    requires forall i :: 0 <= i < |s| ==> !('A' <= s[i] <= 'Z')
    ensures Lower(s) == s
  {
  }

  /** A stem without dots or upper-case letters, followed by `.png`. */
  predicate PlainPng(name: string) {
    && |name| > 4 && name[|name| - 4..] == ".png"
    && (forall i :: 0 <= i < |name| - 4 ==> name[i] != '.')
    && (forall i :: 0 <= i < |name| ==> !('A' <= name[i] <= 'Z'))
  }

  lemma PlainPngSuffix(name: string)
    requires PlainPng(name)
    ensures Suffix(name) == ".png"
  {
    var d := |name| - 4;
    assert name[d] == '.' && name[d + 1] != '.' && name[d + 2] != '.' && name[d + 3] != '.';
    assert LastIndexOf(name, '.') == Some(d);
  }

  /** A plain PNG name is listed as a candidate and kept as an image. */
  lemma PlainPngKept(name: string)
    requires PlainPng(name)
    ensures IsCandidate(DirEntry(name, true)) && IsImage(name, {".png"})
  {
    PlainPngSuffix(name);
    LowerOfLower(name);
    LowerOfLower(".png");
    assert name[|name| - 1] == 'g';
  }

  const PageTen := "page10.png"
  const PageTwo := "page2.png"

  /** `page10.png` listed before `page2.png`. */
  const OrderListing := [DirEntry(PageTen, true), DirEntry(PageTwo, true)]
  const OrderFolder := Folder("book/part1", Some(OrderListing))

  lemma PageNamesKept()
    ensures IsCandidate(DirEntry(PageTen, true)) && IsImage(PageTen, {".png"})
    ensures IsCandidate(DirEntry(PageTwo, true)) && IsImage(PageTwo, {".png"})
  {
    PageTenKept();
    PageTwoKept();
  }

  lemma PageTenKept()
    ensures IsCandidate(DirEntry(PageTen, true)) && IsImage(PageTen, {".png"})
  {
    assert PlainPng(PageTen);
    PlainPngKept(PageTen);
  }

  lemma PageTwoKept()
    ensures IsCandidate(DirEntry(PageTwo, true)) && IsImage(PageTwo, {".png"})
  {
    assert PlainPng(PageTwo);
    PlainPngKept(PageTwo);
  }

  /** Two listed entries that are both kept are kept in listing order. */
  lemma ImageNamesPair(x: DirEntry, y: DirEntry, supported: set<string>)
    requires IsCandidate(x) && IsImage(x.name, supported)
    requires IsCandidate(y) && IsImage(y.name, supported)
    ensures ImageNames([x, y], supported) == [x.name, y.name]
  {
    assert [x, y][1..] == [y] && [y][1..] == [];
    assert ImageNames([y], supported) == [y.name] + ImageNames([], supported);
    assert ImageNames([x, y], supported) == [x.name] + ImageNames([y], supported);
  }

  lemma OrderListingImages()
    ensures FolderImages(OrderFolder.listing, {".png"}) == [PageTen, PageTwo]
  {
    PageNamesKept();
    ImageNamesPair(DirEntry(PageTen, true), DirEntry(PageTwo, true), {".png"});
  }

  /** Without a `v` a name cannot contain "cover". */
  lemma {:induction false} NoVNoCover(s: string)
    requires forall i :: 0 <= i < |s| ==> s[i] != 'v'
    ensures !Contains(s, "cover")
    decreases |s|
  {
    if |s| >= 5 {
      assert s[2] != 'v';
    }
    if |s| > 0 {
      NoVNoCover(s[1..]);
    }
  }

  /** Two names that are not cover candidates, listed against key order, are swapped. */
  lemma SortPairSwapped(a: string, b: string)
    requires !IsCoverCandidate(a) && !IsCoverCandidate(b)
    requires KeyLess(b, a)
    ensures SortImageFiles([a, b]) == [b, a]
  {
    KeyLessAsymmetric(b, a);
    assert GetCover([a, b]).None?;
    assert [a, b][1..] == [b] && [b][1..] == [];
    assert SortByKey([b]) == [b];
  }

  /** A name with neither upper-case letters nor a `v` is not a cover candidate. */
  lemma NotCover(name: string)
    requires forall i :: 0 <= i < |name| ==> !('A' <= name[i] <= 'Z') && name[i] != 'v'
    ensures !IsCoverCandidate(name)
  {
    LowerOfLower(name);
    NoVNoCover(name);
  }

  lemma PageNamesNotCovers()
    ensures !IsCoverCandidate(PageTen) && !IsCoverCandidate(PageTwo)
  {
    PageTenNotCover();
    PageTwoNotCover();
  }

  lemma PageTenNotCover()
    ensures !IsCoverCandidate(PageTen)
  {
    NotCover(PageTen);
  }

  lemma PageTwoNotCover()
    ensures !IsCoverCandidate(PageTwo)
  {
    NotCover(PageTwo);
  }

  lemma SortTwoPages()
    ensures SortImageFiles([PageTen, PageTwo]) == [PageTwo, PageTen]
  {
    PageNamesNotCovers();
    PageTwoTenTwenty();
    SortPairSwapped(PageTen, PageTwo);
  }

  /**
   As written, collection keeps listing order: `page10.png` comes before
   `page2.png` in the merged book, while the corrected collection and
   single-folder conversion both put `page2.png` first.
   */
  lemma MergedOrderAsWritten()
    ensures AllImagesAsWritten([OrderFolder], {".png"}, Never).images ==
      [ImageRef("book/part1", "page10.png"), ImageRef("book/part1", "page2.png")]
    ensures AllImages([OrderFolder], {".png"}, Never).images ==
      [ImageRef("book/part1", "page2.png"), ImageRef("book/part1", "page10.png")]
  {
    OrderListingImages();
    SortTwoPages();
    CollectOne(OrderFolder, {".png"}, false);
    CollectOne(OrderFolder, {".png"}, true);
    FolderRefsPair(OrderFolder, {".png"}, false, PageTen, PageTwo);
    FolderRefsPair(OrderFolder, {".png"}, true, PageTwo, PageTen);
  }

  /** Collecting one folder with no flag gives exactly that folder's images. */
  lemma CollectOne(f: Folder, supported: set<string>, sortEach: bool)
    ensures CollectLoop([f], supported, Never, sortEach) == Collected(FolderRefs(f, supported, sortEach), Never)
  {
    assert [f][1..] == [];
  }

  lemma FolderRefsPair(f: Folder, supported: set<string>, sortEach: bool, a: string, b: string)
    requires (if sortEach then SortImageFiles(FolderImages(f.listing, supported)) else FolderImages(f.listing, supported)) == [a, b]
    ensures FolderRefs(f, supported, sortEach) == [ImageRef(f.path, a), ImageRef(f.path, b)]
  {
  }

  /**
   As written, a flag met during discovery is swallowed: when no folder was
   kept before it, collection finds no images and the run reports the
   no-images error; when some were kept, collection's first poll meets the
   set flag and the run is a cancellation.
   */
  lemma MergedAsWrittenCutShort(base: string, listing: Option<seq<Child>>, supported: set<string>, env: Env)
    ensures env.stop.SetWithin(DiscoveryPolls(Items(listing))) &&
            GetValidSubfoldersAsWritten(base, listing, supported, env.stop).0 == [] ==>
      RunMergedBatchAsWritten(base, listing, supported, env) == Failed
    ensures env.stop.SetWithin(DiscoveryPolls(Items(listing))) &&
            GetValidSubfoldersAsWritten(base, listing, supported, env.stop).0 != [] ==>
      RunMergedBatchAsWritten(base, listing, supported, env) == CancelledWith([])
  {
    var found := GetValidSubfoldersAsWritten(base, listing, supported, env.stop);
    if env.stop.SetWithin(DiscoveryPolls(Items(listing))) {
      assert listing.Some?;
      assert found.1.IsSet();
      if found.0 != [] {
        assert CollectPolls(found.0) >= 1;
        assert found.1.SetWithin(CollectPolls(found.0));
      }
    }
  }

  /**
   As written, when the flag is not met during discovery every discovered
   folder is collected in listing order: a flag met during collection is a
   cancellation, no images at all is the one failure, and otherwise the
   outcome is that of the merged conversion of those images.
   */
  lemma MergedAsWrittenComplete(base: string, listing: Option<seq<Child>>, supported: set<string>, env: Env)
    ensures !env.stop.SetWithin(DiscoveryPolls(Items(listing))) && env.stop.SetWithin(GatherPolls(base, listing, supported)) ==>
      RunMergedBatchAsWritten(base, listing, supported, env) == CancelledWith([])
    ensures (!env.stop.SetWithin(GatherPolls(base, listing, supported)) &&
             AllRefs(Discovered(base, listing, supported), supported, false) == []) ==>
      RunMergedBatchAsWritten(base, listing, supported, env) == Failed
    ensures (!env.stop.SetWithin(GatherPolls(base, listing, supported)) &&
             AllRefs(Discovered(base, listing, supported), supported, false) != []) ==>
      RunMergedBatchAsWritten(base, listing, supported, env) ==
        MergedOutcome(RunMerged(base, AllRefs(Discovered(base, listing, supported), supported, false),
                                env.(stop := env.stop.Advance(GatherPolls(base, listing, supported)))).result)
  {
    if !env.stop.SetWithin(DiscoveryPolls(Items(listing))) {
      GatherAsWrittenComplete(base, listing, supported, env.stop);
    } else {
      assert env.stop.SetWithin(GatherPolls(base, listing, supported));
    }
  }

  /** As written, gathering without a flag met during discovery behaves as a complete collection in listing order. */
  lemma GatherAsWrittenComplete(base: string, listing: Option<seq<Child>>, supported: set<string>, stop: StopFlag)
    requires !stop.SetWithin(DiscoveryPolls(Items(listing)))
    ensures GatherAsWritten(base, listing, supported, stop).CollectInterrupted? <==> stop.SetWithin(GatherPolls(base, listing, supported))
    ensures GatherAsWritten(base, listing, supported, stop).stop == stop.Advance(GatherPolls(base, listing, supported))
    ensures GatherAsWritten(base, listing, supported, stop).Collected? ==>
      GatherAsWritten(base, listing, supported, stop).images == AllRefs(Discovered(base, listing, supported), supported, false)
  {
    var a, b := DiscoveryPolls(Items(listing)), CollectPolls(Discovered(base, listing, supported));
    AdvanceAdd(stop, a, b);
    var found := GetValidSubfoldersAsWritten(base, listing, supported, stop);
    assert found.0 == Discovered(base, listing, supported);
    assert found.1 == stop.Advance(a);
  }

  /** A flag already set when discovery starts, with at least one subfolder to reach, is met during discovery before any folder is kept. */
  lemma SetFlagCutsDiscovery(base: string, listing: Option<seq<Child>>, supported: set<string>, env: Env)
    requires env.stop.IsSet() && Items(listing) != []
    ensures env.stop.SetWithin(DiscoveryPolls(Items(listing)))
    ensures GetValidSubfoldersAsWritten(base, listing, supported, env.stop).0 == []
  {
  }

  /**
   As written, a cancellation during discovery before any folder is kept is
   reported as the no-images error; corrected, it is a cancellation.
   */
  lemma MergedCancelAsWritten(base: string, listing: Option<seq<Child>>, supported: set<string>, env: Env)
    requires env.stop.SetWithin(DiscoveryPolls(Items(listing)))
    requires GetValidSubfoldersAsWritten(base, listing, supported, env.stop).0 == []
    ensures RunMergedBatchAsWritten(base, listing, supported, env) == Failed
    ensures RunMergedBatch(base, listing, supported, env) == CancelledWith([])
  {
    MergedAsWrittenCutShort(base, listing, supported, env);
    CancelBeforeDiscoveryReported(base, listing, supported, env);
  }

  /** One subfolder holding an image, and a flag already set when discovery starts. */
  const CancelListing := Some([Child("part1", true, Some([DirEntry("p1.png", true)]))])
  const CancelEnv := Env({}, None, [], After(0))

  /** The discrepancy on one listing: a subfolder with an image, and the flag set before discovery. */
  lemma MergedCancelExample()
    ensures RunMergedBatchAsWritten("book", CancelListing, {".png"}, CancelEnv) == Failed
    ensures RunMergedBatch("book", CancelListing, {".png"}, CancelEnv) == CancelledWith([])
  {
    assert Subdirs(CancelListing.value) == CancelListing.value;
    SetFlagCutsDiscovery("book", CancelListing, {".png"}, CancelEnv);
    MergedCancelAsWritten("book", CancelListing, {".png"}, CancelEnv);
  }
}

=== FILE: ordering.dfy ===
/**
 The ordering policy (`get_cover_file`, `extract_number`, `sort_image_files`,
 pic2epub.py:152-193): pick a cover among the names containing "cover",
 preferring JPEG ones and the earliest among equals, then put the remaining
 names in order of (first digit run as a number, name).
 */
module Ordering {
  import opened Strings
  import opened Decimal

  /** `'cover' in f.lower()`. */
  predicate IsCoverCandidate(name: string) {
    Contains(Lower(name), "cover")
  }

  /** `f.lower().endswith(('.jpg', '.jpeg'))`. */
  predicate IsJpegName(name: string) {
    EndsWith(Lower(name), ".jpg") || EndsWith(Lower(name), ".jpeg")
  }

  /** Cover priority: 2 for JPEG names, 1 for the others. */
  function Priority(name: string): nat {
    if IsJpegName(name) then 2 else 1
  }

  /** A name's claim to the cover: 0 for a non-candidate, otherwise its priority. */
  function Rank(name: string): (r: nat)
    ensures r == 0 <==> !IsCoverCandidate(name)
    ensures r > 0 ==> r == Priority(name)
  {
    if IsCoverCandidate(name) then Priority(name) else 0
  }

  /** The first index of the highest positive rank, if any rank is positive. */
  function BestIndex(ranks: seq<nat>): (r: Option<nat>)
    ensures r.None? <==> forall j :: 0 <= j < |ranks| ==> ranks[j] == 0
    ensures r.Some? ==> r.value < |ranks| && ranks[r.value] > 0
    ensures r.Some? ==> forall j :: 0 <= j < |ranks| ==> ranks[j] <= ranks[r.value]
    ensures r.Some? ==> forall j :: 0 <= j < r.value ==> ranks[j] < ranks[r.value]
  {
    if |ranks| == 0 then None
    else
      var last := |ranks| - 1;
      var best := BestIndex(ranks[..last]);
      assert forall j :: 0 <= j < last ==> ranks[..last][j] == ranks[j];
      if ranks[last] > 0 && (best.None? || ranks[best.value] < ranks[last]) then Some(last)
      else best
  }

  /**
   Index of the cover: the first candidate of the highest priority present.
   This is what taking the head of a stable sort by descending priority of
   the candidates (in input order) yields.
   */
  function CoverIndex(files: seq<string>): (r: Option<nat>)
    ensures r.None? <==> forall j :: 0 <= j < |files| ==> !IsCoverCandidate(files[j])
    ensures r.Some? ==> r.value < |files| && IsCoverCandidate(files[r.value])
    ensures r.Some? ==> forall j :: 0 <= j < |files| && IsCoverCandidate(files[j]) ==>
      Priority(files[j]) <= Priority(files[r.value])
    ensures r.Some? ==> forall j :: 0 <= j < r.value && IsCoverCandidate(files[j]) ==>
      Priority(files[j]) < Priority(files[r.value])
  {
    var ranks := seq(|files|, j requires 0 <= j < |files| => Rank(files[j]));
    assert forall j :: 0 <= j < |files| ==> ranks[j] == Rank(files[j]);
    BestIndex(ranks)
  }

  /** `get_cover_file(image_files)`. */
  function GetCover(files: seq<string>): (r: Option<string>)
    ensures r.None? <==> forall j :: 0 <= j < |files| ==> !IsCoverCandidate(files[j])
    ensures r.Some? ==> r.value in files && IsCoverCandidate(r.value)
    ensures r.Some? ==> CoverIndex(files).Some? && r.value == files[CoverIndex(files).value]
  {
    match CoverIndex(files)
    case Some(i) => Some(files[i])
    case None => None
  }

  /**
   The cover is a candidate of the highest priority present (a JPEG name
   whenever a JPEG-named candidate exists), and no earlier candidate has
   that priority: the first of the best.
   */
  lemma GetCoverChoice(files: seq<string>)
    ensures GetCover(files).Some? ==> forall j :: 0 <= j < |files| && IsCoverCandidate(files[j]) ==>
      Priority(files[j]) <= Priority(GetCover(files).value)
    ensures GetCover(files).Some? ==>
      exists i ::
        && 0 <= i < |files| && files[i] == GetCover(files).value
        && (forall j :: 0 <= j < i && IsCoverCandidate(files[j]) ==> Priority(files[j]) < Priority(files[i]))
  {
    if GetCover(files).Some? {
      var i := CoverIndex(files).value;
      assert files[i] == GetCover(files).value;
    }
  }

  /** The sort key `(extract_number(x), x)` compared as a Python tuple. */
  predicate KeyLess(a: string, b: string) {
    NumberLess(ExtractNumber(a), ExtractNumber(b))
    || (ExtractNumber(a) == ExtractNumber(b) && Less(a, b))
  }

  predicate KeyLe(a: string, b: string) {
    a == b || KeyLess(a, b)
  }

  lemma KeyLessAsymmetric(a: string, b: string)
    requires KeyLess(a, b)
    ensures !KeyLess(b, a) && a != b
  {
    if ExtractNumber(a) == ExtractNumber(b) {
      LessAsymmetric(a, b);
      LessIrreflexive(a);
    }
  }

  lemma KeyLessTransitive(a: string, b: string, c: string)
    requires KeyLess(a, b) && KeyLess(b, c)
    ensures KeyLess(a, c)
  {
    if ExtractNumber(a) == ExtractNumber(b) == ExtractNumber(c) {
      LessTransitive(a, b, c);
    }
  }

  lemma KeyLessTotal(a: string, b: string)
    requires a != b
    ensures KeyLess(a, b) || KeyLess(b, a)
  {
    LessTotal(a, b);
  }

  lemma KeyLeTransitive(a: string, b: string, c: string)
    requires KeyLe(a, b) && KeyLe(b, c)
    ensures KeyLe(a, c)
  {
    if a != b && b != c {
      KeyLessTransitive(a, b, c);
    }
  }

  lemma KeyLeAntisymmetric(a: string, b: string)
    requires KeyLe(a, b) && KeyLe(b, a)
    ensures a == b
  {
    if a != b {
      KeyLessAsymmetric(a, b);
    }
  }

  predicate SortedByKey(s: seq<string>) {
    forall i, j :: 0 <= i < j < |s| ==> KeyLe(s[i], s[j])
  }

  /** Putting a key-least element in front of a sorted sequence keeps it sorted. */
  lemma ConsSorted(x: string, s: seq<string>)
    requires SortedByKey(s)
    requires forall j :: 0 <= j < |s| ==> KeyLe(x, s[j])
    ensures SortedByKey([x] + s)
  {
    forall i, j | 0 <= i < j < |s| + 1 ensures KeyLe(([x] + s)[i], ([x] + s)[j]) {
      assert ([x] + s)[j] == s[j - 1];
      if i > 0 {
        assert ([x] + s)[i] == s[i - 1];
      }
    }
  }

  /** An element at most the head of a sorted sequence is at most all of it. */
  lemma BelowHead(x: string, s: seq<string>)
    requires SortedByKey(s) && |s| > 0 && KeyLe(x, s[0])
    ensures forall j :: 0 <= j < |s| ==> KeyLe(x, s[j])
  {
    forall j | 0 < j < |s| ensures KeyLe(x, s[j]) {
      KeyLeTransitive(x, s[0], s[j]);
    }
  }

  /** A bound on every element of `rest` and on `x` bounds every element of a permutation of both. */
  lemma BelowPermutation(y: string, x: string, rest: seq<string>, t: seq<string>)
    requires KeyLe(y, x) && forall j :: 0 <= j < |rest| ==> KeyLe(y, rest[j])
    requires multiset(t) == multiset(rest) + multiset{x}
    ensures forall j :: 0 <= j < |t| ==> KeyLe(y, t[j])
  {
    forall j | 0 <= j < |t| ensures KeyLe(y, t[j]) {
      assert t[j] in multiset(t);
      if t[j] != x {
        assert t[j] in multiset(rest);
        var k :| 0 <= k < |rest| && rest[k] == t[j];
      }
    }
  }

  function Insert(x: string, s: seq<string>): (r: seq<string>)
    requires SortedByKey(s)
    ensures SortedByKey(r)
    ensures multiset(r) == multiset(s) + multiset{x}
    ensures |r| == |s| + 1
  {
    if |s| == 0 then [x]
    else if KeyLe(x, s[0]) then
      BelowHead(x, s);
      ConsSorted(x, s);
      [x] + s
    else
      var rest := s[1..];
      var t := Insert(x, rest);
      assert s == [s[0]] + rest;
      assert KeyLe(s[0], x) by {
        if x != s[0] { KeyLessTotal(x, s[0]); }
      }
      assert forall j :: 0 <= j < |rest| ==> KeyLe(s[0], rest[j]) by {
        forall j | 0 <= j < |rest| ensures KeyLe(s[0], rest[j]) {
          assert rest[j] == s[j + 1];
        }
      }
      BelowPermutation(s[0], x, rest, t);
      ConsSorted(s[0], t);
      [s[0]] + t
  }

  /** `sorted(others, key=lambda x: (extract_number(x), x))`. */
  function SortByKey(s: seq<string>): (r: seq<string>)
    ensures SortedByKey(r)
    ensures multiset(r) == multiset(s)
    ensures |r| == |s|
  {
    if |s| == 0 then []
    else
      assert s == [s[0]] + s[1..];
      Insert(s[0], SortByKey(s[1..]))
  }

  /** Sorting by a total order has a single answer: any sorted permutation is this one. */
  lemma {:induction false} SortedPermutationUnique(a: seq<string>, b: seq<string>)
    requires SortedByKey(a) && SortedByKey(b)
    requires multiset(a) == multiset(b)
    ensures a == b
    decreases |a|
  {
    assert |a| == |multiset(a)| == |multiset(b)| == |b|;
    if |a| > 0 {
      SortedHeads(a, b);
      assert a == [a[0]] + a[1..] && b == [b[0]] + b[1..];
      MultisetTail(a);
      MultisetTail(b);
      SortedTail(a);
      SortedTail(b);
      SortedPermutationUnique(a[1..], b[1..]);
    }
  }

  /** Two sorted sequences with the same elements start with the same element. */
  lemma SortedHeads(a: seq<string>, b: seq<string>)
    requires SortedByKey(a) && SortedByKey(b)
    requires multiset(a) == multiset(b) && |a| > 0 && |b| > 0
    ensures a[0] == b[0]
  {
    assert a[0] in multiset(b) && b[0] in multiset(a);
    var i :| 0 <= i < |b| && b[i] == a[0];
    var j :| 0 <= j < |a| && a[j] == b[0];
    assert KeyLe(b[0], a[0]) by { if i > 0 { assert KeyLe(b[0], b[i]); } }
    assert KeyLe(a[0], b[0]) by { if j > 0 { assert KeyLe(a[0], a[j]); } }
    KeyLeAntisymmetric(a[0], b[0]);
  }

  lemma SortedTail(s: seq<string>)
    requires SortedByKey(s) && |s| > 0
    ensures SortedByKey(s[1..])
  {
    forall i, j | 0 <= i < j < |s| - 1 ensures KeyLe(s[1..][i], s[1..][j]) {
      assert s[1..][i] == s[i + 1] && s[1..][j] == s[j + 1];
    }
  }

  lemma MultisetTail(s: seq<string>)
    requires |s| >= 1
    ensures multiset(s[1..]) == multiset(s) - multiset{s[0]}
  {
    assert s == [s[0]] + s[1..];
  }

  /** `[f for f in image_files if f != cover_file]`. */
  function Without(files: seq<string>, c: string): (r: seq<string>)
    ensures c !in r
    ensures forall x :: x != c ==> multiset(r)[x] == multiset(files)[x]
  {
    if |files| == 0 then []
    else
      assert files == [files[0]] + files[1..];
      (if files[0] != c then [files[0]] else []) + Without(files[1..], c)
  }

  /** `sort_image_files(image_files)`. */
  function SortImageFiles(files: seq<string>): (r: seq<string>)
    ensures GetCover(files).Some? ==>
      && |r| >= 1 && r[0] == GetCover(files).value
      && SortedByKey(r[1..]) && r[0] !in r[1..]
      && forall x :: multiset(r)[x] == if x == r[0] then 1 else multiset(files)[x]
    ensures GetCover(files).None? ==> SortedByKey(r) && multiset(r) == multiset(files)
  {
    match GetCover(files)
    case Some(c) =>
      var rest := SortByKey(Without(files, c));
      var r := [c] + rest;
      assert r[1..] == rest;
      assert multiset(r) == multiset{c} + multiset(rest);
      assert c !in multiset(rest);
      assert forall x :: multiset(r)[x] == if x == c then 1 else multiset(files)[x];
      r
    case None => SortByKey(files)
  }

  predicate Distinct(s: seq<string>) {
    forall i, j :: 0 <= i < j < |s| ==> s[i] != s[j]
  }

  lemma DistinctMultiplicity(s: seq<string>, x: string)
    requires Distinct(s)
    ensures multiset(s)[x] == if x in s then 1 else 0
  {
    if |s| > 0 {
      assert s == [s[0]] + s[1..];
      DistinctMultiplicity(s[1..], x);
    }
  }

  /**
   For distinct names the ordering is a permutation of its input: nothing is
   lost, nothing duplicated, and the cover (when there is one) leads.
   */
  lemma SortImageFilesPermutation(files: seq<string>)
    requires Distinct(files)
    ensures multiset(SortImageFiles(files)) == multiset(files)
    ensures |SortImageFiles(files)| == |files|
  {
    var r := SortImageFiles(files);
    match GetCover(files)
    case Some(c) =>
      forall x ensures multiset(r)[x] == multiset(files)[x] {
        DistinctMultiplicity(files, x);
      }
      assert multiset(r) == multiset(files);
      assert |r| == |multiset(r)| == |multiset(files)| == |files|;
    case None =>
      assert |r| == |multiset(r)| == |multiset(files)| == |files|;
  }

  /**
   The order is fully determined: any sequence that puts the cover first and
   the rest in key order, with the same elements, is `SortImageFiles`'s answer.
   */
  lemma SortImageFilesUnique(files: seq<string>, other: seq<string>)
    requires Distinct(files)
    requires multiset(other) == multiset(files)
    requires GetCover(files).Some? ==> |other| >= 1 && other[0] == GetCover(files).value && SortedByKey(other[1..])
    requires GetCover(files).None? ==> SortedByKey(other)
    ensures other == SortImageFiles(files)
  {
    var r := SortImageFiles(files);
    SortImageFilesPermutation(files);
    match GetCover(files)
    case Some(c) =>
      assert other == [c] + other[1..] && r == [c] + r[1..];
      MultisetTail(other);
      MultisetTail(r);
      SortedPermutationUnique(other[1..], r[1..]);
    case None =>
      SortedPermutationUnique(other, r);
  }

  /**
   Numeric, not lexicographic, comparison: among names that share a digit-free
   prefix and a digit-free tail, a smaller first number sorts first.
   */
  lemma NumericOrder(p: string, m: nat, n: nat, rest: string)
    requires NoDigits(p)
    requires |rest| == 0 || !IsDigit(rest[0])
    requires m < n
    ensures KeyLess(p + NatToString(m) + rest, p + NatToString(n) + rest)
  {
    NumericOrderOfRuns(p, NatToString(m), NatToString(n), rest);
  }

  /**
   The same with the digit runs as written, zero-padded or not: the run with
   the smaller value sorts first, whatever its length (`page9.png` before
   `page010.png`).
   */
  lemma NumericOrderOfRuns(p: string, d: string, e: string, rest: string)
    requires NoDigits(p) && AllDigits(d) && AllDigits(e) && |d| >= 1 && |e| >= 1
    requires |rest| == 0 || !IsDigit(rest[0])
    requires ParseDigits(d) < ParseDigits(e)
    ensures KeyLess(p + d + rest, p + e + rest)
  {
    ExtractNumberOfRun(p, d, rest);
    ExtractNumberOfRun(p, e, rest);
  }

  /** Runs of equal value (`page7.png`, `page007.png`) fall back to comparing the whole names. */
  lemma EqualRunsByName(p: string, d: string, e: string, rest: string)
    requires NoDigits(p) && AllDigits(d) && AllDigits(e) && |d| >= 1 && |e| >= 1
    requires |rest| == 0 || !IsDigit(rest[0])
    requires ParseDigits(d) == ParseDigits(e)
    ensures KeyLess(p + d + rest, p + e + rest) <==> Less(p + d + rest, p + e + rest)
  {
    ExtractNumberOfRun(p, d, rest);
    ExtractNumberOfRun(p, e, rest);
  }

  /** A name with no digit sorts after every name that has one. */
  lemma UnnumberedLast(a: string, b: string)
    requires NoDigits(b) && !NoDigits(a)
    ensures KeyLess(a, b)
  {
  }

  /** `page2.png` before `page10.png` before `page20.png`. */
  lemma PageTwoTenTwenty()
    ensures KeyLess("page2.png", "page10.png") && KeyLess("page10.png", "page20.png")
  {
    PageTwoBeforeTen();
    PageTenBeforeTwenty();
  }

  lemma PageTwoBeforeTen()
    ensures KeyLess("page2.png", "page10.png")
  {
    assert NatToString(2) == "2";
    assert NatToString(10) == "10";
    assert "page2.png" == "page" + NatToString(2) + ".png";
    assert "page10.png" == "page" + NatToString(10) + ".png";
    NumericOrder("page", 2, 10, ".png");
  }

  lemma PageTenBeforeTwenty()
    ensures KeyLess("page10.png", "page20.png")
  {
    assert NatToString(10) == "10";
    assert NatToString(20) == "20";
    assert "page10.png" == "page" + NatToString(10) + ".png";
    assert "page20.png" == "page" + NatToString(20) + ".png";
    NumericOrder("page", 10, 20, ".png");
  }

  /** A lone cover candidate leads, wherever it was listed. */
  lemma SingleCoverFirst(files: seq<string>, i: nat)
    requires i < |files| && IsCoverCandidate(files[i])
    requires forall j :: 0 <= j < |files| && j != i ==> !IsCoverCandidate(files[j])
    ensures SortImageFiles(files)[0] == files[i]
  {
  }

  /** Between a JPEG cover candidate and a non-JPEG one, the JPEG one is chosen. */
  lemma JpegCoverPreferred(files: seq<string>, i: nat, k: nat)
    requires i < |files| && k < |files|
    requires IsCoverCandidate(files[i]) && IsJpegName(files[i])
    requires IsCoverCandidate(files[k]) && !IsJpegName(files[k])
    ensures GetCover(files).Some? && GetCover(files).value != files[k]
    ensures IsJpegName(GetCover(files).value)
  {
  }
}

=== FILE: overwrite.dfy ===
/**
 The overwrite policy of one conversion run (`OverwritePolicy`,
 pic2epub.py:690-708): a one-field state machine that remembers a dialog
 answer given with "apply to all". The dialog is not modelled; its answers
 are an input sequence consumed one per prompt, and an exhausted sequence
 stands for a window closed without a choice.
 */
module Overwrite {
  import opened Strings

  /** The three buttons: `"skip"`, `"overwrite"`, `"cancel"`. */
  datatype Choice = Skip | Replace | CancelRun

  /** A button with the state of the "apply to all" box, or the window closed (`result` None, `apply_all` False). */
  datatype Answer = Chose(choice: Choice, applyAll: bool) | Closed

  /** `global_decision`: None until an answer is given with "apply to all". */
  datatype Policy = Policy(globalDecision: Option<Choice>)

  const FreshPolicy := Policy(None)

  /** `should_overwrite` returns True or False, or raises `InterruptedError`. */
  datatype Verdict = Overwrite | Keep | Cancelled

  /** A verdict together with the policy and the answers left after it. */
  datatype Decision = Decision(verdict: Verdict, policy: Policy, answers: seq<Answer>)

  /** The answer the next dialog gives. */
  function NextAnswer(answers: seq<Answer>): Answer {
    if |answers| == 0 then Closed else answers[0]
  }

  function AfterPrompt(answers: seq<Answer>): seq<Answer> {
    if |answers| == 0 then [] else answers[1..]
  }

  /** Whether the answer dismissed the dialog with the given button. */
  predicate Pressed(a: Answer, c: Choice) {
    a.Chose? && a.choice == c
  }

  function ShouldOverwrite(p: Policy, answers: seq<Answer>): (d: Decision)
    // A remembered decision answers without a prompt: only "skip" keeps the file,
    // so a remembered "cancel" overwrites.
    ensures p.globalDecision.Some? ==>
      && d.answers == answers && d.policy == p
      && (d.verdict == Keep <==> p.globalDecision.value == Skip)
      && d.verdict != Cancelled
    // Otherwise the dialog is consulted once.
    ensures p.globalDecision.None? ==>
      var a := NextAnswer(answers);
      && d.answers == AfterPrompt(answers)
      && (d.policy.globalDecision.Some? <==> a.Chose? && a.applyAll)
      && (d.policy.globalDecision.Some? ==> d.policy.globalDecision.value == a.choice)
      && (d.verdict == Cancelled <==> Pressed(a, CancelRun))
      && (d.verdict == Overwrite <==> Pressed(a, Replace))
  {
    match p.globalDecision
    case Some(decision) => Decision(if decision != Skip then Overwrite else Keep, p, answers)
    case None =>
      var a := NextAnswer(answers);
      var p' := if a.Chose? && a.applyAll then Policy(Some(a.choice)) else p;
      var v := match a
        case Chose(CancelRun, _) => Cancelled
        case Chose(Replace, _) => Overwrite
        case _ => Keep;
      Decision(v, p', AfterPrompt(answers))
  }

  /** Whether a call consulted the dialog. */
  predicate Prompted(p: Policy) {
    p.globalDecision.None?
  }

  /**
   An answer given with "apply to all" is final: every later call answers
   without a prompt and returns the same verdict, which is the answer's own
   verdict except that a remembered "cancel" overwrites.
   */
  lemma AnswerRemembered(p: Policy, answers: seq<Answer>, later: seq<Answer>)
    requires p.globalDecision.None?
    requires |answers| > 0 && answers[0].Chose? && answers[0].applyAll
    ensures var d := ShouldOverwrite(p, answers);
      var e := ShouldOverwrite(d.policy, later);
      && !Prompted(d.policy)
      && e.answers == later && e.policy == d.policy
      && (answers[0].choice != CancelRun ==> e.verdict == d.verdict)
      && (answers[0].choice == CancelRun ==> d.verdict == Cancelled && e.verdict == Overwrite)
  {
  }

  /** Without "apply to all" nothing is remembered: the next call prompts again. */
  lemma AnswerForgotten(p: Policy, answers: seq<Answer>)
    requires p.globalDecision.None?
    requires !(NextAnswer(answers).Chose? && NextAnswer(answers).applyAll)
    ensures ShouldOverwrite(p, answers).policy == p
  {
  }
}

=== FILE: package.dfy ===
/**
 The logical EPUB documents `create_epub_from_images` builds for an ordered
 list of images (pic2epub.py:259-273, 286-358): the package document's
 metadata, manifest and spine, the NCX navigation map, and one wrapper page
 per image. Identifiers and files are datatypes derived from the image's
 0-based position; `IdText` and `Href` render them as the strings the XML
 carries, and both renderings are injective.
 */
module Package {
  import opened Strings
  import opened Decimal

  /** An image to package: `os.path.join(folder, name)`. */
  datatype ImageRef = ImageRef(folder: string, name: string)

  /** Manifest ids: `ncx`, `img{i}`, `page{i}`. */
  datatype ItemId = NcxId | ImageId(index: nat) | PageId(index: nat)

  /**
   Files under `OEBPS/`: `toc.ncx`, the copy `images/img_%04d<suffix>` of the
   image named `source`, and `text/page_%04d.xhtml`.
   */
  datatype Resource = TocNcx | ImageFile(index: nat, source: string) | PageFile(index: nat)

  datatype MediaType = Jpeg | Png | Gif | Webp | Svg | Xhtml | Ncx

  /** `<item id=… href=… media_type=…/>` of the package manifest; href and media type follow from the file. */
  datatype ManifestItem = ManifestItem(id: ItemId, file: Resource)

  /** `<navPoint playOrder=…>` with its label text and the document its content points at. */
  datatype NavPoint = NavPoint(playOrder: nat, labelText: string, target: Resource)

  /** A wrapper XHTML page: its `<title>` and the file its only `<img>` shows. */
  datatype Page = Page(title: string, image: Resource)

  /** Everything written to the staging tree, as values rather than XML. */
  datatype Book = Book(
    title: string,
    identifier: string,
    language: string,
    manifest: seq<ManifestItem>,
    spine: seq<ItemId>,
    navMap: seq<NavPoint>,
    pages: seq<Page>)

  const BookIdentifier := "urn:uuid:1234567890"
  const BookLanguage := "zh"
  const NcxItem := ManifestItem(NcxId, TocNcx)

  function MediaTypeText(m: MediaType): string {
    match m
    case Jpeg => "image/jpeg"
    case Png => "image/png"
    case Gif => "image/gif"
    case Webp => "image/webp"
    case Svg => "image/svg+xml"
    case Xhtml => "application/xhtml+xml"
    case Ncx => "application/x-dtbncx+xml"
  }

  /** `get_image_media_type(filename)`: media type by lower-cased suffix, JPEG by default. */
  function ImageMediaType(name: string): (m: MediaType)
    ensures m in {Jpeg, Png, Gif, Webp, Svg}
    ensures m == Jpeg <==> Lower(Suffix(name)) !in {".png", ".gif", ".webp", ".svg"}
    ensures m == Png <==> Lower(Suffix(name)) == ".png"
    ensures m == Gif <==> Lower(Suffix(name)) == ".gif"
    ensures m == Webp <==> Lower(Suffix(name)) == ".webp"
    ensures m == Svg <==> Lower(Suffix(name)) == ".svg"
  {
    var ext := Lower(Suffix(name));
    if ext in [".jpg", ".jpeg"] then Jpeg
    else if ext == ".png" then Png
    else if ext == ".gif" then Gif
    else if ext == ".webp" then Webp
    else if ext == ".svg" then Svg
    else Jpeg
  }

  function IdText(id: ItemId): string {
    match id
    case NcxId => "ncx"
    case ImageId(i) => "img" + NatToString(i)
    case PageId(i) => "page" + NatToString(i)
  }

  /** `f"img_{i:04d}{suffix}"`. */
  function ImageFileName(i: nat, suffix: string): string {
    "img_" + ZeroPad(i, 4) + suffix
  }

  /** `f"page_{i:04d}.xhtml"`. */
  function PageFileName(i: nat): string {
    "page_" + ZeroPad(i, 4) + ".xhtml"
  }

  /** A file's `href` in the package document, relative to `OEBPS/`. */
  function Href(r: Resource): string {
    match r
    case TocNcx => "toc.ncx"
    case ImageFile(i, source) => "images/" + ImageFileName(i, Suffix(source))
    case PageFile(i) => "text/" + PageFileName(i)
  }

  /** The `media-type` of a file's manifest item: by suffix for images. */
  function MediaTypeOf(r: Resource): MediaType {
    match r
    case TocNcx => Ncx
    case ImageFile(_, source) => ImageMediaType(source)
    case PageFile(_) => Xhtml
  }

  /** `f"Page {n}"`, used for both the page title and the navigation label. */
  function PageLabel(n: nat): string {
    "Page " + NatToString(n)
  }

  function ImageItem(i: nat, img: ImageRef): ManifestItem {
    ManifestItem(ImageId(i), ImageFile(i, img.name))
  }

  function PageItem(i: nat): ManifestItem {
    ManifestItem(PageId(i), PageFile(i))
  }

  function NavPointAt(i: nat): NavPoint {
    NavPoint(i + 1, PageLabel(i + 1), PageFile(i))
  }

  function PageAt(i: nat, img: ImageRef): Page {
    Page(PageLabel(i + 1), ImageFile(i, img.name))
  }

  /** The `src` of a page's `<img>`: the image's href seen from `OEBPS/text/`. */
  function ImgSrc(p: Page): string {
    "../" + Href(p.image)
  }

  /** The items of images `start`, `start + 1`, …: `img{i}` followed by `page{i}` for each. */
  function ImageItems(images: seq<ImageRef>, start: nat): (r: seq<ManifestItem>)
    ensures |r| == 2 * |images|
  {
    if |images| == 0 then []
    else [ImageItem(start, images[0]), PageItem(start)] + ImageItems(images[1..], start + 1)
  }

  /** The ncx item, then `img{i}` and `page{i}` for each image `i`, in order. */
  function Manifest(images: seq<ImageRef>): (m: seq<ManifestItem>)
    ensures |m| == 2 * |images| + 1
  {
    [NcxItem] + ImageItems(images, 0)
  }

  /** The documents of a complete build over the ordered `images`. */
  function BuildBook(images: seq<ImageRef>, title: string): (b: Book)
    ensures b.title == title && b.identifier == BookIdentifier && b.language == BookLanguage
    ensures |b.spine| == |images| && |b.navMap| == |images| && |b.pages| == |images|
    ensures b.manifest == Manifest(images)
    ensures forall i :: 0 <= i < |images| ==> b.spine[i] == PageId(i)
    ensures forall i :: 0 <= i < |images| ==> b.navMap[i] == NavPointAt(i)
    ensures forall i :: 0 <= i < |images| ==> b.pages[i] == PageAt(i, images[i])
  {
    var n := |images|;
    Book(title, BookIdentifier, BookLanguage, Manifest(images),
      seq(n, i requires 0 <= i < n => PageId(i)),
      seq(n, i requires 0 <= i < n => NavPointAt(i)),
      seq(n, i requires 0 <= i < n => PageAt(i, images[i])))
  }

  /**
   The loop of `create_epub_from_images` (pic2epub.py:327-358): one pass per
   image appending its image item and page item to the manifest, its page to
   the spine, its navigation point and its wrapper page.
   */
  method CreateDocuments(images: seq<ImageRef>, title: string) returns (b: Book)
    ensures b == BuildBook(images, title)
  {
    var items := [NcxItem];
    var spine: seq<ItemId> := [];
    var navMap: seq<NavPoint> := [];
    var pages: seq<Page> := [];
    var i := 0;
    assert items == Manifest(images[..0]);
    while i < |images|
      invariant i <= |images|
      invariant Book(title, BookIdentifier, BookLanguage, items, spine, navMap, pages) == BuildBook(images[..i], title)
    {
      BuildBookExtend(images, title, i);
      items := items + [ImageItem(i, images[i]), PageItem(i)];
      spine := spine + [PageId(i)];
      navMap := navMap + [NavPointAt(i)];
      pages := pages + [PageAt(i, images[i])];
      i := i + 1;
    }
    assert images[..i] == images;
    b := Book(title, BookIdentifier, BookLanguage, items, spine, navMap, pages);
  }

  /** One more image appends its two manifest items, its spine entry, navigation point and page. */
  lemma BuildBookExtend(images: seq<ImageRef>, title: string, i: nat)
    requires i < |images|
    ensures var b := BuildBook(images[..i], title);
      BuildBook(images[..i + 1], title)
        == b.(manifest := b.manifest + [ImageItem(i, images[i]), PageItem(i)],
              spine := b.spine + [PageId(i)],
              navMap := b.navMap + [NavPointAt(i)],
              pages := b.pages + [PageAt(i, images[i])])
  {
    ManifestExtend(images, i);
    var b, c := BuildBook(images[..i], title), BuildBook(images[..i + 1], title);
    assert c.spine == b.spine + [PageId(i)];
    assert c.navMap == b.navMap + [NavPointAt(i)];
    assert c.pages == b.pages + [PageAt(i, images[i])];
  }

  lemma ManifestExtend(images: seq<ImageRef>, i: nat)
    requires i < |images|
    ensures Manifest(images[..i + 1]) == Manifest(images[..i]) + [ImageItem(i, images[i]), PageItem(i)]
  {
    assert images[..i + 1] == images[..i] + [images[i]];
    ImageItemsSnoc(images[..i], images[i], 0);
  }

  /** One more image appends its two items. */
  lemma {:induction false} ImageItemsSnoc(images: seq<ImageRef>, x: ImageRef, start: nat)
    ensures ImageItems(images + [x], start)
      == ImageItems(images, start) + [ImageItem(start + |images|, x), PageItem(start + |images|)]
    decreases |images|
  {
    if |images| > 0 {
      assert (images + [x])[1..] == images[1..] + [x];
      ImageItemsSnoc(images[1..], x, start + 1);
    } else {
      assert images + [x] == [x];
    }
  }

  /** Item `2i` is `img{start+i}` and item `2i+1` is `page{start+i}`. */
  lemma {:induction false} ImageItemsLayout(images: seq<ImageRef>, start: nat)
    ensures forall i :: 0 <= i < |images| ==>
      && ImageItems(images, start)[2 * i] == ImageItem(start + i, images[i])
      && ImageItems(images, start)[2 * i + 1] == PageItem(start + i)
    decreases |images|
  {
    if |images| > 0 {
      var r, t := ImageItems(images, start), ImageItems(images[1..], start + 1);
      ImageItemsLayout(images[1..], start + 1);
      forall i | 1 <= i < |images|
        ensures r[2 * i] == ImageItem(start + i, images[i]) && r[2 * i + 1] == PageItem(start + i)
      {
        assert r[2 * i] == t[2 * (i - 1)] && r[2 * i + 1] == t[2 * (i - 1) + 1];
        assert images[1..][i - 1] == images[i];
      }
    }
  }

  /** The manifest is `ncx`, then `img{i}` followed by `page{i}` for every image in order. */
  lemma ManifestLayout(images: seq<ImageRef>)
    ensures Manifest(images)[0] == NcxItem
    ensures forall i :: 0 <= i < |images| ==>
      Manifest(images)[2 * i + 1] == ImageItem(i, images[i]) && Manifest(images)[2 * i + 2] == PageItem(i)
  {
    var r := ImageItems(images, 0);
    ImageItemsLayout(images, 0);
    forall i | 0 <= i < |images|
      ensures Manifest(images)[2 * i + 1] == r[2 * i] && Manifest(images)[2 * i + 2] == r[2 * i + 1]
    {
    }
  }

  /** Rendered ids never collide: `ncx`, `img{i}` and `page{j}` are all different strings. */
  lemma IdTextInjective(x: ItemId, y: ItemId)
    requires IdText(x) == IdText(y)
    ensures x == y
  {
    match x
    case NcxId =>
      assert IdText(y)[0] == 'n';
    case ImageId(i) =>
      assert IdText(y)[0] == 'i';
      assert IdText(x)[3..] == NatToString(i);
      assert IdText(y)[3..] == NatToString(y.index);
    case PageId(i) =>
      assert IdText(y)[0] == 'p';
      assert IdText(x)[4..] == NatToString(i);
      assert IdText(y)[4..] == NatToString(y.index);
  }

  /** An image item: an image or page id with an index in `[start, end)`, and its own file. */
  predicate ItemIn(x: ManifestItem, start: nat, end: nat) {
    && !x.id.NcxId? && start <= x.id.index < end
    && Consistent(x)
  }

  /** A manifest item's file is the file its id names, and is well formed. */
  predicate Consistent(x: ManifestItem) {
    && (x.id.NcxId? <==> x.file.TocNcx?)
    && (x.id.ImageId? <==> x.file.ImageFile?)
    && (x.id.PageId? <==> x.file.PageFile?)
    && (!x.id.NcxId? ==> x.file.index == x.id.index)
  }

  lemma {:induction false} ImageItemsIn(images: seq<ImageRef>, start: nat)
    ensures forall a :: 0 <= a < 2 * |images| ==> ItemIn(ImageItems(images, start)[a], start, start + |images|)
    decreases |images|
  {
    if |images| > 0 {
      var r, t := ImageItems(images, start), ImageItems(images[1..], start + 1);
      ImageItemsIn(images[1..], start + 1);
      forall a | 2 <= a < |r| ensures ItemIn(r[a], start, start + |images|) {
        assert r[a] == t[a - 2];
      }
    }
  }

  /** The ids of the image items are pairwise distinct. */
  lemma {:induction false} ImageItemsUnique(images: seq<ImageRef>, start: nat)
    ensures forall a, c :: 0 <= a < c < 2 * |images| ==> ImageItems(images, start)[a].id != ImageItems(images, start)[c].id
    decreases |images|
  {
    if |images| > 0 {
      var r, t := ImageItems(images, start), ImageItems(images[1..], start + 1);
      ImageItemsUnique(images[1..], start + 1);
      ImageItemsIn(images[1..], start + 1);
      forall a, c | 0 <= a < c < |r| ensures r[a].id != r[c].id {
        if a >= 2 {
          assert r[a] == t[a - 2] && r[c] == t[c - 2];
        } else if c >= 2 {
          assert r[c] == t[c - 2];
          assert ItemIn(t[c - 2], start + 1, start + |images|);
        }
      }
    }
  }

  /** The manifest ids are pairwise distinct, and every item's file is the one its id names. */
  lemma ManifestIdsUnique(images: seq<ImageRef>)
    ensures var m := Manifest(images);
      && (forall a, c :: 0 <= a < c < |m| ==> m[a].id != m[c].id)
      && (forall a :: 0 <= a < |m| ==> Consistent(m[a]))
  {
    var m, r := Manifest(images), ImageItems(images, 0);
    ImageItemsUnique(images, 0);
    ImageItemsIn(images, 0);
    forall a | 1 <= a < |m| ensures m[a] == r[a - 1] && ItemIn(m[a], 0, |images|) { }
  }

  /** The manifest lists every slot once: its ids are pairwise distinct, also as text. */
  lemma ManifestIdsDistinct(images: seq<ImageRef>)
    ensures var m := Manifest(images);
      forall a, c :: 0 <= a < c < |m| ==> m[a].id != m[c].id && IdText(m[a].id) != IdText(m[c].id)
  {
    var m := Manifest(images);
    ManifestIdsUnique(images);
    forall a, c | 0 <= a < c < |m| && IdText(m[a].id) == IdText(m[c].id)
      ensures false
    {
      IdTextInjective(m[a].id, m[c].id);
    }
  }

  /**
   Referential integrity of the spine: it lists `page0 … page{n-1}` in order,
   and each idref names exactly one manifest item, the XHTML wrapper page.
   */
  lemma SpineRefersToPages(images: seq<ImageRef>, title: string)
    ensures var b := BuildBook(images, title);
      forall i :: 0 <= i < |b.spine| ==>
        && b.spine[i] == PageId(i)
        && b.manifest[2 * i + 2].id == b.spine[i]
        && MediaTypeOf(b.manifest[2 * i + 2].file) == Xhtml
        && forall a :: 0 <= a < |b.manifest| && b.manifest[a].id == b.spine[i] ==> a == 2 * i + 2
  {
    var b := BuildBook(images, title);
    ManifestLayout(images);
    ManifestIdsDistinct(images);
    forall i | 0 <= i < |b.spine|
      ensures b.manifest[2 * i + 2].id == b.spine[i] && MediaTypeOf(b.manifest[2 * i + 2].file) == Xhtml
      ensures forall a :: 0 <= a < |b.manifest| && b.manifest[a].id == b.spine[i] ==> a == 2 * i + 2
    {
      assert b.manifest[2 * i + 2] == PageItem(i);
    }
  }

  /**
   Navigation point `i` has play order `i + 1`, label `Page {i+1}`, and points
   at the document the `i`-th spine entry names.
   */
  lemma NavMapFollowsSpine(images: seq<ImageRef>, title: string)
    ensures var b := BuildBook(images, title);
      forall i :: 0 <= i < |b.navMap| ==>
        && b.navMap[i].playOrder == i + 1
        && b.navMap[i].labelText == PageLabel(i + 1)
        && b.manifest[2 * i + 2].id == b.spine[i]
        && b.navMap[i].target == b.manifest[2 * i + 2].file
  {
    var b := BuildBook(images, title);
    ManifestLayout(images);
    forall i | 0 <= i < |b.navMap|
      ensures b.manifest[2 * i + 2].id == b.spine[i] && b.navMap[i].target == b.manifest[2 * i + 2].file
    {
      assert b.manifest[2 * i + 2] == PageItem(i);
    }
  }

  /**
   The `i`-th wrapper page is titled `Page {i+1}`, and its `<img src>`,
   resolved from `text/`, is the href of the manifest's `img{i}` item.
   */
  lemma PagesShowTheirImage(images: seq<ImageRef>, title: string)
    ensures var b := BuildBook(images, title);
      forall i :: 0 <= i < |b.pages| ==>
        && b.pages[i].title == PageLabel(i + 1)
        && b.manifest[2 * i + 1].id == ImageId(i)
        && b.pages[i].image == b.manifest[2 * i + 1].file
        && ImgSrc(b.pages[i]) == "../" + Href(b.manifest[2 * i + 1].file)
        && MediaTypeOf(b.manifest[2 * i + 1].file) == ImageMediaType(images[i].name)
  {
    ManifestLayout(images);
  }

  /** The zero-padded index is recovered from a derived name: its leading digit run. */
  lemma PaddedIndexRecovered(i: nat, suffix: string)
    requires suffix == [] || suffix[0] == '.'
    ensures DigitPrefix(ZeroPad(i, 4) + suffix) == ZeroPad(i, 4)
  {
    DigitPrefixOf(ZeroPad(i, 4), suffix);
  }

  lemma PaddedInjective(i: nat, s: string, j: nat, t: string)
    requires s == [] || s[0] == '.'
    requires t == [] || t[0] == '.'
    requires ZeroPad(i, 4) + s == ZeroPad(j, 4) + t
    ensures i == j && s == t
  {
    PaddedIndexRecovered(i, s);
    PaddedIndexRecovered(j, t);
    var a := ZeroPad(i, 4) + s;
    assert s == a[|ZeroPad(i, 4)|..];
    assert t == a[|ZeroPad(j, 4)|..];
  }

  lemma ImageHrefTail(i: nat, source: string)
    ensures Href(ImageFile(i, source))[11..] == ZeroPad(i, 4) + Suffix(source)
  {
    assert Href(ImageFile(i, source)) == "images/img_" + (ZeroPad(i, 4) + Suffix(source));
  }

  lemma PageHrefTail(i: nat)
    ensures Href(PageFile(i))[10..] == ZeroPad(i, 4) + ".xhtml"
  {
    assert Href(PageFile(i)) == "text/page_" + (ZeroPad(i, 4) + ".xhtml");
  }

  /** Two image copies share an href only when they have the same position and suffix. */
  lemma ImageHrefInjective(i: nat, s: string, j: nat, t: string)
    requires Href(ImageFile(i, s)) == Href(ImageFile(j, t))
    ensures i == j && Suffix(s) == Suffix(t)
  {
    ImageHrefTail(i, s);
    ImageHrefTail(j, t);
    PaddedInjective(i, Suffix(s), j, Suffix(t));
  }

  lemma PageHrefInjective(i: nat, j: nat)
    requires Href(PageFile(i)) == Href(PageFile(j))
    ensures i == j
  {
    PageHrefTail(i);
    PageHrefTail(j);
    PaddedInjective(i, ".xhtml", j, ".xhtml");
  }

  /** The first two characters of an href tell the kind of file apart. */
  lemma HrefKind(r: Resource)
    ensures r.TocNcx? ==> Href(r)[..2] == "to"
    ensures r.ImageFile? ==> Href(r)[..2] == "im"
    ensures r.PageFile? ==> Href(r)[..2] == "te"
  {
  }

  /** Whether two files are the same kind of file for the same position. */
  predicate SameSlot(x: Resource, y: Resource) {
    && x.TocNcx? == y.TocNcx? && x.ImageFile? == y.ImageFile? && x.PageFile? == y.PageFile?
    && (!x.TocNcx? ==> x.index == y.index)
  }

  /**
   Rendered hrefs never collide: files of different kinds or positions get
   different paths, so no copied image or written page overwrites another.
   */
  lemma HrefInjective(x: Resource, y: Resource)
    requires Href(x) == Href(y)
    ensures SameSlot(x, y)
  {
    HrefKind(x);
    HrefKind(y);
    if x.ImageFile? && y.ImageFile? {
      ImageHrefInjective(x.index, x.source, y.index, y.source);
    } else if x.PageFile? && y.PageFile? {
      PageHrefInjective(x.index, y.index);
    }
  }

  /** The manifest's files are pairwise distinct, also as rendered hrefs. */
  lemma ManifestFilesDistinct(images: seq<ImageRef>)
    ensures var m := Manifest(images);
      forall a, c :: 0 <= a < c < |m| ==> Href(m[a].file) != Href(m[c].file)
  {
    var m := Manifest(images);
    ManifestIdsUnique(images);
    forall a, c | 0 <= a < c < |m|
      ensures Href(m[a].file) != Href(m[c].file)
    {
      DistinctItemsDistinctFiles(m[a], m[c]);
    }
  }

  /** Consistent items with different ids name files with different hrefs. */
  lemma DistinctItemsDistinctFiles(x: ManifestItem, y: ManifestItem)
    requires Consistent(x) && Consistent(y) && x.id != y.id
    ensures Href(x.file) != Href(y.file)
  {
    if Href(x.file) == Href(y.file) {
      HrefInjective(x.file, y.file);
    }
  }
}

=== FILE: runs.dfy ===
/**
 One target's conversion (`run_single_conversion`, pic2epub.py:711-753):
 scan the folder, put its images in page order, decide the output path,
 consult the overwrite policy when that path exists, then build the book.
 Progress reported to the current-book bar is mapped onto 0-100: the scan
 onto 0-30, the build onto 30-100.
 */
module Runs {
  import opened Strings
  import opened StopFlags
  import opened Scanner
  import opened Ordering
  import opened Package
  import opened Archive
  import opened Overwrite
  import opened Discovery

  /**
   What a run changes around it: the paths that exist, the policy shared by
   all targets of the run (None when no policy is passed), the dialog answers
   still to come, and the stop flag.
   */
  datatype Env = Env(existing: set<string>, policy: Option<Policy>, answers: seq<Answer>, stop: StopFlag)

  /** The archive name of a folder: its base name plus `.epub` (`os.path.normpath` not modelled). */
  function EpubName(folder: string): string {
    BaseName(folder) + ".epub"
  }

  /**
   Where the archive goes: into the output directory when one is given and
   not empty (`if output_dir:`), otherwise into the folder itself.
   */
  function OutputPath(folder: string, outputDir: Option<string>): string {
    var dir := if outputDir.Some? && outputDir.value != [] then outputDir.value else folder;
    Join(dir, EpubName(folder))
  }

  /** The archive is named after the folder and placed in the chosen directory. */
  lemma OutputPathParts(folder: string, outputDir: Option<string>)
    ensures var r := OutputPath(folder, outputDir);
      && BaseName(r) == EpubName(folder)
      && EndsWith(EpubName(folder), ".epub")
      && (outputDir.Some? && outputDir.value != [] ==> StartsWith(r, outputDir.value + "/"))
      && (outputDir.None? || outputDir.value == [] ==> StartsWith(r, folder + "/"))
  {
    var b := BaseName(folder);
    var name := EpubName(folder);
    assert name[|b|..] == ".epub";
    assert forall i :: 0 <= i < |name| ==> name[i] != '/' by {
      forall i | 0 <= i < |name| ensures name[i] != '/' {
        if i >= |b| {
          assert name[i] == ".epub"[i - |b|];
        }
      }
    }
    var dir := if outputDir.Some? && outputDir.value != [] then outputDir.value else folder;
    BaseNameOfJoin(dir, name);
    assert Join(dir, name)[..|dir| + 1] == dir + "/";
  }

  /**
   The existence check before writing: a missing path, or no policy, lets the
   write proceed; otherwise the policy decides, possibly consuming an answer.
   */
  function CheckTarget(path: string, env: Env): (r: (Verdict, Env))
    ensures r.1.existing == env.existing && r.1.stop == env.stop
    ensures path !in env.existing || env.policy.None? ==> r == (Verdict.Overwrite, env)
    ensures path in env.existing && env.policy.Some? ==>
      var d := ShouldOverwrite(env.policy.value, env.answers);
      r.0 == d.verdict && r.1.policy == Some(d.policy) && r.1.answers == d.answers
  {
    if path in env.existing && env.policy.Some? then
      var d := ShouldOverwrite(env.policy.value, env.answers);
      (d.verdict, env.(policy := Some(d.policy), answers := d.answers))
    else (Verdict.Overwrite, env)
  }

  /** `int(current / total * span)` for a non-negative ratio (0 when `total` is 0). */
  function Percent(current: nat, span: nat, total: nat): nat {
    if total > 0 then current * span / total else 0
  }

  lemma PercentMono(a: nat, b: nat, span: nat, total: nat)
    requires a <= b
    ensures Percent(a, span, total) <= Percent(b, span, total)
  {
    if total > 0 {
      MulMonoIf(span, a, b);
      DivMono(a * span, b * span, total);
    }
  }

  /** A count within its total maps within the span, and the full count onto the whole span. */
  lemma PercentBound(c: nat, span: nat, total: nat)
    requires c <= total
    ensures Percent(c, span, total) <= span
    ensures c == total > 0 ==> Percent(c, span, total) == span
  {
    if total > 0 {
      MulMonoIf(span, c, total);
      DivMono(c * span, total * span, total);
      DivExact(span, total);
    }
  }

  /** The scan's reports, mapped onto 0-30. */
  function ScanPercents(reported: seq<Progress>): seq<nat> {
    seq(|reported|, i requires 0 <= i < |reported| => Percent(reported[i].current, 30, reported[i].total))
  }

  /** The build's reports against `total`, mapped onto 30-100. */
  function BuildPercents(reported: seq<nat>, total: nat): seq<nat> {
    seq(|reported|, i requires 0 <= i < |reported| => 30 + Percent(reported[i], 70, total))
  }

  lemma ScanPercentsRise(reported: seq<Progress>, k: nat, n: nat)
    requires k <= n && CountsUpTo(reported, k, n)
    ensures NonDecreasing(ScanPercents(reported)) && Between(ScanPercents(reported), 0, 30)
  {
    var s := ScanPercents(reported);
    forall i, j | 0 <= i < j < |s| ensures s[i] <= s[j] {
      PercentMono(i + 1, j + 1, 30, n);
    }
    forall i | 0 <= i < |s| ensures s[i] <= 30 {
      PercentBound(i + 1, 30, n);
    }
  }

  lemma BuildPercentsRise(reported: seq<nat>, total: nat)
    requires NonDecreasing(reported) && Between(reported, 0, total)
    ensures NonDecreasing(BuildPercents(reported, total)) && Between(BuildPercents(reported, total), 30, 100)
    ensures |reported| > 0 && reported[|reported| - 1] == total > 0 ==>
      BuildPercents(reported, total)[|reported| - 1] == 100
  {
    var s := BuildPercents(reported, total);
    forall i, j | 0 <= i < j < |s| ensures s[i] <= s[j] {
      assert reported[i] <= reported[j];
      PercentMono(reported[i], reported[j], 70, total);
    }
    forall i | 0 <= i < |s| ensures 30 <= s[i] <= 100 {
      PercentBound(reported[i], 70, total);
    }
    if |reported| > 0 {
      PercentBound(reported[|reported| - 1], 70, total);
    }
  }

  /** A folder's images in page order, as paths under the folder. */
  function SortedRefs(folder: string, names: seq<string>): (r: seq<ImageRef>)
    ensures forall k :: 0 <= k < |r| ==> r[k].folder == folder
  {
    var s := SortImageFiles(names);
    seq(|s|, k requires 0 <= k < |s| => ImageRef(folder, s[k]))
  }

  /** A folder to convert and what `run_single_conversion` returned or raised for it. */
  datatype SingleResult =
    | Produced(path: string, book: Book, entries: seq<Entry>)
    | Skipped
    | Interrupted
    | NoImages

  /** A single conversion: its result, the mapped progress it reported, and the run's surroundings after it. */
  datatype Single = Single(result: SingleResult, progress: seq<nat>, env: Env)

  /** The polls a conversion makes when it runs to completion on a folder whose scan keeps `images`. */
  function SinglePolls(listing: Option<seq<DirEntry>>, images: seq<string>): nat {
    ScanPolls(listing) + BuildPolls(|SortImageFiles(images)|)
  }

  /** What happens once a scan has kept at least one image: the existence check, then the build. */
  function Convert(folder: string, images: seq<string>, outputDir: Option<string>, env: Env): Single {
    var check := CheckTarget(OutputPath(folder, outputDir), env);
    match check.0
    case Cancelled => Single(Interrupted, [], check.1)
    case Keep => Single(Skipped, [], check.1)
    case Overwrite => WriteBook(OutputPath(folder, outputDir), SortedRefs(folder, images), BaseName(folder), check.1)
  }

  /** `create_epub_from_images` into `path`, with its progress mapped onto 30-100. */
  function WriteBook(path: string, refs: seq<ImageRef>, title: string, env: Env): Single {
    var b := CreateEpub(refs, title, env.stop);
    // `ZipFile` creates the output file before the first entry is written.
    var left := if b.Built? || b.partial != [] then {path} else {};
    var result := if b.Built? then Produced(path, b.book, b.entries) else Interrupted;
    Single(result, BuildPercents(b.reported, ProgressTotal(|refs|)), env.(existing := env.existing + left, stop := b.stop))
  }

  /**
   A build either produces the book of `refs` at `path` or is interrupted,
   and it is interrupted exactly when the flag is met within its polls.
   */
  lemma WriteBookResult(path: string, refs: seq<ImageRef>, title: string, env: Env)
    ensures WriteBook(path, refs, title, env).result.Produced? || WriteBook(path, refs, title, env).result.Interrupted?
    ensures WriteBook(path, refs, title, env).result.Produced? <==> !env.stop.SetWithin(BuildPolls(|refs|))
    ensures WriteBook(path, refs, title, env).result.Produced? ==>
      && WriteBook(path, refs, title, env).result.path == path
      && WriteBook(path, refs, title, env).result.book == BuildBook(refs, title)
      && WriteBook(path, refs, title, env).result.entries == ArchiveEntries(refs)
  {
  }

  /**
   A build adds at most the target path to the files that exist, adds it when
   it produces the book, leaves policy and answers alone, and keeps a flag
   that is never set unset and one that is set set.
   */
  lemma WriteBookEnv(path: string, refs: seq<ImageRef>, title: string, env: Env)
    ensures env.existing <= WriteBook(path, refs, title, env).env.existing <= env.existing + {path}
    ensures WriteBook(path, refs, title, env).result.Produced? ==> WriteBook(path, refs, title, env).env.existing == env.existing + {path}
    ensures WriteBook(path, refs, title, env).env.answers == env.answers
    ensures WriteBook(path, refs, title, env).env.policy == env.policy
    ensures env.stop.Never? ==> WriteBook(path, refs, title, env).env.stop.Never?
    ensures env.stop.IsSet() ==> WriteBook(path, refs, title, env).env.stop.IsSet()
  {
  }

  /** A build's mapped progress rises within 30-100 and ends at 100 when the book is produced. */
  lemma WriteBookProgress(path: string, refs: seq<ImageRef>, title: string, env: Env)
    ensures NonDecreasing(WriteBook(path, refs, title, env).progress)
    ensures Between(WriteBook(path, refs, title, env).progress, 30, 100)
    ensures WriteBook(path, refs, title, env).result.Produced? ==>
      |WriteBook(path, refs, title, env).progress| > 0
      && WriteBook(path, refs, title, env).progress[|WriteBook(path, refs, title, env).progress| - 1] == 100
  {
    BuildProgress(refs, title, env.stop);
  }

  /**
   After the scan: the book is produced exactly when the existence check lets
   the write proceed and the flag is not met during the build, and it is the
   folder's images in page order titled with the folder name; the run skips
   exactly when the check says keep; it never reports a folder without images.
   */
  lemma ConvertResult(folder: string, images: seq<string>, outputDir: Option<string>, env: Env)
    ensures var check := CheckTarget(OutputPath(folder, outputDir), env);
      var r := Convert(folder, images, outputDir, env).result;
      && r != NoImages
      && (r.Produced? <==> check.0 == Verdict.Overwrite && !env.stop.SetWithin(BuildPolls(|SortedRefs(folder, images)|)))
      && (r.Skipped? <==> check.0 == Keep)
      && (env.stop.Never? ==> (r.Interrupted? <==> check.0 == Cancelled))
    ensures var r := Convert(folder, images, outputDir, env).result;
      r.Produced? ==>
        && r.path == OutputPath(folder, outputDir)
        && r.book == BuildBook(SortedRefs(folder, images), BaseName(folder))
        && r.entries == ArchiveEntries(SortedRefs(folder, images))
  {
    var check := CheckTarget(OutputPath(folder, outputDir), env);
    if check.0 == Verdict.Overwrite {
      WriteBookResult(OutputPath(folder, outputDir), SortedRefs(folder, images), BaseName(folder), check.1);
    }
  }

  /**
   After the scan, the surroundings change only through the existence check
   and the build: at most the target path appears, the check alone moves the
   policy and the answers, and the flag keeps its state.
   */
  lemma ConvertEnv(folder: string, images: seq<string>, outputDir: Option<string>, env: Env)
    ensures var path := OutputPath(folder, outputDir);
      var check := CheckTarget(path, env);
      var r := Convert(folder, images, outputDir, env);
      && env.existing <= r.env.existing <= env.existing + {path}
      && (r.result.Produced? ==> r.env.existing == env.existing + {path})
      && (r.result.Skipped? ==> r.env.existing == env.existing)
      && r.env.answers == check.1.answers && r.env.policy == check.1.policy
      && (env.stop.Never? ==> r.env.stop.Never?)
      && (env.stop.IsSet() ==> r.env.stop.IsSet())
  {
    var check := CheckTarget(OutputPath(folder, outputDir), env);
    if check.0 == Verdict.Overwrite {
      WriteBookEnv(OutputPath(folder, outputDir), SortedRefs(folder, images), BaseName(folder), check.1);
    }
  }

  /** After the scan, the mapped progress rises within 30-100 and a produced book leaves it at 100. */
  lemma ConvertProgress(folder: string, images: seq<string>, outputDir: Option<string>, env: Env)
    ensures var r := Convert(folder, images, outputDir, env);
      && NonDecreasing(r.progress) && Between(r.progress, 30, 100)
      && (r.result.Produced? ==> |r.progress| > 0 && r.progress[|r.progress| - 1] == 100)
  {
    var check := CheckTarget(OutputPath(folder, outputDir), env);
    if check.0 == Verdict.Overwrite {
      WriteBookProgress(OutputPath(folder, outputDir), SortedRefs(folder, images), BaseName(folder), check.1);
      WriteBookResult(OutputPath(folder, outputDir), SortedRefs(folder, images), BaseName(folder), check.1);
    }
  }

  function RunSingle(folder: Folder, supported: set<string>, outputDir: Option<string>, env: Env): (r: Single)
    ensures var images := FolderImages(folder.listing, supported);
      var path := OutputPath(folder.path, outputDir);
      && (r.result == NoImages <==> !env.stop.SetWithin(ScanPolls(folder.listing)) && images == [])
      && (r.result.Produced? <==>
            && images != [] && !env.stop.SetWithin(SinglePolls(folder.listing, images))
            && CheckTarget(path, env).0 == Verdict.Overwrite)
      // The book is the folder's images in page order, titled with the folder name.
      && (r.result.Produced? ==>
            var refs := SortedRefs(folder.path, images);
            && r.result.path == path
            && r.result.book == BuildBook(refs, BaseName(folder.path))
            && r.result.entries == ArchiveEntries(refs)
            && r.env.existing == env.existing + {path})
      // Skipping needs an existing target and a policy that says no.
      && (r.result.Skipped? <==>
            && images != [] && !env.stop.SetWithin(ScanPolls(folder.listing))
            && CheckTarget(path, env).0 == Keep)
  {
    var scan := ScanImages(folder.listing, supported, env.stop);
    ScanOutcome(folder.listing, supported, env.stop);
    var scanned := ScanPercents(scan.reported);
    var after := env.(stop := scan.stop);
    if scan.ScanInterrupted? then Single(Interrupted, scanned, after)
    else if scan.images == [] then Single(NoImages, scanned, after)
    else
      var c := Convert(folder.path, scan.images, outputDir, after);
      ConvertResult(folder.path, scan.images, outputDir, after);
      ConvertEnv(folder.path, scan.images, outputDir, after);
      CheckIgnoresStop(OutputPath(folder.path, outputDir), env, scan.stop);
      AdvanceAdd(env.stop, ScanPolls(folder.listing), BuildPolls(|SortImageFiles(scan.images)|));
      Single(c.result, scanned + c.progress, c.env)
  }

  /**
   The current-book bar never moves back and stays within 0-100; a produced
   book leaves it at 100.
   */
  lemma SingleProgress(folder: Folder, supported: set<string>, outputDir: Option<string>, env: Env)
    ensures var r := RunSingle(folder, supported, outputDir, env);
      && NonDecreasing(r.progress) && Between(r.progress, 0, 100)
      && (r.result.Produced? ==> |r.progress| > 0 && r.progress[|r.progress| - 1] == 100)
  {
    var scan := ScanImages(folder.listing, supported, env.stop);
    var n := if folder.listing.None? then 0 else |Candidates(folder.listing.value)|;
    ScanPercentsRise(scan.reported, if scan.Scanned? then n else env.stop.clearPolls, n);
    if scan.Scanned? && scan.images != [] {
      var c := Convert(folder.path, scan.images, outputDir, env.(stop := scan.stop));
      ConvertProgress(folder.path, scan.images, outputDir, env.(stop := scan.stop));
      ConcatNonDecreasing(ScanPercents(scan.reported), c.progress, 0, 30, 100);
    }
  }

  /**
   What a conversion changes on disk: only a produced book or a partial
   archive adds a file, and only at the target path.
   */
  lemma SingleFiles(folder: Folder, supported: set<string>, outputDir: Option<string>, env: Env)
    ensures var r := RunSingle(folder, supported, outputDir, env);
      var path := OutputPath(folder.path, outputDir);
      && env.existing <= r.env.existing <= env.existing + {path}
      && (r.result.Skipped? || r.result == NoImages ==> r.env.existing == env.existing)
  {
    var scan := ScanImages(folder.listing, supported, env.stop);
    if scan.Scanned? && scan.images != [] {
      ConvertEnv(folder.path, scan.images, outputDir, env.(stop := scan.stop));
      CheckIgnoresStop(OutputPath(folder.path, outputDir), env, scan.stop);
    }
  }

  /**
   A conversion consumes at most one dialog answer, and only when the target
   existed and a policy was given.
   */
  lemma SingleAnswers(folder: Folder, supported: set<string>, outputDir: Option<string>, env: Env)
    ensures var r := RunSingle(folder, supported, outputDir, env);
      var path := OutputPath(folder.path, outputDir);
      && (r.env.answers == env.answers || r.env.answers == AfterPrompt(env.answers))
      && (r.env.answers != env.answers ==> path in env.existing && env.policy.Some?)
      // The policy and the answers change only through the existence check.
      && (FolderImages(folder.listing, supported) != [] && !env.stop.SetWithin(ScanPolls(folder.listing)) ==>
            r.env.policy == CheckTarget(path, env).1.policy && r.env.answers == CheckTarget(path, env).1.answers)
      && (FolderImages(folder.listing, supported) == [] || env.stop.SetWithin(ScanPolls(folder.listing)) ==>
            r.env.policy == env.policy && r.env.answers == env.answers)
  {
    var scan := ScanImages(folder.listing, supported, env.stop);
    if scan.Scanned? && scan.images != [] {
      ConvertEnv(folder.path, scan.images, outputDir, env.(stop := scan.stop));
      CheckIgnoresStop(OutputPath(folder.path, outputDir), env, scan.stop);
    }
  }

  /**
   A flag that is never set stays so, and then only the dialog's cancel
   button interrupts a conversion; a flag already set stays set.
   */
  lemma SingleFlag(folder: Folder, supported: set<string>, outputDir: Option<string>, env: Env)
    ensures var r := RunSingle(folder, supported, outputDir, env);
      var images := FolderImages(folder.listing, supported);
      var path := OutputPath(folder.path, outputDir);
      && (env.stop.Never? ==>
            && r.env.stop.Never?
            && (r.result.Interrupted? <==> images != [] && CheckTarget(path, env).0 == Cancelled))
      && (env.stop.IsSet() ==> r.env.stop.IsSet())
  {
    var scan := ScanImages(folder.listing, supported, env.stop);
    ScanOutcome(folder.listing, supported, env.stop);
    if scan.Scanned? && scan.images != [] {
      ConvertResult(folder.path, scan.images, outputDir, env.(stop := scan.stop));
      ConvertEnv(folder.path, scan.images, outputDir, env.(stop := scan.stop));
      CheckIgnoresStop(OutputPath(folder.path, outputDir), env, scan.stop);
    }
  }

  /** The existence check reads the policy and the answers, not the flag. */
  lemma CheckIgnoresStop(path: string, env: Env, stop: StopFlag)
    ensures CheckTarget(path, env.(stop := stop)).0 == CheckTarget(path, env).0
    ensures CheckTarget(path, env.(stop := stop)).1 == CheckTarget(path, env).1.(stop := stop)
  {
  }

  /** What a build reports, mapped onto 30-100: rising, and reaching 100 when the build completes. */
  lemma BuildProgress(refs: seq<ImageRef>, title: string, stop: StopFlag)
    ensures NonDecreasing(BuildPercents(CreateEpub(refs, title, stop).reported, ProgressTotal(|refs|)))
    ensures Between(BuildPercents(CreateEpub(refs, title, stop).reported, ProgressTotal(|refs|)), 30, 100)
    ensures CreateEpub(refs, title, stop).Built? ==>
      var p := BuildPercents(CreateEpub(refs, title, stop).reported, ProgressTotal(|refs|));
      |p| > 0 && p[|p| - 1] == 100
  {
    var b := CreateEpub(refs, title, stop);
    ReportedProgress(refs, title, stop);
    assert Between(b.reported, 0, ProgressTotal(|refs|));
    BuildPercentsRise(b.reported, ProgressTotal(|refs|));
  }
}

=== FILE: scanner.dfy ===
/**
 The asset scanner (`scan_images`, pic2epub.py:231-256). It lists one
 directory without recursing, keeps the regular files that are not already
 `.epub` archives, polls the stop flag before each of them, keeps those whose
 lower-cased suffix is a supported image extension, and reports progress
 after each one. A listing failure yields no images.
 */
module Scanner {
  import opened Strings
  import opened StopFlags

  /** One `os.listdir` entry together with the `os.path.isfile` answer for it. */
  datatype DirEntry = DirEntry(name: string, isFile: bool)

  /** One `progress_callback(current, total)` report. */
  datatype Progress = Progress(current: nat, total: nat)

  /** Outcome of a scan: the images found, or `InterruptedError` from a stop poll. */
  datatype Scan =
    | Scanned(images: seq<string>, reported: seq<Progress>, stop: StopFlag)
    | ScanInterrupted(reported: seq<Progress>, stop: StopFlag)

  /** Entries that survive the listing comprehension: regular files not ending in `.epub`. */
  predicate IsCandidate(e: DirEntry) {
    e.isFile && !EndsWith(Lower(e.name), ".epub")
  }

  /** `Path(f).suffix.lower() in supported`. */
  predicate IsImage(name: string, supported: set<string>) {
    Lower(Suffix(name)) in supported
  }

  function Candidates(entries: seq<DirEntry>): (names: seq<string>)
    ensures |names| <= |entries|
  {
    if |entries| == 0 then []
    else (if IsCandidate(entries[0]) then [entries[0].name] else []) + Candidates(entries[1..])
  }

  /** Reference definition: the listed names a complete scan keeps, in listing order. */
  function ImageNames(entries: seq<DirEntry>, supported: set<string>): seq<string> {
    if |entries| == 0 then []
    else
      var e := entries[0];
      (if IsCandidate(e) && IsImage(e.name, supported) then [e.name] else [])
        + ImageNames(entries[1..], supported)
  }

  /** Only the images among `names`, in order. */
  function KeepImages(names: seq<string>, supported: set<string>): seq<string> {
    if |names| == 0 then []
    else (if IsImage(names[0], supported) then [names[0]] else []) + KeepImages(names[1..], supported)
  }

  /** `(1, n), (2, n), ..., (k, n)`. */
  predicate CountsUpTo(reported: seq<Progress>, k: nat, n: nat) {
    |reported| == k && forall j :: 0 <= j < k ==> reported[j] == Progress(j + 1, n)
  }

  /**
   The `for i, f in enumerate(all_files)` loop from position `i` on: poll the
   flag, keep `f` when its suffix is supported, report `(i + 1, len)`.
   */
  function ScanLoop(files: seq<string>, i: nat, supported: set<string>, stop: StopFlag): (r: Scan)
    requires i <= |files|
    ensures r.ScanInterrupted? <==> stop.SetWithin(|files| - i)
    ensures r.stop == stop.Advance(|files| - i)
    ensures r.Scanned? ==> r.images == KeepImages(files[i..], supported)
    ensures r.Scanned? ==> |r.reported| == |files| - i
    ensures r.ScanInterrupted? ==> |r.reported| == stop.clearPolls
    ensures forall j :: 0 <= j < |r.reported| ==> r.reported[j] == Progress(i + j + 1, |files|)
    decreases |files| - i
  {
    if i == |files| then Scanned([], [], stop)
    else if stop.IsSet() then ScanInterrupted([], stop)
    else
      var p := Progress(i + 1, |files|);
      var keep := if IsImage(files[i], supported) then [files[i]] else [];
      assert files[i..][1..] == files[i + 1..];
      match ScanLoop(files, i + 1, supported, stop.Next())
      case Scanned(images, reported, s) => Scanned(keep + images, [p] + reported, s)
      case ScanInterrupted(reported, s) => ScanInterrupted([p] + reported, s)
  }

  lemma {:induction false} KeepImagesOfCandidates(entries: seq<DirEntry>, supported: set<string>)
    ensures KeepImages(Candidates(entries), supported) == ImageNames(entries, supported)
  {
    if |entries| > 0 {
      var c := if IsCandidate(entries[0]) then [entries[0].name] else [];
      var rest := Candidates(entries[1..]);
      KeepImagesOfCandidates(entries[1..], supported);
      if IsCandidate(entries[0]) {
        assert (c + rest)[0] == entries[0].name;
        assert (c + rest)[1..] == rest;
      } else {
        assert c + rest == rest;
      }
    }
  }

  /**
   `scan_images(folder, progress_callback, stop_event)`, with the listing given
   as `None` when `os.listdir`/`os.path.isfile` raised.
   */
  function ScanImages(listing: Option<seq<DirEntry>>, supported: set<string>, stop: StopFlag): (r: Scan)
    ensures listing.None? ==> r == Scanned([], [], stop)
    ensures listing.Some? ==>
      var n := |Candidates(listing.value)|;
      && (r.ScanInterrupted? <==> stop.SetWithin(n))
      && (r.Scanned? ==> r.images == ImageNames(listing.value, supported) && CountsUpTo(r.reported, n, n))
      && (r.ScanInterrupted? ==> CountsUpTo(r.reported, stop.clearPolls, n))
      && r.stop == stop.Advance(n)
  {
    match listing
    case None => Scanned([], [], stop)
    case Some(entries) =>
      var files := Candidates(entries);
      var r := ScanLoop(files, 0, supported, stop);
      assert files[0..] == files;
      KeepImagesOfCandidates(entries, supported);
      r
  }

  /** Every kept name is a listed, non-archive regular file with a supported suffix, and conversely. */
  lemma {:induction false} ImageNamesMembership(entries: seq<DirEntry>, supported: set<string>, x: string)
    ensures x in ImageNames(entries, supported) <==>
      exists j :: 0 <= j < |entries| && entries[j].name == x && IsCandidate(entries[j]) && IsImage(x, supported)
  {
    if |entries| > 0 {
      ImageNamesMembership(entries[1..], supported, x);
      var head := if IsCandidate(entries[0]) && IsImage(entries[0].name, supported) then [entries[0].name] else [];
      assert ImageNames(entries, supported) == head + ImageNames(entries[1..], supported);
      if exists j :: 0 <= j < |entries| && entries[j].name == x && IsCandidate(entries[j]) && IsImage(x, supported) {
        var j :| 0 <= j < |entries| && entries[j].name == x && IsCandidate(entries[j]) && IsImage(x, supported);
        if j > 0 {
          assert entries[1..][j - 1] == entries[j];
        }
      }
      if x in ImageNames(entries[1..], supported) {
        var j :| 0 <= j < |entries| - 1 && entries[1..][j].name == x && IsCandidate(entries[1..][j]) && IsImage(x, supported);
        assert entries[j + 1] == entries[1..][j];
      }
    }
  }

  /** An `.epub` file is never returned, whatever the supported set holds. */
  lemma EpubNeverScanned(listing: seq<DirEntry>, supported: set<string>, stop: StopFlag, x: string)
    requires EndsWith(Lower(x), ".epub")
    requires ScanImages(Some(listing), supported, stop).Scanned?
    ensures x !in ScanImages(Some(listing), supported, stop).images
  {
    ImageNamesMembership(listing, supported, x);
  }
}

=== FILE: stop_flag.dfy ===
/**
 The cooperative cancellation flag (`threading.Event`) as seen by the polls a
 run makes of it. The source only ever sets the flag and never clears it, so
 what a run observes is fully described by how many polls still find it
 clear: `After(k)` means the next `k` polls see it clear and every poll after
 that sees it set; `Never` means no poll of this run sees it set.
 */
module StopFlags {

  datatype StopFlag = Never | After(clearPolls: nat) {

    /** The next poll finds the flag set. */
    predicate IsSet() {
      After? && clearPolls == 0
    }

    /** The flag as seen by the polls after the next one. */
    function Next(): (f: StopFlag)
      ensures IsSet() ==> f == this
      ensures Never? <==> f.Never?
      ensures After? && !IsSet() ==> f.clearPolls + 1 == clearPolls
    {
      match this
      case Never => Never
      case After(k) => if k == 0 then After(0) else After(k - 1)
    }

    /** One of the next `m` polls finds the flag set. */
    predicate SetWithin(m: nat) {
      After? && clearPolls < m
    }

    /** The flag as seen after `m` more polls. */
    function Advance(m: nat): (f: StopFlag)
      ensures Never? <==> f.Never?
      ensures SetWithin(m) ==> f.IsSet()
      ensures After? && !SetWithin(m) ==> f.clearPolls + m == clearPolls
    {
      match this
      case Never => Never
      case After(k) => if k >= m then After(k - m) else After(0)
    }
  }

  lemma {:induction false} AdvanceAdd(f: StopFlag, a: nat, b: nat)
    ensures f.Advance(a).Advance(b) == f.Advance(a + b)
    ensures f.SetWithin(a + b) <==> f.SetWithin(a) || f.Advance(a).SetWithin(b)
  {
  }
}

=== FILE: strings.dfy ===
/**
 ASCII string helpers used by the packager: lower-casing, substring and
 end-of-string tests, the last-dot file suffix of `pathlib`, path joining and
 base names, and the code-point ordering Python uses to compare strings.
 */
module Strings {

  datatype Option<+T> = None | Some(value: T)

  /** ASCII lower-casing of one character (`str.lower` restricted to ASCII). */
  function LowerChar(c: char): (r: char)
    ensures 'A' <= c <= 'Z' ==> 'a' <= r <= 'z' && r as int == c as int + 32
    ensures !('A' <= c <= 'Z') ==> r == c
  {
    if 'A' <= c <= 'Z' then (c as int + 32) as char else c
  }

  function Lower(s: string): (r: string)
    ensures |r| == |s|
    ensures forall i :: 0 <= i < |s| ==> r[i] == LowerChar(s[i])
  {
    if |s| == 0 then [] else [LowerChar(s[0])] + Lower(s[1..])
  }

  lemma {:induction false} LowerAppend(a: string, b: string)
    ensures Lower(a + b) == Lower(a) + Lower(b)
  {
    var l, r := Lower(a + b), Lower(a) + Lower(b);
    forall i | 0 <= i < |a + b|
      ensures l[i] == r[i]
    {
      if i < |a| {
        calc {
          l[i];
          LowerChar((a + b)[i]);
          LowerChar(a[i]);
          Lower(a)[i];
        }
      } else {
        calc {
          l[i];
          LowerChar((a + b)[i]);
          LowerChar(b[i - |a|]);
          Lower(b)[i - |a|];
        }
      }
    }
  }

  predicate StartsWith(s: string, prefix: string) {
    |prefix| <= |s| && s[..|prefix|] == prefix
  }

  predicate EndsWith(s: string, suffix: string) {
    |suffix| <= |s| && s[|s| - |suffix|..] == suffix
  }

  /** `sub in s` for Python strings. */
  predicate Contains(s: string, sub: string)
    decreases |s|
  {
    StartsWith(s, sub) || (|s| > 0 && Contains(s[1..], sub))
  }

  lemma {:induction false} ContainsAt(s: string, sub: string, i: nat)
    requires i + |sub| <= |s| && s[i..i + |sub|] == sub
    ensures Contains(s, sub)
    decreases i
  {
    if i == 0 {
      assert s[..|sub|] == s[0..|sub|];
    } else {
      assert s[1..][i - 1..i - 1 + |sub|] == s[i..i + |sub|];
      ContainsAt(s[1..], sub, i - 1);
    }
  }

  lemma {:induction false} ContainsPrefixed(p: string, s: string, sub: string)
    requires Contains(s, sub)
    ensures Contains(p + s, sub)
    decreases |p|
  {
    if |p| > 0 {
      ContainsPrefixed(p[1..], s, sub);
      assert (p + s)[1..] == p[1..] + s;
    } else {
      assert p + s == s;
    }
  }

  /** Index of the last occurrence of `c` in `s` (`str.rfind`). */
  function LastIndexOf(s: string, c: char): (r: Option<nat>)
    ensures r.None? ==> forall i :: 0 <= i < |s| ==> s[i] != c
    ensures r.Some? ==> r.value < |s| && s[r.value] == c
    ensures r.Some? ==> forall i :: r.value < i < |s| ==> s[i] != c
  {
    if |s| == 0 then None
    else if s[|s| - 1] == c then Some(|s| - 1)
    else LastIndexOf(s[..|s| - 1], c)
  }

  /**
   `PurePath(name).suffix` of a bare file name: the text from the last dot,
   provided that dot is neither the first nor the last character; otherwise
   the empty string.
   */
  function Suffix(name: string): (r: string)
    ensures r == [] || (2 <= |r| < |name| && r[0] == '.' && EndsWith(name, r))
    ensures r != [] ==> forall i :: 0 < i < |r| ==> r[i] != '.'
  {
    match LastIndexOf(name, '.')
    case Some(i) =>
      if 0 < i < |name| - 1 then
        assert name[|name| - |name[i..]|..] == name[i..];
        name[i..]
      else []
    case None => []
  }

  /** `name[i]` is the last dot of `name`, and it is neither the first nor the last character. */
  predicate SuffixDot(name: string, i: int) {
    0 < i < |name| - 1 && name[i] == '.' && forall j :: i < j < |name| ==> name[j] != '.'
  }

  /**
   The suffix is the text from such a dot when there is one, and empty
   exactly when there is none: a name without a dot, with its only dots
   leading, or ending in a dot has no suffix.
   */
  lemma SuffixAtLastDot(name: string)
    ensures forall i :: SuffixDot(name, i) ==> Suffix(name) == name[i..]
    ensures Suffix(name) != [] <==> exists i :: SuffixDot(name, i)
  {
    forall i | SuffixDot(name, i)
      ensures Suffix(name) == name[i..]
    {
      var k := LastIndexOf(name, '.');
      assert k.Some?;
      assert k.value == i;
    }
    match LastIndexOf(name, '.')
    case Some(k) =>
      if 0 < k < |name| - 1 {
        assert SuffixDot(name, k);
      }
    case None =>
  }

  /** `os.path.join(dir, name)` for a POSIX directory path and a bare name. */
  function Join(dir: string, name: string): (r: string)
    ensures |r| == |dir| + 1 + |name|
    ensures EndsWith(r, "/" + name)
  {
    assert (dir + "/" + name)[|dir| + 1 - 1..] == "/" + name;
    dir + "/" + name
  }

  /** `os.path.basename(path)`: everything after the last separator. */
  function BaseName(path: string): (r: string)
    ensures EndsWith(path, r)
    ensures forall i :: 0 <= i < |r| ==> r[i] != '/'
  {
    match LastIndexOf(path, '/')
    case Some(i) =>
      assert path[|path| - |path[i + 1..]|..] == path[i + 1..];
      path[i + 1..]
    case None =>
      assert path[|path| - |path|..] == path;
      path
  }

  lemma BaseNameOfJoin(dir: string, name: string)
    requires forall i :: 0 <= i < |name| ==> name[i] != '/'
    ensures BaseName(Join(dir, name)) == name
  {
    var p := Join(dir, name);
    assert p[|dir|] == '/';
    assert forall i :: |dir| < i < |p| ==> p[i] == name[i - |dir| - 1];
    assert LastIndexOf(p, '/') == Some(|dir|);
    assert p[|dir| + 1..] == name;
  }

  /** Python's `<` on strings: lexicographic by code point, a proper prefix first. */
  predicate Less(a: string, b: string)
    decreases |a|
  {
    if |a| == 0 then |b| > 0
    else if |b| == 0 then false
    else if a[0] == b[0] then Less(a[1..], b[1..])
    else a[0] < b[0]
  }

  lemma {:induction false} LessIrreflexive(a: string)
    ensures !Less(a, a)
    decreases |a|
  {
    if |a| > 0 {
      LessIrreflexive(a[1..]);
    }
  }

  lemma {:induction false} LessAsymmetric(a: string, b: string)
    requires Less(a, b)
    ensures !Less(b, a)
    decreases |a|
  {
    if |a| > 0 && |b| > 0 && a[0] == b[0] {
      LessAsymmetric(a[1..], b[1..]);
    }
  }

  lemma {:induction false} LessTransitive(a: string, b: string, c: string)
    requires Less(a, b) && Less(b, c)
    ensures Less(a, c)
    decreases |a|
  {
    if |a| > 0 && |b| > 0 && |c| > 0 && a[0] == b[0] && b[0] == c[0] {
      LessTransitive(a[1..], b[1..], c[1..]);
    }
  }

  lemma {:induction false} LessTotal(a: string, b: string)
    requires a != b
    ensures Less(a, b) || Less(b, a)
    decreases |a|
  {
    if |a| > 0 && |b| > 0 && a[0] == b[0] {
      assert a == [a[0]] + a[1..] && b == [b[0]] + b[1..];
      LessTotal(a[1..], b[1..]);
    }
  }
}
